=== FILE: README.md ===
# Memory gateway core, modelled in Dafny

This project models the core of a small memory service for AI agents. Agents save memories: a
text, a memory type, an importance level, tags and an optional related task id. They query them
back by keyword, with a type filter, a similarity threshold and a result limit. The project models:

- **Request models** (`src/models/memory.py`): the four memory types and five importance levels;
  the `content` validator, which rejects blank text and keeps the stripped text; the query
  defaults (`limit` 10, `min_similarity` 0.3) and bounds (`1 <= limit <= 100`,
  `0 <= min_similarity <= 1`). Module `MemoryModels`.
- **The in-memory store** (`MockMemoryStorage` in `src/storage/memory_storage.py`) is modelled
  in module `MemoryStorage`:
  - `save_memory`: task-id resolution with Python truthiness, so `0` counts as absent; the context
    key `"{task_id}_{type}"`; overwrite-in-place in an insertion-ordered dict.
  - `query_memory`: literal, case-insensitive substring filter; type filter; similarity
    threshold; stable descending sort; `[:limit]` slice; `total` counts every survivor.
  - `_calculate_similarity`, in module `Similarity`: the share of the query's distinct
    lower-cased words that occur in the content.
  - The stable sort is in module `Ranking`.
  - `StorageError` is the datatype of the same name.
- **Backend selection** (`create_storage`), in module `StorageFactory`.
- **The language-model controllers** (`src/a_mem/agentic_memory/llm_controller.py`):
  - the API-key lookups of the OpenAI and GLM controllers;
  - the backend dispatch of `LLMController`;
  - the GLM reply clean-up (module `GlmReply`);
  - the Ollama fallback that answers a failed call with a JSON object of "empty" values (module
    `OllamaFallback`);
  - what each backend returns from `get_completion` (module `LlmController`).

Supporting modules:
- `Text` models the Python string operations involved: `isspace`, `lower`, `split()`, `strip()`,
  `in`, `replace`, and the `re.sub` that removes code fences.
- `PyDict` models an insertion-ordered `dict`.
- `Decimal` models `str(int)`.
- `JsonValue` models `json.dumps` with its defaults, together with a reader for that layout.
- `Wrappers` provides `Option` and `Result`.

Parameters stand in for what the code reads from outside:
- The clock reading for `created_at` is an integer `now` passed to `SaveMemory`.
- The `MEMORY_STORAGE`, `OPENAI_API_KEY` and `GLM_API_KEY` environment variables are
  `Option<string>` arguments.
- The outcome of a remote completion call (reply text or exception) is a `CallOutcome` argument.
- Whether the agentic backend's constructor succeeded is an `AgenticInit` argument.

The model follows the code as written. Three points deserve a note:
- `search_text` of a query has no validator in the code, so an empty search text is accepted.
  With an empty search text every memory passes the substring filter, and every memory scores 0.
- `create_storage` and the Ollama fallback are logged under "Findings" below. Each is modelled
  twice: once as written, and once corrected to the behaviour the code itself announces. For
  `create_storage` that is its docstring (`src/storage/memory_storage.py:234-236`). For the
  Ollama fallback it is the `except` handler of `get_completion`, which exists to answer a
  failed call with an empty object (`src/a_mem/agentic_memory/llm_controller.py:128-130`).
- `LlmController.CompleteAsWritten` is `get_completion` as written.
  `LlmController.Complete` is the same dispatch over the corrected Ollama fallback.

## Model

| member | source | states |
|---|---|---|
| MemoryModels.ParseMemoryType | src/models/memory.py:11-16 | a string coerces to a memory type exactly when it is one of the four values, and the type's value is that string |
| MemoryModels.MemoryTypeIsClosed | src/models/memory.py:11-16 | there are exactly four memory types, their values are distinct, and parsing a type's value gives the type back |
| MemoryModels.ParseImportance | src/models/memory.py:19-25 | a string coerces to an importance level exactly when it is one of the five values |
| MemoryModels.ImportanceIsClosed | src/models/memory.py:19-25 | there are exactly five importance levels with distinct values, and parsing inverts `value` |
| MemoryModels.ValidateContent | src/models/memory.py:35-39 | content is accepted exactly when it is not blank; the accepted value is the stripped text, non-empty, with no whitespace at either end; otherwise the error is "记忆内容不能为空" |
| MemoryModels.NewSaveMemoryRequest | src/models/memory.py:28-39 | a save request is built exactly when content, type and importance are all valid; an error names exactly the failing fields; tags and related task id pass unchanged |
| MemoryModels.FailedFields | src/models/memory.py:28-31 | a field's name is reported exactly when its check failed, nothing else is reported, and the report is empty exactly when all three checks pass |
| MemoryModels.ParseMemoryTypes | src/models/memory.py:60 | a type filter coerces exactly when every entry is a memory type, keeping length and order |
| MemoryModels.NewQueryMemoryRequest | src/models/memory.py:57-62 | a query is built exactly when the filter coerces, `limit` is in 1..100 and `min_similarity` is in 0..1; omitted values default to 10 and 0.3; a given filter is kept as its coerced list, so an empty list stays empty and an omitted one stays absent; a rejection names `memory_types`, `limit` and `min_similarity` each exactly when that field failed |
| MemoryStorage.NewMockStore | src/storage/memory_storage.py:144-146 | a new store is empty with its task counter at 1 |
| MemoryStorage.ContextKeyInjective | src/storage/memory_storage.py:156 | two context keys are equal only for the same task id and memory type |
| MemoryStorage.ContextKey | src/storage/memory_storage.py:156 | the key is the task id's decimal text, then `_`, then the type's value, and the first underscore in it is that separator |
| MemoryStorage.ResolveTaskId | src/storage/memory_storage.py:152 | a truthy related task id is used as given; `None` or `0` takes the counter value |
| MemoryStorage.SaveMemory | src/storage/memory_storage.py:148-180 | the counter advances exactly when the related task id is falsy; the key row holds the saved data; every other key keeps its row; the table grows by at most one and keeps its key order |
| MemoryStorage.ZeroTaskIdMeansAbsent | src/storage/memory_storage.py:152-154 | a related task id of 0 behaves exactly like none and takes the counter value |
| MemoryStorage.SaveOverwrites | src/storage/memory_storage.py:156-171 | a second save with the same task id and type replaces the row: same key, same table size, new content, and the map view changes at that key only |
| MemoryStorage.QueryMemory | src/storage/memory_storage.py:182-219 | `total` counts the survivors; the page holds `min(limit, total)` of them, sorted by descending similarity; no survivor left off the page scores higher than one on it, because the code sorts before it slices |
| MemoryStorage.SurvivorsExactly | src/storage/memory_storage.py:186-210 | an item survives filtering exactly when it comes from a row that passes all three filters |
| MemoryStorage.Passes | src/storage/memory_storage.py:189-199 | the filter: the lower-cased content contains the lower-cased search text, the type is in the type filter when that filter is a non-empty list, and the score reaches the threshold |
| MemoryStorage.Survivors | src/storage/memory_storage.py:186-210 | filtering never yields more items than rows, and every item reaches the similarity threshold |
| MemoryStorage.QueryIsSound | src/storage/memory_storage.py:189-214 | every returned memory contains the search text ignoring case, has an accepted type, and scores at least the threshold |
| MemoryStorage.QueryIsComplete | src/storage/memory_storage.py:189-219 | every row passing the filters is counted, and is returned whenever `limit` is at least `total` |
| MemoryStorage.QueryKeepsTableOrderOnTies | src/storage/memory_storage.py:212-214 | for every score, the returned items with that score are the first surviving rows with that score, in table order |
| MemoryStorage.SaveThenQuery | src/storage/memory_storage.py:148-230 | after saving non-blank content, querying for that content with any threshold up to 1 finds it, with similarity 1 |
| MemoryStorage.Head | src/storage/memory_storage.py:214 | `s[:n]` is a prefix of `s` of length `min(n, len(s))` for non-negative `n` |
| MemoryStorage.HeadIsTop | src/storage/memory_storage.py:212-214 | cutting a list ranked by descending similarity keeps its best items: nothing cut scores higher than anything kept |
| Similarity.TokenSet | src/storage/memory_storage.py:223-224 | the word set holds only non-empty words without whitespace |
| Similarity.Score | src/storage/memory_storage.py:221-230 | the score is in [0, 1]; it is 0 exactly when no query word occurs in the content, and 1 exactly when every query word does |
| Similarity.TokenSetEmptyIffBlank | src/storage/memory_storage.py:223-227 | a text has no words exactly when it is blank |
| Similarity.ScoreOfSelf | src/storage/memory_storage.py:221-230 | a non-blank text scores 1 against itself |
| Similarity.ScoreOfBlankQuery | src/storage/memory_storage.py:226-227 | a blank query scores 0 against any content |
| Similarity.ScoreIgnoresCase | src/storage/memory_storage.py:223-224 | lower-casing the query, the content, or both leaves the score unchanged |
| Ranking.SortBySimilarity | src/storage/memory_storage.py:212 | the result is sorted by descending similarity and is a permutation of the input |
| Ranking.SortIsStable | src/storage/memory_storage.py:212 | for every score, sorting keeps the items with that score in their original order |
| Text.Words | src/storage/memory_storage.py:223-224 | `split()` yields only non-empty words without whitespace |
| Text.WordsOfWord | src/storage/memory_storage.py:223-224 | a non-empty text without whitespace splits into itself alone |
| Text.WordsSplitAtSpace | src/storage/memory_storage.py:223-224 | a whitespace character cuts the text in two: the words are those before it followed by those after it; with `WordsOfWord` this fixes `split()` on every input |
| Text.WordsEmptyIffAllSpace | src/storage/memory_storage.py:226 | `split()` is empty exactly when the text is blank |
| Text.SplitJoin | src/storage/memory_storage.py:223-224 | splitting words joined by single spaces gives the words back |
| Text.Strip | src/models/memory.py:37-39 | `strip()` returns the slice that starts where the leading whitespace run ends, has no whitespace at either end, and is followed only by whitespace |
| Text.StripMeetsDescription | src/models/memory.py:37-39 | the result of `strip()` is a slice of the input with only whitespace before and after it and none at its own ends |
| Text.StripKeepsText | src/models/memory.py:39 | `strip()` only removes whitespace: the result's characters are a sub-multiset of the input's, and every other character keeps its count |
| Text.StrippedFromIsUnique | src/models/memory.py:37-39 | any slice that removes only whitespace and leaves none at the ends is `strip()`'s result |
| Text.StripEmptyIffAllSpace | src/models/memory.py:37 | `v.strip()` is empty exactly when `v` is blank |
| Text.ContainsIffOccurs | src/storage/memory_storage.py:190 | `needle in hay` holds exactly when the needle occurs at some position |
| Text.Contains | src/storage/memory_storage.py:190 | a needle at the front of the text is found, and a found needle is no longer than the text |
| Text.ReplaceAbsent | src/a_mem/agentic_memory/llm_controller.py:75 | `replace` leaves text without the pattern unchanged |
| Text.ReplaceSkipsPrefix | src/a_mem/agentic_memory/llm_controller.py:75 | text holding no first letter of the pattern is copied unchanged ahead of the replaced rest |
| Text.ReplaceWithoutHead | src/a_mem/agentic_memory/llm_controller.py:75 | text holding no first letter of the pattern comes back unchanged |
| Text.ReplaceSingle | src/a_mem/agentic_memory/llm_controller.py:75 | one occurrence whose first letter appears nowhere else is replaced, and nothing around it changes |
| Text.Replace | src/a_mem/agentic_memory/llm_controller.py:75 | an empty pattern inserts the replacement once more than the text has characters; a non-empty pattern replaced by an equally long string keeps the length |
| Text.ReplaceSameLength | src/a_mem/agentic_memory/llm_controller.py:75 | replacing a non-empty pattern with an equally long string keeps the length, and each changed character is a character of the pattern turned into the replacement character at the same offset |
| Text.ReplaceChangesWithin | src/a_mem/agentic_memory/llm_controller.py:75 | with an equally long replacement, every changed position lies inside an occurrence of the pattern in the input, and holds the replacement character for its offset in that occurrence |
| Text.ReplaceAt | src/a_mem/agentic_memory/llm_controller.py:75 | when the pattern's first character occurs nowhere else in it, every occurrence in the input is replaced in place |
| Text.ReplaceKeepsRegion | src/a_mem/agentic_memory/llm_controller.py:75 | a stretch of the input without the pattern's first character, and not starting with a later pattern character, comes through unchanged |
| Text.ReplaceAvoids | src/a_mem/agentic_memory/llm_controller.py:75 | `replace` creates no occurrence of a string that was absent, provided the replacement cannot complete it |
| Text.StripFencesRemovesFences | src/a_mem/agentic_memory/llm_controller.py:74 | no triple backtick survives the fence-removing substitution |
| Text.StripFences | src/a_mem/agentic_memory/llm_controller.py:74 | the substitution never lengthens the text |
| Text.StripFencesKeepsText | src/a_mem/agentic_memory/llm_controller.py:74 | counting characters: the result's characters are a sub-multiset of the input's, and every character that does not occur in "```json" keeps its count |
| Text.StripFencesOnlyDeletes | src/a_mem/agentic_memory/llm_controller.py:74 | the substitution only deletes, and only fence text: the result is the input's characters at strictly increasing positions, and every position left out lies inside a match of "```json" or "```" |
| Text.StripFencesSplit | src/a_mem/agentic_memory/llm_controller.py:74 | where the text before a backtick does not itself end in one, no match crosses that point: the substitution cleans the two sides independently |
| Text.StripFencesDeletesJsonFence | src/a_mem/agentic_memory/llm_controller.py:74 | every "```json" the scan reaches is deleted whole, its `json` with its backticks, and the text around it is cleaned as if it were absent |
| Text.StripFencesDeletesFence | src/a_mem/agentic_memory/llm_controller.py:74 | every bare "```" the scan reaches is deleted, and it is bare exactly when `json` does not follow |
| Text.StripFencesOfBacktickFree | src/a_mem/agentic_memory/llm_controller.py:74 | text without a backtick passes through unchanged |
| Text.StripFencesOfJsonBlock | src/a_mem/agentic_memory/llm_controller.py:74 | a "```json" … "```" block around backtick-free text comes back as exactly that text |
| Text.StripFencesOfBareBlock | src/a_mem/agentic_memory/llm_controller.py:74 | a "```" … "```" block around backtick-free text comes back as that text, less a leading `json` that the opening match takes |
| Decimal.ReadShowInt | src/storage/memory_storage.py:156 | the decimal rendering of every integer reads back as that integer |
| Decimal.ShowIntInjective | src/storage/memory_storage.py:156 | distinct integers render differently |
| Decimal.ShowInt | src/storage/memory_storage.py:156 | the decimal rendering of an integer is non-empty and has no underscore |
| PyDict.Put | src/storage/memory_storage.py:171 | assignment sets the key, leaves every other key, grows the dict only for a new key, and keeps key order |
| PyDict.PutIsMapUpdate | src/storage/memory_storage.py:171 | on the unordered view, assignment is a map update |
| JsonValue.Dump | src/a_mem/agentic_memory/llm_controller.py:130 | the text `json.dumps` writes is plain ASCII and reads back with `ParseJson` as the value it was written from |
| JsonValue.DumpIsAscii | src/a_mem/agentic_memory/llm_controller.py:130 | `json.dumps` output is plain ASCII |
| StorageFactory.CreateStorageAsWritten | src/storage/memory_storage.py:233-259 | "mock" gives a fresh mock store; "agentic" gives the agentic backend, or a fresh mock store when its construction fails; any other value yields nothing |
| StorageFactory.UnrecognisedSelectorYieldsNothing | src/storage/memory_storage.py:238-259 | the settings "mem0" and "" leave the caller without a backend |
| StorageFactory.CreateStorage | src/storage/memory_storage.py:233-237 | "mock" gives a fresh mock store; any other or missing value gives the agentic backend exactly when its construction succeeds, and a fresh mock store otherwise |
| StorageFactory.CreateStorageRefinesAsWritten | src/storage/memory_storage.py:233-259 | wherever the code returns a backend, it is the documented one |
| StorageFactory.MockSelectorIgnoresCase | src/storage/memory_storage.py:238-242 | "MOCK" and "Mock" select the mock store |
| StorageFactory.UnsetSelectorTriesAgentic | src/storage/memory_storage.py:238-254 | with no setting the agentic backend is tried, and its failure falls back to a fresh mock store |
| StorageFactory.Selector | src/storage/memory_storage.py:238 | an unset variable selects "agentic"; a set one keeps its length and loses its upper-case ASCII letters |
| GlmReply.Unfenced | src/a_mem/agentic_memory/llm_controller.py:74 | the unfenced text has no triple backtick and no whitespace at either end |
| GlmReply.UnfencedKeepsText | src/a_mem/agentic_memory/llm_controller.py:74 | counting characters after removing fences and stripping: the result's characters are a sub-multiset of the reply's, and every character that is neither whitespace nor in "```json" keeps its count |
| GlmReply.UnfencedOnlyDeletes | src/a_mem/agentic_memory/llm_controller.py:74 | removing fences and stripping only deletes: the lemma returns strictly increasing positions of the reply whose characters are, in order, the unfenced text, and every position left out lies inside a fence match or holds whitespace |
| GlmReply.UnfencedOfJsonBlock | src/a_mem/agentic_memory/llm_controller.py:74 | a reply fenced as a "```json" block around backtick-free text unfences to that text, stripped |
| GlmReply.UnfencedOfBareBlock | src/a_mem/agentic_memory/llm_controller.py:74 | a reply fenced by bare "```" unfences to the stripped text between, less a leading `json` |
| GlmReply.CleanReply | src/a_mem/agentic_memory/llm_controller.py:74-75 | the cleaned reply contains no fence and none of `True`, `False`, `None` |
| GlmReply.NoLiteralSurvives | src/a_mem/agentic_memory/llm_controller.py:75 | after the three replacements no Python literal is left, and no fence is formed |
| GlmReply.ReplaceLiterals | src/a_mem/agentic_memory/llm_controller.py:75 | the three replacements keep the length |
| GlmReply.ReplaceLiteralsAt | src/a_mem/agentic_memory/llm_controller.py:75 | wherever the text holds `True`, `False` or `None`, the replaced text holds `true`, `false` or `null` at the same position |
| GlmReply.ReplaceLiteralsChangesWithin | src/a_mem/agentic_memory/llm_controller.py:75 | the replacements change a character only inside an occurrence of `True`, `False` or `None` in the input; every other character stays where it was |
| GlmReply.ReplaceLiteralsExactly | src/a_mem/agentic_memory/llm_controller.py:75 | character by character: inside an occurrence of a Python literal the JSON spelling stands at the same offset, and outside every occurrence the input's character is kept |
| GlmReply.ReplaceLiteralsOnlyRespells | src/a_mem/agentic_memory/llm_controller.py:75 | the replacements keep the length, and change only letters of a Python literal into letters of a JSON literal |
| GlmReply.ReplaceLiteralsOfLiteralFree | src/a_mem/agentic_memory/llm_controller.py:75 | text without the three literals passes unchanged |
| GlmReply.CleanReplyOfLiteralFree | src/a_mem/agentic_memory/llm_controller.py:74-75 | a reply whose unfenced text has no Python literal comes back as exactly that text |
| GlmReply.CleanReplyOnlyRespells | src/a_mem/agentic_memory/llm_controller.py:74-75 | the cleaned reply has the unfenced text's length and differs from it only in respelt literal letters |
| GlmReply.CleanReplyAt | src/a_mem/agentic_memory/llm_controller.py:74-75 | wherever the unfenced reply holds a Python literal, the cleaned reply holds its JSON spelling at the same position |
| GlmReply.CleanReplyChangesWithin | src/a_mem/agentic_memory/llm_controller.py:74-75 | against the unfenced text, the cleaned reply differs only inside an occurrence of a Python literal, where the JSON spelling stands at the same offset |
| GlmReply.CleanReplyOfJsonBlock | src/a_mem/agentic_memory/llm_controller.py:74-75 | a "```json" block around backtick-free text is cleaned to that text, stripped and with its literals respelt |
| GlmReply.CleanReplyOfBlockWithTrue | src/a_mem/agentic_memory/llm_controller.py:74-75 | a "```json" block holding one line with a single `True` and no other literal letter is cleaned to that line with `true` |
| GlmReply.CleanReplyOfFencedObject | src/a_mem/agentic_memory/llm_controller.py:74-75 | the reply "```json\n{"a": True}\n```" is cleaned to `{"a": true}` |
| GlmReply.CleanReplyIsTrimmed | src/a_mem/agentic_memory/llm_controller.py:74-75 | the cleaned reply has no whitespace at either end |
| GlmReply.CleanReplyIdempotent | src/a_mem/agentic_memory/llm_controller.py:74-75 | cleaning a cleaned reply changes nothing |
| OllamaFallback.EmptyValue | src/a_mem/agentic_memory/llm_controller.py:89-100 | the result is one of the empty values, and any non-`None` result is the one for its own type name |
| OllamaFallback.EmptyValueOfTypeName | src/a_mem/agentic_memory/llm_controller.py:89-100 | every empty value is what its type name generates, so the five names and five values correspond one to one |
| OllamaFallback.UnknownTypeIsNull | src/a_mem/agentic_memory/llm_controller.py:89-100 | any other type name gives `None` |
| OllamaFallback.EmptyResponseAsWritten | src/a_mem/agentic_memory/llm_controller.py:102-114 | when the code returns an object, every value in it is empty |
| OllamaFallback.FillAsWritten | src/a_mem/agentic_memory/llm_controller.py:109-112 | when the assignment loop finishes without raising, every value it assigned is an empty value |
| OllamaFallback.EmptyResponse | src/a_mem/agentic_memory/llm_controller.py:102-114 | without a property table the object is empty; with one, its keys are the property names in order, each mapped to the empty value of its declared type |
| OllamaFallback.EmptyResponseGet | src/a_mem/agentic_memory/llm_controller.py:109-112 | looking up a property in the object gives the empty value of its type, and a non-property is absent |
| OllamaFallback.FillAsWrittenAgrees | src/a_mem/agentic_memory/llm_controller.py:109-112 | the assignment loop, when it finishes, builds exactly the intended object |
| OllamaFallback.EmptyResponseRefinesAsWritten | src/a_mem/agentic_memory/llm_controller.py:102-114 | wherever the code returns an object, it is the intended one |
| OllamaFallback.NoneFormatRaises | src/a_mem/agentic_memory/llm_controller.py:103-104 | with `response_format=None` the code raises `TypeError`, where the intended fallback is `{}` |
| OllamaFallback.MissingSchemaRaises | src/a_mem/agentic_memory/llm_controller.py:106 | a `json_schema` without `schema` raises `KeyError`, where the intended fallback is `{}` |
| OllamaFallback.UntypedPropertyRaises | src/a_mem/agentic_memory/llm_controller.py:110-112 | a property without `type` raises `KeyError`, where the intended fallback maps it to `None`, the value `_generate_empty_value` gives an unknown type |
| OllamaFallback.OllamaCompletionAsWritten | src/a_mem/agentic_memory/llm_controller.py:116-130 | a reply passes through; a failed call returns text exactly when building the fallback does not raise |
| OllamaFallback.OllamaCompletion | src/a_mem/agentic_memory/llm_controller.py:116-130 | corrected: a reply passes through; a failed call yields ASCII JSON text that reads back as the intended empty object |
| OllamaFallback.OllamaCompletionRefinesAsWritten | src/a_mem/agentic_memory/llm_controller.py:116-130 | wherever the code returns, the corrected completion returns the same text |
| OllamaFallback.DefaultFormatFallback | src/a_mem/agentic_memory/llm_controller.py:128-130 | with no response format a failed call raises `TypeError` as written, and yields `{}` once corrected |
| LlmController.NewOpenAIController | src/a_mem/agentic_memory/llm_controller.py:13-21 | construction succeeds exactly when an explicit or environment key exists; an explicit key wins and is exported to `OPENAI_API_KEY`; otherwise the error is the documented message |
| LlmController.NewGLMController | src/a_mem/agentic_memory/llm_controller.py:38-45 | construction succeeds exactly when an explicit or environment key exists; the controller keeps the explicit key, or else the environment's |
| LlmController.NewLLMController | src/a_mem/agentic_memory/llm_controller.py:134-145 | an unknown backend is rejected with the documented message; construction succeeds exactly when the backend is known and any key it needs is found; the controller has the requested backend and model |
| LlmController.ConstructRoundTrip | src/a_mem/agentic_memory/llm_controller.py:138-145 | every controller is rebuilt from its own backend name, model and key |
| LlmController.DefaultConstruction | src/a_mem/agentic_memory/llm_controller.py:134-139 | with all defaults, construction yields an OpenAI `gpt-4` controller exactly when `OPENAI_API_KEY` is set |
| LlmController.ExportedKeyServesLaterControllers | src/a_mem/agentic_memory/llm_controller.py:16-21 | once an OpenAI controller is built, later ones need no key and leave the environment unchanged |
| LlmController.OnlyOwnKeyMatters | src/a_mem/agentic_memory/llm_controller.py:13-45 | each backend reads only its own environment variable |
| LlmController.CompleteAsWritten | src/a_mem/agentic_memory/llm_controller.py:116-148 | as written: a reply always yields text; a failed OpenAI or GLM call raises; a failed Ollama call yields text exactly when building the fallback does not raise, and otherwise raises the fallback's own error |
| LlmController.Complete | src/a_mem/agentic_memory/llm_controller.py:116-148 | corrected: only an OpenAI or GLM call can fail; OpenAI and Ollama replies pass through; GLM replies come back cleaned; a failed Ollama call yields JSON text that reads back as the empty object |
| LlmController.GlmCompletionCleans | src/a_mem/agentic_memory/llm_controller.py:71-77 | for a reply, the GLM controller returns exactly the cleaned message content |
| LlmController.GlmCompletionShape | src/a_mem/agentic_memory/llm_controller.py:71-77 | a GLM reply has the unfenced text's length, differs from it only in respelt literal letters, and has no whitespace at either end |
| LlmController.GlmCompletionStable | src/a_mem/agentic_memory/llm_controller.py:74-77 | a GLM reply that came back verbatim would be returned unchanged |
| LlmController.CompleteRefinesAsWritten | src/a_mem/agentic_memory/llm_controller.py:116-130 | wherever the code returns text, the corrected completion returns the same text, and a failed OpenAI or GLM call raises in both |
| LlmController.DefaultFormatCompletion | src/a_mem/agentic_memory/llm_controller.py:147-148 | with the default `response_format=None`, a failed Ollama call raises `TypeError` in the code as written, and yields `{}` once corrected |

## Left out

- The agentic backend (`AgenticMemoryStorage`) is out of scope: it wraps an external memory engine with vector search. `create_storage` sees only whether its constructor succeeded.
- Text.Contains: its own contract gives two consequences of `in`. The exact condition, an occurrence at some position, is the lemma `Text.ContainsIffOccurs`; it stays out of the function's contract so that proofs that mention `in` do not carry an existential.
- Text.StripFences: its own contract gives only the length bound. That it deletes only fence text and keeps the order of the rest is the lemma `Text.StripFencesOnlyDeletes`. That every match the scan meets is deleted whole, the `json` of ```` ```json ```` included, is the lemmas `Text.StripFencesDeletesJsonFence` and `Text.StripFencesDeletesFence`, with `Text.StripFencesSplit` for the text on either side. The function is recursive and those proofs are about it, so the facts cannot sit in its own contract.
- GlmReply.Unfenced: its own contract gives no fence and trimmed ends. That it only deletes fence text and separators, in order, is the lemma `GlmReply.UnfencedOnlyDeletes`; that a fenced block unfences to the stripped text inside is `GlmReply.UnfencedOfJsonBlock` and `GlmReply.UnfencedOfBareBlock`. Keeping these quantified facts out of the contract keeps them out of every proof that uses the function.
- GlmReply.ReplaceLiterals: its own contract gives the length. Its exact effect, character by character, is the lemma `GlmReply.ReplaceLiteralsExactly`, whose proof is about the function.
- GlmReply.CleanReply: its own contract gives no fence and no Python literal. Its exact effect on the unfenced text is the lemma `GlmReply.CleanReplyChangesWithin`.
- Text.Lower: lower-cases ASCII letters only. Python's `str.lower` covers all of Unicode, so case-insensitive matching of non-ASCII text is not modelled.
- Similarity scores and `min_similarity` are exact rationals (`real`), not IEEE doubles. Rounding in the division is not modelled.
- `created_at` is an integer clock reading supplied by the caller. `datetime.utcnow()` and ISO formatting are not modelled.
- Pydantic coercion beyond the enums, the content validator and the numeric bounds is not modelled. That covers string and integer coercion of other fields, error message texts and the error layout. A validation error carries only the names of the failing fields.
- Logging and the `print` to standard error in `create_storage` have no observable effect on results and are not modelled.
- The remote completion calls (litellm `completion`, the GLM HTTP request, `raise_for_status`, `response.json()`) are replaced by a `CallOutcome`. Any exception they raise, including a malformed GLM response body, is the single outcome `Failed`.
- The prompt, temperature, model name, token limit and request headers only reach the remote service, so they do not appear in the completion functions.
- The OpenAI and Ollama controllers return `response.choices[0].message.content`, which can be `None` in the library. The model treats both replies as text, so `Complete`, `CompleteAsWritten` and `OllamaCompletion` pass a reply through as a string.
- The `schema_items` argument of `_generate_empty_value` is passed but never used, so it is not modelled.
- JsonValue.ParseJson: reads only the layout `json.dumps` produces with default settings (", " and ": " separators, integers without exponent, `\uXXXX` escapes). It is not a general JSON parser. Floats are not among the values.
- JsonValue.Dump: characters are Dafny `char`s, which are Unicode scalar values. A lone surrogate in a Python string cannot occur in the model.
- `BaseLLMController` and `MemoryStorageInterface` are abstract interfaces with no behaviour of their own.

## Findings

| source | as written | input that shows it | evidently intended | confidence | as-written member | corrected member |
|---|---|---|---|---|---|---|
| src/storage/memory_storage.py:238-259 | only "mock" and "agentic" return a backend; any other `MEMORY_STORAGE` value, including the empty string, falls off the end of `create_storage` and returns `None` | `MEMORY_STORAGE=mem0` or `MEMORY_STORAGE=` | the docstring: every other or unset value uses the agentic backend, falling back to a mock store | not executed | StorageFactory.CreateStorageAsWritten, StorageFactory.UnrecognisedSelectorYieldsNothing | StorageFactory.CreateStorage |
| src/a_mem/agentic_memory/llm_controller.py:102-130 | the fallback object is built inside the `except` block with plain `in` and `[...]`, so a failed Ollama call raises again when the response format is `None`, lacks `schema`, or has a property without `type` | `LLMController("ollama").get_completion(p)` with the default `response_format=None` after the call fails: `"json_schema" in None` raises `TypeError` | a failed call is answered with the JSON text of the empty object (`{}` when there is no property table, `None` for an untyped property) and never raises | not executed | OllamaFallback.OllamaCompletionAsWritten, LlmController.CompleteAsWritten, LlmController.DefaultFormatCompletion | OllamaFallback.OllamaCompletion, LlmController.Complete |

=== FILE: decimal.dfy ===
/** Decimal rendering of integers, as Python's `str(int)` and f-string interpolation produce it,
    together with a reader that inverts it. */
module Decimal {
  import opened Wrappers

  predicate IsDigit(c: char) {
    '0' <= c <= '9'
  }

  predicate AllDigits(s: string) {
    forall i :: 0 <= i < |s| ==> IsDigit(s[i])
  }

  function DigitChar(d: nat): (c: char)
    requires d < 10
    ensures IsDigit(c)
  {
    ('0' as int + d) as char
  }

  function DigitValue(c: char): (d: nat)
    requires IsDigit(c)
    ensures d < 10 && DigitChar(d) == c
  {
    c as int - '0' as int
  }

  /** `str(n)` for `n >= 0`: the digits of `n`, most significant first, without leading zeros. */
  function ShowNat(n: nat): (s: string)
    ensures |s| > 0 && AllDigits(s)
    ensures s[0] == '0' <==> n == 0
    ensures n == 0 ==> s == "0"
  {
    if n < 10 then [DigitChar(n)] else ShowNat(n / 10) + [DigitChar(n % 10)]
  }

  /** `str(i)`: a minus sign for negative values, then the digits of the magnitude. */
  function ShowInt(i: int): (s: string)
    ensures |s| > 0
    ensures forall k :: 0 <= k < |s| ==> s[k] != '_'
  {
    if i < 0 then "-" + ShowNat(-i) else ShowNat(i)
  }

  /** The value of a string of decimal digits. */
  function DigitsValue(s: string): nat
    requires AllDigits(s)
  {
    if |s| == 0 then 0 else DigitsValue(s[..|s| - 1]) * 10 + DigitValue(s[|s| - 1])
  }

  /** Reads back an optional minus sign followed by at least one decimal digit. */
  function ReadInt(s: string): Option<int> {
    if |s| > 1 && s[0] == '-' && AllDigits(s[1..]) then Some(-(DigitsValue(s[1..]) as int))
    else if |s| > 0 && AllDigits(s) then Some(DigitsValue(s))
    else None
  }

  lemma {:induction false} ReadShowNat(n: nat)
    ensures DigitsValue(ShowNat(n)) == n
  {
    if n >= 10 {
      var s := ShowNat(n);
      ReadShowNat(n / 10);
      assert s[..|s| - 1] == ShowNat(n / 10);
    }
  }

  /** Reading the rendering of any integer gives that integer back. */
  lemma ReadShowInt(i: int)
    ensures ReadInt(ShowInt(i)) == Some(i)
  {
    if i < 0 {
      ReadShowNat(-i);
      assert ShowInt(i)[1..] == ShowNat(-i);
    } else {
      ReadShowNat(i);
    }
  }

  /** Distinct integers render differently. */
  lemma ShowIntInjective(a: int, b: int)
    requires ShowInt(a) == ShowInt(b)
    ensures a == b
  {
    ReadShowInt(a);
    ReadShowInt(b);
  }
}

=== FILE: glm_reply.dfy ===
/** Post-processing of a GLM chat reply: the Markdown code fences are deleted, the text is
    trimmed, and Python's literal spellings `True`, `False` and `None` are rewritten to JSON's. */
module GlmReply {
  import opened Text

  /** `re.sub(r"```json|```", "", raw).strip()`. */
  function Unfenced(raw: string): (s: string)
    ensures !Contains(s, Fence)
    ensures |s| == 0 || (!IsSpace(s[0]) && !IsSpace(s[|s| - 1]))
  {
    var f := StripFences(raw);
    StripFencesRemovesFences(raw);
    StripKeepsAbsent(f, Fence);
    Strip(f)
  }

  /** Trimming cannot create an occurrence: the trimmed text is a slice of the original. */
  lemma StripKeepsAbsent(f: string, q: string)
    requires !Contains(f, q)
    ensures !Contains(Strip(f), q)
  {
    AbsentFromSlice(f, LeadingSpace(f), LeadingSpace(f) + |Strip(f)|, q);
  }

  /** `.replace("True", "true").replace("False", "false").replace("None", "null")`. */
  function ReplaceLiterals(s: string): (r: string)
    ensures |r| == |s|
  {
    Replace(Replace(Replace(s, "True", "true"), "False", "false"), "None", "null")
  }

  /** The reply `GLMController.get_completion` returns for the raw message content. */
  function CleanReply(raw: string): (r: string)
    ensures !Contains(r, Fence)
    ensures !Contains(r, "True") && !Contains(r, "False") && !Contains(r, "None")
  {
    var s := Unfenced(raw);
    NoLiteralSurvives(s);
    ReplaceLiterals(s)
  }

  /** A letter of `True`, `False` or `None`. */
  predicate PythonLetter(c: char) {
    c == 'T' || c == 'F' || c == 'N' || c == 'o' || c == 'n' || c == 'e'
  }

  /** A letter of `true`, `false` or `null`. */
  predicate JsonLetter(c: char) {
    c == 't' || c == 'f' || c == 'n' || c == 'u' || c == 'l'
  }

  /** One character of the input against the same position of the output: unchanged, or a letter
      of a Python literal respelt as a letter of the JSON one. */
  predicate Respelt(a: char, b: char) {
    a == b || (PythonLetter(a) && JsonLetter(b))
  }

  // ---------------------------------------------------------------------------
  // No literal survives

  /** None of the lower-case spellings can line up with a proper suffix of a literal or a fence,
      so a substitution never completes an occurrence of one. */
  lemma SuffixesAvoid(rep: string, q: string)
    requires rep == "true" || rep == "false" || rep == "null"
    requires q == "True" || q == "False" || q == "None" || q == Fence
    ensures forall j :: 0 <= j < |rep| ==> rep[j] != q[0]
    ensures forall k :: 1 <= k < |q| ==> !Clashes(rep, q[k..])
  {
    forall k | 1 <= k < |q|
      ensures !Clashes(rep, q[k..])
    {
      assert k == 1 || k == 2 || k == 3 || k == 4;
      Mismatch(rep, q[k..], if rep[0] == q[k] then 1 else 0);
    }
    forall j | 0 <= j < |rep|
      ensures rep[j] != q[0]
    {
      assert j == 0 || j == 1 || j == 2 || j == 3 || j == 4;
    }
  }

  lemma Mismatch(rep: string, u: string, i: nat)
    requires i < |rep| && i < |u| && rep[i] != u[i]
    ensures !Clashes(rep, u)
  {
  }

  lemma FirstReplaceAvoids(s: string)
    requires !Contains(s, Fence)
    ensures var r := Replace(s, "True", "true");
      !Contains(r, "True") && !Contains(r, Fence)
  {
    var q := "True";
    SuffixesAvoid("true", q);
    ReplaceAvoids(s, "True", "true", q);
    var f := Fence;
    SuffixesAvoid("true", f);
    ReplaceAvoids(s, "True", "true", f);
  }

  lemma SecondReplaceAvoids(s: string)
    requires !Contains(s, Fence) && !Contains(s, "True")
    ensures var r := Replace(s, "False", "false");
      !Contains(r, "False") && !Contains(r, "True") && !Contains(r, Fence)
  {
    var q := "False";
    SuffixesAvoid("false", q);
    ReplaceAvoids(s, "False", "false", q);
    var t := "True";
    SuffixesAvoid("false", t);
    ReplaceAvoids(s, "False", "false", t);
    var f := Fence;
    SuffixesAvoid("false", f);
    ReplaceAvoids(s, "False", "false", f);
  }

  lemma ThirdReplaceAvoids(s: string)
    requires !Contains(s, Fence) && !Contains(s, "True") && !Contains(s, "False")
    ensures var r := Replace(s, "None", "null");
      !Contains(r, "None") && !Contains(r, "False") && !Contains(r, "True") && !Contains(r, Fence)
  {
    var q := "None";
    SuffixesAvoid("null", q);
    ReplaceAvoids(s, "None", "null", q);
    var fa := "False";
    SuffixesAvoid("null", fa);
    ReplaceAvoids(s, "None", "null", fa);
    var t := "True";
    SuffixesAvoid("null", t);
    ReplaceAvoids(s, "None", "null", t);
    var f := Fence;
    SuffixesAvoid("null", f);
    ReplaceAvoids(s, "None", "null", f);
  }

  /** After the three substitutions none of the three Python literals is left, and no fence
      reappears. */
  lemma NoLiteralSurvives(s: string)
    requires !Contains(s, Fence)
    ensures var r := ReplaceLiterals(s);
      !Contains(r, "True") && !Contains(r, "False") && !Contains(r, "None") && !Contains(r, Fence)
  {
    FirstReplaceAvoids(s);
    var s1 := Replace(s, "True", "true");
    SecondReplaceAvoids(s1);
    ThirdReplaceAvoids(Replace(s1, "False", "false"));
  }

  // ---------------------------------------------------------------------------
  // Nothing else changes

  /** Each substitution pairs the letters of a Python literal with those of its JSON spelling. */
  lemma LetterPairs(pat: string, rep: string)
    requires (pat == "True" && rep == "true") || (pat == "False" && rep == "false") || (pat == "None" && rep == "null")
    ensures |pat| == |rep|
    ensures forall k :: 0 <= k < |pat| ==> Respelt(pat[k], rep[k])
  {
    forall k | 0 <= k < |pat|
      ensures Respelt(pat[k], rep[k])
    {
      assert k == 0 || k == 1 || k == 2 || k == 3 || k == 4;
    }
  }

  lemma OneReplaceRespells(s: string, pat: string, rep: string)
    requires (pat == "True" && rep == "true") || (pat == "False" && rep == "false") || (pat == "None" && rep == "null")
    ensures |Replace(s, pat, rep)| == |s|
    ensures forall i :: 0 <= i < |s| ==> Respelt(s[i], Replace(s, pat, rep)[i])
  {
    LetterPairs(pat, rep);
    ReplaceSameLength(s, pat, rep);
  }

  /** The substitutions keep the length, and every character they change is a letter of a Python
      literal turned into a letter of a JSON one; everything else stays where it was. */
  lemma ReplaceLiteralsOnlyRespells(s: string)
    ensures |ReplaceLiterals(s)| == |s|
    ensures forall i :: 0 <= i < |s| ==> Respelt(s[i], ReplaceLiterals(s)[i])
  {
    var s1 := Replace(s, "True", "true");
    var s2 := Replace(s1, "False", "false");
    var s3 := Replace(s2, "None", "null");
    OneReplaceRespells(s, "True", "true");
    OneReplaceRespells(s1, "False", "false");
    OneReplaceRespells(s2, "None", "null");
    assert forall i :: 0 <= i < |s| ==> Respelt(s[i], s1[i]) && Respelt(s1[i], s2[i]) && Respelt(s2[i], s3[i]);
  }

  /** Text without any of the three literals passes the substitutions unchanged. */
  lemma ReplaceLiteralsOfLiteralFree(s: string)
    requires !Contains(s, "True") && !Contains(s, "False") && !Contains(s, "None")
    ensures ReplaceLiterals(s) == s
  {
    ReplaceAbsent(s, "True", "true");
    ReplaceAbsent(s, "False", "false");
    ReplaceAbsent(s, "None", "null");
  }

  /** A Python literal spelt out in the text becomes the JSON literal in the same place: no
      substitution reaches into another's result, because none of the three literals can begin
      inside another or inside a lower-case spelling. */
  lemma ReplaceLiteralsAt(s: string, i: int, lit: string, json: string)
    requires (lit, json) in {("True", "true"), ("False", "false"), ("None", "null")}
    requires OccursAt(s, lit, i)
    ensures |ReplaceLiterals(s)| == |s|
    ensures ReplaceLiterals(s)[i..i + |lit|] == json
  {
    if lit == "True" {
      TrueAt(s, i);
    } else if lit == "False" {
      FalseAt(s, i);
    } else {
      NoneAt(s, i);
    }
  }

  lemma TrueAt(s: string, i: int)
    requires OccursAt(s, "True", i)
    ensures |ReplaceLiterals(s)| == |s| && ReplaceLiterals(s)[i..i + 4] == "true"
  {
    var s1 := Replace(s, "True", "true");
    var s2 := Replace(s1, "False", "false");
    ReplaceAt(s, "True", "true", i);
    WordSurvives(s1, i, "true", "False", "false");
    WordSurvives(s2, i, "true", "None", "null");
  }

  lemma FalseAt(s: string, i: int)
    requires OccursAt(s, "False", i)
    ensures |ReplaceLiterals(s)| == |s| && ReplaceLiterals(s)[i..i + 5] == "false"
  {
    var s1 := Replace(s, "True", "true");
    var s2 := Replace(s1, "False", "false");
    WordSurvives(s, i, "False", "True", "true");
    ReplaceAt(s1, "False", "false", i);
    WordSurvives(s2, i, "false", "None", "null");
  }

  lemma NoneAt(s: string, i: int)
    requires OccursAt(s, "None", i)
    ensures |ReplaceLiterals(s)| == |s| && ReplaceLiterals(s)[i..i + 4] == "null"
  {
    var s1 := Replace(s, "True", "true");
    var s2 := Replace(s1, "False", "false");
    WordSurvives(s, i, "None", "True", "true");
    WordSurvives(s1, i, "None", "False", "false");
    ReplaceAt(s2, "None", "null", i);
  }

  /** A word that holds no first letter of the pattern, and does not start with a later one, comes
      through a replacement where it stood. */
  lemma WordSurvives(x: string, i: int, word: string, pat: string, rep: string)
    requires |pat| == |rep| > 0 && |word| > 0 && OccursAt(x, word, i)
    requires pat[0] !in word && word[0] !in pat[1..]
    ensures |Replace(x, pat, rep)| == |x| && OccursAt(Replace(x, pat, rep), word, i)
  {
    assert x[i] == word[0];
    ReplaceKeepsRegion(x, pat, rep, i, i + |word|);
  }

  /** Position `i` of `s` lies inside an occurrence of `q` that starts at `j`. */
  ghost predicate InOccurrence(s: string, q: string, j: int, i: int) {
    OccursAt(s, q, j) && j <= i < j + |q|
  }

  /** Position `i` of `s` lies inside an occurrence of one of the three Python literals. */
  ghost predicate InLiteral(s: string, i: int) {
    exists j :: InOccurrence(s, "True", j, i) || InOccurrence(s, "False", j, i) || InOccurrence(s, "None", j, i)
  }

  lemma OccursChar(x: string, q: string, i: int, k: int)
    requires OccursAt(x, q, i) && 0 <= k < |q|
    ensures x[i + k] == q[k]
  {
    assert x[i + k] == x[i..i + |q|][k];
  }

  /** `true` and `false` differ from `True` and `False` in the first letter only, so those two
      substitutions change a character only where an occurrence starts. */
  lemma OnlyStartsChange(x: string, pat: string, rep: string)
    requires (pat == "True" && rep == "true") || (pat == "False" && rep == "false")
    ensures |Replace(x, pat, rep)| == |x|
    ensures forall p :: 0 <= p < |x| && Replace(x, pat, rep)[p] != x[p] ==>
      OccursAt(x, pat, p) && Replace(x, pat, rep)[p] == rep[0]
  {
    ReplaceChangesWithin(x, pat, rep);
    SameTail(pat, rep);
    var r := Replace(x, pat, rep);
    forall p | 0 <= p < |x| && r[p] != x[p]
      ensures OccursAt(x, pat, p) && r[p] == rep[0]
    {
      ChangeStartsOccurrence(x, r, pat, rep, p);
    }
  }

  /** A changed character inside an occurrence sits at its start when the two spellings agree
      after their first letter. */
  lemma ChangeStartsOccurrence(x: string, r: string, pat: string, rep: string, p: int)
    requires |pat| == |rep| > 0 && forall k :: 1 <= k < |pat| ==> pat[k] == rep[k]
    requires 0 <= p < |x| && p < |r| && r[p] != x[p] && ReplacedWithin(x, r, pat, rep, p)
    ensures OccursAt(x, pat, p) && r[p] == rep[0]
  {
    var j :| 0 <= j <= p < j + |pat| && p - j < |rep| && p < |r| && OccursAt(x, pat, j) && r[p] == rep[p - j];
    OccursChar(x, pat, j, p - j);
  }

  lemma SameTail(pat: string, rep: string)
    requires (pat == "True" && rep == "true") || (pat == "False" && rep == "false")
    ensures |pat| == |rep|
    ensures forall k :: 1 <= k < |pat| ==> pat[k] == rep[k]
  {
    if pat == "True" {
      assert pat[1] == rep[1] && pat[2] == rep[2] && pat[3] == rep[3];
    } else {
      assert pat[1] == rep[1] && pat[2] == rep[2] && pat[3] == rep[3] && pat[4] == rep[4];
    }
  }

  /** An occurrence after a substitution was already there before it, when the substitution
      writes only a character the word does not hold. */
  lemma OccursBefore(x: string, y: string, c: char, q: string, i: int)
    requires |x| == |y|
    requires forall p :: 0 <= p < |x| && y[p] != x[p] ==> y[p] == c
    requires c !in q && OccursAt(y, q, i)
    ensures OccursAt(x, q, i)
  {
    forall k | 0 <= k < |q|
      ensures x[i + k] == q[k]
    {
      OccursChar(y, q, i, k);
    }
    assert x[i..i + |q|] == q;
  }

  /** The three substitutions change a character only inside an occurrence of `True`, `False`
      or `None` in the original text; every other character stays where it was. */
  lemma ReplaceLiteralsChangesWithin(s: string)
    ensures |ReplaceLiterals(s)| == |s|
    ensures forall i :: 0 <= i < |s| && ReplaceLiterals(s)[i] != s[i] ==> InLiteral(s, i)
  {
    var s1 := Replace(s, "True", "true");
    var s2 := Replace(s1, "False", "false");
    var s3 := Replace(s2, "None", "null");
    OnlyStartsChange(s, "True", "true");
    OnlyStartsChange(s1, "False", "false");
    ReplaceChangesWithin(s2, "None", "null");
    forall i | 0 <= i < |s| && s3[i] != s[i]
      ensures InLiteral(s, i)
    {
      PassesChangeAt(s, s1, s2, s3, i);
    }
  }

  /** One position through the three substitutions, given what each of them may change. */
  lemma PassesChangeAt(s: string, s1: string, s2: string, s3: string, i: int)
    requires |s1| == |s| && |s2| == |s| && |s3| == |s| && 0 <= i < |s|
    requires forall p :: 0 <= p < |s| && s1[p] != s[p] ==> OccursAt(s, "True", p) && s1[p] == 't'
    requires forall p :: 0 <= p < |s| && s2[p] != s1[p] ==> OccursAt(s1, "False", p) && s2[p] == 'f'
    requires forall p :: 0 <= p < |s| && s3[p] != s2[p] ==> ReplacedWithin(s2, s3, "None", "null", p)
    requires s3[i] != s[i]
    ensures InLiteral(s, i)
  {
    if s1[i] != s[i] {
      assert InOccurrence(s, "True", i, i);
    } else if s2[i] != s1[i] {
      OccursBefore(s, s1, 't', "False", i);
      assert InOccurrence(s, "False", i, i);
    } else {
      var j :| 0 <= j <= i < j + 4 && OccursAt(s2, "None", j);
      OccursBefore(s1, s2, 'f', "None", j);
      OccursBefore(s, s1, 't', "None", j);
      assert InOccurrence(s, "None", j, i);
    }
  }

  /** The substitutions, character by character: inside an occurrence of a Python literal the
      JSON spelling stands at the same offset, and outside every occurrence the text is kept. */
  lemma ReplaceLiteralsExactly(s: string)
    ensures |ReplaceLiterals(s)| == |s|
    ensures forall i :: 0 <= i < |s| && !InLiteral(s, i) ==> ReplaceLiterals(s)[i] == s[i]
    ensures forall j, i :: InOccurrence(s, "True", j, i) ==> ReplaceLiterals(s)[i] == "true"[i - j]
    ensures forall j, i :: InOccurrence(s, "False", j, i) ==> ReplaceLiterals(s)[i] == "false"[i - j]
    ensures forall j, i :: InOccurrence(s, "None", j, i) ==> ReplaceLiterals(s)[i] == "null"[i - j]
  {
    ReplaceLiteralsChangesWithin(s);
    forall j, i | InOccurrence(s, "True", j, i)
      ensures ReplaceLiterals(s)[i] == "true"[i - j]
    {
      ReplaceLiteralsAt(s, j, "True", "true");
      OccursChar(ReplaceLiterals(s), "true", j, i - j);
    }
    forall j, i | InOccurrence(s, "False", j, i)
      ensures ReplaceLiterals(s)[i] == "false"[i - j]
    {
      ReplaceLiteralsAt(s, j, "False", "false");
      OccursChar(ReplaceLiterals(s), "false", j, i - j);
    }
    forall j, i | InOccurrence(s, "None", j, i)
      ensures ReplaceLiterals(s)[i] == "null"[i - j]
    {
      ReplaceLiteralsAt(s, j, "None", "null");
      OccursChar(ReplaceLiterals(s), "null", j, i - j);
    }
  }

  /** The cleaned reply against the trimmed, unfenced text: a character differs only inside an
      occurrence of a Python literal, where the JSON spelling stands at the same offset. */
  lemma CleanReplyChangesWithin(raw: string)
    ensures |CleanReply(raw)| == |Unfenced(raw)|
    ensures forall i :: 0 <= i < |Unfenced(raw)| && CleanReply(raw)[i] != Unfenced(raw)[i] ==>
      InLiteral(Unfenced(raw), i)
    ensures forall j, i :: InOccurrence(Unfenced(raw), "True", j, i) ==> CleanReply(raw)[i] == "true"[i - j]
    ensures forall j, i :: InOccurrence(Unfenced(raw), "False", j, i) ==> CleanReply(raw)[i] == "false"[i - j]
    ensures forall j, i :: InOccurrence(Unfenced(raw), "None", j, i) ==> CleanReply(raw)[i] == "null"[i - j]
  {
    ReplaceLiteralsExactly(Unfenced(raw));
  }

  /** Every Python literal in the trimmed, unfenced text is answered by its JSON spelling at the
      same position of the reply. */
  lemma CleanReplyAt(raw: string, i: int, lit: string, json: string)
    requires (lit, json) in {("True", "true"), ("False", "false"), ("None", "null")}
    requires OccursAt(Unfenced(raw), lit, i)
    ensures |CleanReply(raw)| == |Unfenced(raw)|
    ensures CleanReply(raw)[i..i + |lit|] == json
  {
    ReplaceLiteralsAt(Unfenced(raw), i, lit, json);
  }

  /** Unfencing only deletes: no character is added, and every character that is neither a
      separator nor one of the fence's keeps its count. */
  lemma UnfencedKeepsText(raw: string)
    ensures multiset(Unfenced(raw)) <= multiset(raw)
    ensures forall c :: c !in JsonFence && !IsSpace(c) ==> multiset(Unfenced(raw))[c] == multiset(raw)[c]
  {
    StripFencesKeepsText(raw);
    StripKeepsText(StripFences(raw));
  }

  /** Unfencing only deletes, and only fence text and separators: the trimmed, unfenced text is
      the characters of `raw` at the strictly increasing positions `idx`, and every position left
      out lies inside a fence match or holds a separator. */
  lemma UnfencedOnlyDeletes(raw: string) returns (idx: seq<nat>)
    ensures |idx| == |Unfenced(raw)|
    ensures forall k :: 0 <= k < |idx| ==> idx[k] < |raw| && raw[idx[k]] == Unfenced(raw)[k]
    ensures forall a, b :: 0 <= a < b < |idx| ==> idx[a] < idx[b]
    ensures forall p :: 0 <= p < |raw| && p !in idx ==> InFence(raw, p) || IsSpace(raw[p])
  {
    idx := StrippedOnlyDeletes(raw);
    UnfencedIsStrip(raw);
    ReadsSame(raw, Strip(StripFences(raw)), Unfenced(raw), idx);
  }

  /** The same deletion, stated for `strip()` applied to the fence substitution. */
  lemma StrippedOnlyDeletes(raw: string) returns (idx: seq<nat>)
    ensures |idx| == |Strip(StripFences(raw))|
    ensures forall k :: 0 <= k < |idx| ==> idx[k] < |raw| && raw[idx[k]] == Strip(StripFences(raw))[k]
    ensures forall a, b :: 0 <= a < b < |idx| ==> idx[a] < idx[b]
    ensures forall p :: 0 <= p < |raw| && p !in idx ==> InFence(raw, p) || IsSpace(raw[p])
  {
    var kept := FencePositions(raw);
    idx := StripPositions(raw, StripFences(raw), kept);
  }

  /** `strip()` keeps a middle run of the positions a text is read from. */
  lemma StripPositions(raw: string, f: string, kept: seq<nat>) returns (idx: seq<nat>)
    requires |kept| == |f|
    requires forall k :: 0 <= k < |kept| ==> kept[k] < |raw| && raw[kept[k]] == f[k]
    requires forall a, b :: 0 <= a < b < |kept| ==> kept[a] < kept[b]
    requires forall p :: 0 <= p < |raw| && p !in kept ==> InFence(raw, p)
    ensures |idx| == |Strip(f)|
    ensures forall k :: 0 <= k < |idx| ==> idx[k] < |raw| && raw[idx[k]] == Strip(f)[k]
    ensures forall a, b :: 0 <= a < b < |idx| ==> idx[a] < idx[b]
    ensures forall p :: 0 <= p < |raw| && p !in idx ==> InFence(raw, p) || IsSpace(raw[p])
  {
    StripSlice(f);
    idx := Trimmed(raw, f, kept, LeadingSpace(f), Strip(f));
  }

  /** The positions `Text.StripFencesOnlyDeletes` reads the fence substitution from. */
  lemma FencePositions(raw: string) returns (kept: seq<nat>)
    ensures |kept| == |StripFences(raw)|
    ensures forall k :: 0 <= k < |kept| ==> kept[k] < |raw| && raw[kept[k]] == StripFences(raw)[k]
    ensures forall a, b :: 0 <= a < b < |kept| ==> kept[a] < kept[b]
    ensures forall p :: 0 <= p < |raw| && p !in kept ==> InFence(raw, p)
  {
    StripFencesOnlyDeletes(raw);
    kept := KeptPositions(raw);
  }

  /** Trimming a text read off increasing positions of `raw` keeps a middle run of those
      positions; the ones cut off hold separators. */
  lemma Trimmed(raw: string, f: string, kept: seq<nat>, lo: nat, u: string) returns (idx: seq<nat>)
    requires |kept| == |f|
    requires forall k :: 0 <= k < |kept| ==> kept[k] < |raw| && raw[kept[k]] == f[k]
    requires forall a, b :: 0 <= a < b < |kept| ==> kept[a] < kept[b]
    requires forall p :: 0 <= p < |raw| && p !in kept ==> InFence(raw, p)
    requires lo + |u| <= |f| && f[lo..lo + |u|] == u
    requires AllSpace(f[..lo]) && AllSpace(f[lo + |u|..])
    ensures |idx| == |u|
    ensures forall k :: 0 <= k < |idx| ==> idx[k] < |raw| && raw[idx[k]] == u[k]
    ensures forall a, b :: 0 <= a < b < |idx| ==> idx[a] < idx[b]
    ensures forall p :: 0 <= p < |raw| && p !in idx ==> InFence(raw, p) || IsSpace(raw[p])
  {
    idx := kept[lo..lo + |u|];
    TrimmedRead(raw, f, kept, lo, u, idx);
    TrimmedIncrease(kept, lo, lo + |u|, idx);
    TrimmedCover(raw, f, kept, lo, lo + |u|, idx);
  }

  /** Positions that read one text off `raw` read any text equal to it. */
  lemma ReadsSame(raw: string, v: string, u: string, idx: seq<nat>)
    requires u == v && |idx| == |v|
    requires forall k :: 0 <= k < |idx| ==> idx[k] < |raw| && raw[idx[k]] == v[k]
    ensures |idx| == |u|
    ensures forall k :: 0 <= k < |idx| ==> idx[k] < |raw| && raw[idx[k]] == u[k]
  {
  }

  lemma UnfencedIsStrip(raw: string)
    ensures Unfenced(raw) == Strip(StripFences(raw))
  {
  }

  /** What `strip()` leaves is the slice after the leading separators, with only separators after it. */
  lemma StripSlice(f: string)
    ensures LeadingSpace(f) + |Strip(f)| <= |f| && f[LeadingSpace(f)..LeadingSpace(f) + |Strip(f)|] == Strip(f)
    ensures AllSpace(f[..LeadingSpace(f)]) && AllSpace(f[LeadingSpace(f) + |Strip(f)|..])
  {
  }

  /** A middle run of positions that read `f` off `raw` reads the matching run of `f`. */
  lemma TrimmedRead(raw: string, f: string, kept: seq<nat>, lo: nat, u: string, idx: seq<nat>)
    requires |kept| == |f|
    requires forall k :: 0 <= k < |kept| ==> kept[k] < |raw| && raw[kept[k]] == f[k]
    requires lo + |u| <= |f| && f[lo..lo + |u|] == u
    requires idx == kept[lo..lo + |u|]
    ensures forall k :: 0 <= k < |idx| ==> idx[k] < |raw| && raw[idx[k]] == u[k]
  {
    forall k | 0 <= k < |idx|
      ensures idx[k] < |raw| && raw[idx[k]] == u[k]
    {
      assert idx[k] == kept[lo + k] && u[k] == f[lo..lo + |u|][k];
    }
  }

  /** A middle run of strictly increasing positions is strictly increasing. */
  lemma TrimmedIncrease(kept: seq<nat>, lo: nat, hi: nat, idx: seq<nat>)
    requires lo <= hi <= |kept|
    requires forall a, b :: 0 <= a < b < |kept| ==> kept[a] < kept[b]
    requires idx == kept[lo..hi]
    ensures forall a, b :: 0 <= a < b < |idx| ==> idx[a] < idx[b]
  {
    forall a, b | 0 <= a < b < |idx|
      ensures idx[a] < idx[b]
    {
      assert idx[a] == kept[lo + a] && idx[b] == kept[lo + b];
    }
  }

  /** Trimming a text read off positions of `raw` keeps a middle run of those positions; the ones
      cut off hold separators. */
  lemma TrimmedCover(raw: string, f: string, kept: seq<nat>, lo: nat, hi: nat, idx: seq<nat>)
    requires |kept| == |f|
    requires forall k :: 0 <= k < |kept| ==> kept[k] < |raw| && raw[kept[k]] == f[k]
    requires forall p :: 0 <= p < |raw| && p !in kept ==> InFence(raw, p)
    requires lo <= hi <= |f|
    requires AllSpace(f[..lo]) && AllSpace(f[hi..])
    requires idx == kept[lo..hi]
    ensures forall p :: 0 <= p < |raw| && p !in idx ==> InFence(raw, p) || IsSpace(raw[p])
  {
    forall p | 0 <= p < |raw| && p !in idx && p in kept
      ensures IsSpace(raw[p])
    {
      var m :| 0 <= m < |kept| && kept[m] == p;
      assert forall n :: lo <= n < hi ==> kept[n] == idx[n - lo];
      if m < lo {
        assert f[..lo][m] == f[m];
      } else {
        assert f[hi..][m - hi] == f[m];
      }
    }
  }

  /** A reply fenced as a ```` ```json ```` block around backtick-free text unfences to that text,
      stripped. */
  lemma UnfencedOfJsonBlock(x: string)
    requires '`' !in x
    ensures Unfenced(JsonFence + x + Fence) == Strip(x)
  {
    StripFencesOfJsonBlock(x);
  }

  /** A reply fenced by bare ```` ``` ```` on both sides unfences to the stripped text between,
      less a leading `json` that the opening match takes with it. */
  lemma UnfencedOfBareBlock(x: string)
    requires '`' !in x
    ensures Unfenced(Fence + x + Fence) == Strip(if "json" <= x then x[4..] else x)
  {
    StripFencesOfBareBlock(x);
  }

  /** A reply fenced as a ```` ```json ```` block around backtick-free text is cleaned to that
      text, stripped and with its literals respelt. */
  lemma CleanReplyOfJsonBlock(x: string)
    requires '`' !in x
    ensures CleanReply(JsonFence + x + Fence) == ReplaceLiterals(Strip(x))
  {
    UnfencedOfJsonBlock(x);
  }

  /** The reply `"```json\n{\"a\": True}\n```"` is cleaned to `{"a": true}`. */
  lemma CleanReplyOfFencedObject(raw: string)
    requires raw == "```json\n{\"a\": True}\n```"
    ensures CleanReply(raw) == "{\"a\": true}"
  {
    var p, q := "{\"a\": ", "}";
    FencedObjectPieces(raw, p, q);
    CleanReplyOfBlockWithTrue(raw, p, q);
  }

  /** How the example reply is put together. */
  lemma FencedObjectPieces(raw: string, p: string, q: string)
    requires raw == "```json\n{\"a\": True}\n```" && p == "{\"a\": " && q == "}"
    ensures raw == JsonFence + ("\n" + (p + "True" + q) + "\n") + Fence
    ensures p + "true" + q == "{\"a\": true}"
    ensures 'T' !in p && 'F' !in p && 'N' !in p && '`' !in p
    ensures 'T' !in q && 'F' !in q && 'N' !in q && '`' !in q
    ensures |p| > 0 && !IsSpace(p[0]) && |q| > 0 && !IsSpace(q[|q| - 1])
  {
    ObjectLetters(p);
  }

  lemma ObjectLetters(p: string)
    requires p == "{\"a\": "
    ensures 'T' !in p && 'F' !in p && 'N' !in p && '`' !in p
  {
    assert p == ['{', '"', 'a', '"', ':', ' '];
  }

  /** A ```` ```json ```` block holding one `True` between trimmed text with no other literal
      letter, backtick or capital is cleaned to that text with `true`. */
  lemma CleanReplyOfBlockWithTrue(raw: string, p: string, q: string)
    requires raw == JsonFence + ("\n" + (p + "True" + q) + "\n") + Fence
    requires 'T' !in p && 'F' !in p && 'N' !in p && '`' !in p
    requires 'T' !in q && 'F' !in q && 'N' !in q && '`' !in q
    requires |p| > 0 && !IsSpace(p[0]) && |q| > 0 && !IsSpace(q[|q| - 1])
    ensures CleanReply(raw) == p + "true" + q
  {
    LineBlockUnfences(raw, p + "True" + q);
    LiteralRespelt(p, q);
    CleanReplyOfUnfenced(raw, p + "True" + q, p + "true" + q);
  }

  /** A ```` ```json ```` block holding one line of trimmed, backtick-free text unfences to it. */
  lemma LineBlockUnfences(raw: string, t: string)
    requires raw == JsonFence + ("\n" + t + "\n") + Fence
    requires '`' !in t && |t| > 0 && !IsSpace(t[0]) && !IsSpace(t[|t| - 1])
    ensures Unfenced(raw) == t
  {
    var x := "\n" + t + "\n";
    assert '`' !in x;
    UnfencedOfJsonBlock(x);
    StripOfLine(x, t);
  }

  /** A line between two line breaks strips to itself when it has no separator at either end. */
  lemma StripOfLine(x: string, t: string)
    requires x == "\n" + t + "\n"
    requires |t| > 0 && !IsSpace(t[0]) && !IsSpace(t[|t| - 1])
    ensures Strip(x) == t
  {
    assert x[1..1 + |t|] == t && x[..1] == "\n" && x[1 + |t|..] == "\n";
    StripAround(t, x, 1);
  }

  lemma CleanReplyOfUnfenced(raw: string, u: string, r: string)
    requires Unfenced(raw) == u && ReplaceLiterals(u) == r
    ensures CleanReply(raw) == r
  {
  }

  /** One `True` between text without `T`, `F` or `N` is respelt and nothing else changes. */
  lemma LiteralRespelt(p: string, q: string)
    requires 'T' !in p && 'F' !in p && 'N' !in p && 'T' !in q && 'F' !in q && 'N' !in q
    ensures ReplaceLiterals(p + "True" + q) == p + "true" + q
  {
    TrueRespelt(p, q);
    assert 'F' !in "true" && 'N' !in "true";
    NoOtherLiteral(p + "true" + q);
  }

  lemma TrueRespelt(p: string, q: string)
    requires 'T' !in p && 'T' !in q
    ensures Replace(p + "True" + q, "True", "true") == p + "true" + q
  {
    assert "True"[0] == 'T';
    ReplaceSingle(p, q, "True", "true");
  }

  lemma NoOtherLiteral(t: string)
    requires 'F' !in t && 'N' !in t
    ensures Replace(Replace(t, "False", "false"), "None", "null") == t
  {
    assert "False"[0] == 'F' && "None"[0] == 'N';
    ReplaceWithoutHead(t, "False", "false");
    ReplaceWithoutHead(t, "None", "null");
  }

  /** A reply whose trimmed, unfenced text holds no Python literal comes back as exactly that text. */
  lemma CleanReplyOfLiteralFree(raw: string)
    requires var s := Unfenced(raw); !Contains(s, "True") && !Contains(s, "False") && !Contains(s, "None")
    ensures CleanReply(raw) == Unfenced(raw)
  {
    ReplaceLiteralsOfLiteralFree(Unfenced(raw));
  }

  /** The cleaned reply has the length of the trimmed, unfenced text and differs from it only in
      respelt literal letters. */
  lemma CleanReplyOnlyRespells(raw: string)
    ensures |CleanReply(raw)| == |Unfenced(raw)|
    ensures forall i :: 0 <= i < |Unfenced(raw)| ==> Respelt(Unfenced(raw)[i], CleanReply(raw)[i])
  {
    ReplaceLiteralsOnlyRespells(Unfenced(raw));
  }

  // ---------------------------------------------------------------------------
  // Cleaning is idempotent

  lemma {:induction false} StripFencesOfFenceFree(s: string)
    requires !Contains(s, Fence)
    ensures StripFences(s) == s
    decreases |s|
  {
    if |s| > 0 {
      assert JsonFence[..3] == Fence;
      assert !(JsonFence <= s);
      StripFencesOfFenceFree(s[1..]);
      assert s == [s[0]] + s[1..];
    }
  }

  lemma StripOfStripped(s: string)
    requires |s| == 0 || (!IsSpace(s[0]) && !IsSpace(s[|s| - 1]))
    ensures Strip(s) == s
  {
    assert s[0..|s|] == s && s[..0] == [] && s[|s|..] == [];
    assert StrippedFrom(s, s);
    StrippedFromIsUnique(s, s);
  }

  /** The cleaned reply neither starts nor ends with whitespace: respelling never produces a separator. */
  lemma CleanReplyIsTrimmed(raw: string)
    ensures var r := CleanReply(raw); |r| == 0 || (!IsSpace(r[0]) && !IsSpace(r[|r| - 1]))
  {
    var s := Unfenced(raw);
    var r := CleanReply(raw);
    CleanReplyOnlyRespells(raw);
    if |r| > 0 {
      assert Respelt(s[0], r[0]) && Respelt(s[|s| - 1], r[|r| - 1]);
    }
  }

  /** Cleaning a cleaned reply changes nothing. */
  lemma CleanReplyIdempotent(raw: string)
    ensures CleanReply(CleanReply(raw)) == CleanReply(raw)
  {
    var r := CleanReply(raw);
    StripFencesOfFenceFree(r);
    CleanReplyIsTrimmed(raw);
    StripOfStripped(r);
    assert Unfenced(r) == r;
    ReplaceLiteralsOfLiteralFree(r);
  }
}

=== FILE: json_value.dfy ===
/** JSON values as the completion controllers build them, `json.dumps` with its default
    settings (", " and ": " separators, non-ASCII escaped), and a reader for that layout. */
module JsonValue {
  import opened Wrappers
  import opened PyDict
  import opened Decimal

  /** A JSON document; objects keep their keys in insertion order, as Python dicts do. */
  datatype Json =
    | JNull
    | JBool(b: bool)
    | JInt(i: int)
    | JStr(s: string)
    | JArr(items: seq<Json>)
    | JObj(fields: Dict<Json>)

  // ---------------------------------------------------------------------------
  // Escaping of string contents (ensure_ascii)

  function HexDigit(d: nat): (c: char)
    requires d < 16
    ensures '0' <= c <= '9' || 'a' <= c <= 'f'
  {
    if d < 10 then ('0' as int + d) as char else ('a' as int + d - 10) as char
  }

  /** Four lower-case hexadecimal digits of `n` (as `'{0:04x}'` formats them) in front of `k`. */
  function Hex4Onto(n: nat, k: string): (s: string)
    requires n < 0x10000
    ensures |s| == |k| + 4 && s[4..] == k
  {
    [HexDigit(n / 16 / 16 / 16), HexDigit(n / 16 / 16 % 16), HexDigit(n / 16 % 16), HexDigit(n % 16)] + k
  }

  /** A `\uXXXX` escape for the UTF-16 code unit `n`, in front of `k`. */
  function UnitEscapeOnto(n: nat, k: string): (s: string)
    requires n < 0x10000
  {
    "\\u" + Hex4Onto(n, k)
  }

  /** The UTF-16 high surrogate of a code point beyond the BMP. */
  function HighSurrogate(n: int): (h: nat)
    requires 0x10000 <= n < 0x110000
    ensures 0xD800 <= h < 0xDC00
  {
    0xD800 + (n - 0x10000) / 0x400
  }

  /** The UTF-16 low surrogate of a code point beyond the BMP. */
  function LowSurrogate(n: int): (l: nat)
    requires 0x10000 <= n < 0x110000
    ensures 0xDC00 <= l < 0xE000
  {
    0xDC00 + (n - 0x10000) % 0x400
  }

  function IsShortEscaped(c: char): bool {
    c == '"' || c == '\\' || c == '\n' || c == '\r' || c == '\t' || c as int == 0x08 || c as int == 0x0C
  }

  /** How `json.dumps` writes one character inside a string literal, in front of `k`: the
      two-character escapes, printable ASCII as itself, any other BMP character as `\uXXXX`, and
      characters beyond the BMP as a UTF-16 surrogate pair of `\uXXXX` escapes. */
  function EscapeCharOnto(c: char, k: string): (e: string)
    ensures |e| > |k| && e[0] != '"'
  {
    var n := c as int;
    if c == '"' then "\\\"" + k
    else if c == '\\' then "\\\\" + k
    else if c == '\n' then "\\n" + k
    else if c == '\r' then "\\r" + k
    else if c == '\t' then "\\t" + k
    else if n == 0x08 then "\\b" + k
    else if n == 0x0C then "\\f" + k
    else if 0x20 <= n <= 0x7E then [c] + k
    else if n < 0x10000 then UnitEscapeOnto(n, k)
    else UnitEscapeOnto(HighSurrogate(n), UnitEscapeOnto(LowSurrogate(n), k))
  }

  /** The escaped form of `s` written in front of `k`. */
  function EscapeOnto(s: string, k: string): string {
    if |s| == 0 then k else EscapeCharOnto(s[0], EscapeOnto(s[1..], k))
  }

  /** The string literal for `s` written in front of `k`. */
  function QuoteOnto(s: string, k: string): string {
    "\"" + EscapeOnto(s, "\"" + k)
  }

  // ---------------------------------------------------------------------------
  // json.dumps
  //
  // The encoder appends chunks to one output buffer; each writer below takes the text that
  // the rest of the encoding produces after it (`k`) and puts its own chunks in front.

  /** `json.dumps(j)` with default arguments: plain ASCII text that reads back with `ParseJson`
      as the value it was written from. */
  function Dump(j: Json): (r: string)
    ensures ParseJson(r) == Some(j)
    ensures IsAscii(r)
  {
    ParseDump(j, "");
    DumpIsAscii(j, "");
    DumpOnto(j, "")
  }

  function DumpOnto(j: Json, k: string): string
    decreases j
  {
    match j
    case JNull => "null" + k
    case JBool(b) => (if b then "true" else "false") + k
    case JInt(i) => ShowInt(i) + k
    case JStr(s) => QuoteOnto(s, k)
    case JArr(items) => "[" + ItemsOnto(items, "]" + k)
    case JObj(fields) => "{" + MembersOnto(fields, "}" + k)
  }

  /** The elements separated by ", ". */
  function ItemsOnto(items: seq<Json>, k: string): string
    decreases items
  {
    if |items| == 0 then k
    else if |items| == 1 then DumpOnto(items[0], k)
    else DumpOnto(items[0], ", " + ItemsOnto(items[1..], k))
  }

  /** One `"key": value` member. */
  function MemberOnto(p: (string, Json), k: string): string
    decreases p
  {
    QuoteOnto(p.0, ": " + DumpOnto(p.1, k))
  }

  /** The members separated by ", ". */
  function MembersOnto(fields: seq<(string, Json)>, k: string): string
    decreases fields
  {
    if |fields| == 0 then k
    else if |fields| == 1 then MemberOnto(fields[0], k)
    else MemberOnto(fields[0], ", " + MembersOnto(fields[1..], k))
  }

  // ---------------------------------------------------------------------------
  // Reading the layout back

  function HexValue(c: char): Option<nat> {
    if '0' <= c <= '9' then Some(c as int - '0' as int)
    else if 'a' <= c <= 'f' then Some(c as int - 'a' as int + 10)
    else if 'A' <= c <= 'F' then Some(c as int - 'A' as int + 10)
    else None
  }

  function ReadHex4(t: string): (r: Option<nat>)
    ensures r.Some? ==> |t| >= 4 && r.value < 0x10000
  {
    if |t| < 4 then None
    else
      match (HexValue(t[0]), HexValue(t[1]), HexValue(t[2]), HexValue(t[3]))
      case (Some(a), Some(b), Some(c), Some(d)) =>
        if a < 16 && b < 16 && c < 16 && d < 16 then Some(((a * 16 + b) * 16 + c) * 16 + d) else None
      case _ => None
  }

  /** The character a two-character escape `\x` stands for, if `x` names one. */
  function ShortEscape(x: char): Option<char> {
    if x == '"' then Some('"')
    else if x == '\\' then Some('\\')
    else if x == 'n' then Some('\n')
    else if x == 'r' then Some('\r')
    else if x == 't' then Some('\t')
    else if x == 'b' then Some(0x08 as char)
    else if x == 'f' then Some(0x0C as char)
    else None
  }

  /** Reads the digits of a `\uXXXX` escape (the text after `\u`), joining a surrogate pair
      written as two escapes into the character it encodes. */
  function ReadUnicodeEscape(u: string): (r: Option<(char, string)>)
    ensures r.Some? ==> |r.value.1| < |u|
  {
    match ReadHex4(u)
    case None => None
    case Some(v) =>
      if v < 0xD800 || 0xE000 <= v then Some((v as char, u[4..]))
      else if v < 0xDC00 && "\\u" <= u[4..] then
        match ReadHex4(u[6..])
        case None => None
        case Some(w) =>
          if 0xDC00 <= w < 0xE000 then Some(((0x10000 + (v - 0xD800) * 0x400 + (w - 0xDC00)) as char, u[10..]))
          else None
      else None
  }

  /** Reads one character of a string literal, undoing its escape; a closing quote reads nothing. */
  function ReadChar(t: string): (r: Option<(char, string)>)
    ensures r.Some? ==> |r.value.1| < |t|
  {
    if |t| == 0 || t[0] == '"' then None
    else if t[0] != '\\' then Some((t[0], t[1..]))
    else if |t| < 2 then None
    else if t[1] == 'u' then ReadUnicodeEscape(t[2..])
    else
      match ShortEscape(t[1])
      case None => None
      case Some(c) => Some((c, t[2..]))
  }

  /** Reads the characters of a string literal through its closing quote. */
  function ReadStringBody(t: string): (r: Option<(string, string)>)
    ensures r.Some? ==> |r.value.1| < |t|
    decreases |t|
  {
    if |t| > 0 && t[0] == '"' then Some(("", t[1..]))
    else
      match ReadChar(t)
      case None => None
      case Some((c, rest)) =>
        match ReadStringBody(rest)
        case None => None
        case Some((s, after)) => Some(([c] + s, after))
  }

  /** Length of the run of decimal digits that starts `t`. */
  function DigitRun(t: string): (n: nat)
    ensures n <= |t| && AllDigits(t[..n])
  {
    if |t| == 0 || !IsDigit(t[0]) then 0
    else
      var m := DigitRun(t[1..]);
      assert t[..m + 1] == [t[0]] + t[1..][..m];
      m + 1
  }

  function ParseNumber(t: string): (r: Option<(Json, string)>)
    ensures r.Some? ==> |r.value.1| < |t|
  {
    var neg := |t| > 0 && t[0] == '-';
    var body := if neg then t[1..] else t;
    var n := DigitRun(body);
    if n == 0 then None
    else
      var v: int := DigitsValue(body[..n]);
      Some((JInt(if neg then -v else v), body[n..]))
  }

  /** Reads one value from the front of `t`, returning it with the text after it. */
  function ParseValue(t: string): (r: Option<(Json, string)>)
    ensures r.Some? ==> |r.value.1| < |t|
    decreases |t|, 0
  {
    if |t| == 0 then None
    else if t[0] == 'n' then (if "null" <= t then Some((JNull, t[4..])) else None)
    else if t[0] == 't' then (if "true" <= t then Some((JBool(true), t[4..])) else None)
    else if t[0] == 'f' then (if "false" <= t then Some((JBool(false), t[5..])) else None)
    else if t[0] == '"' then ParseString(t[1..])
    else if t[0] == '[' then ParseArray(t[1..])
    else if t[0] == '{' then ParseObject(t[1..])
    else ParseNumber(t)
  }

  /** Reads a string literal whose opening quote has been consumed. */
  function ParseString(t: string): (r: Option<(Json, string)>)
    ensures r.Some? ==> |r.value.1| < |t|
  {
    match ReadStringBody(t)
    case None => None
    case Some((s, rest)) => Some((JStr(s), rest))
  }

  /** Reads an array whose opening bracket has been consumed. */
  function ParseArray(t: string): (r: Option<(Json, string)>)
    ensures r.Some? ==> |r.value.1| < |t|
    decreases |t|, 2
  {
    if "]" <= t then Some((JArr([]), t[1..]))
    else
      match ParseItems(t)
      case None => None
      case Some((vs, rest)) => Some((JArr(vs), rest))
  }

  /** Reads an object whose opening brace has been consumed. */
  function ParseObject(t: string): (r: Option<(Json, string)>)
    ensures r.Some? ==> |r.value.1| < |t|
    decreases |t|, 2
  {
    if "}" <= t then Some((JObj([]), t[1..]))
    else
      match ParseMembers(t, [])
      case None => None
      case Some((fs, rest)) => Some((JObj(fs), rest))
  }

  /** Reads `v, v, ..., v]`. */
  function ParseItems(t: string): (r: Option<(seq<Json>, string)>)
    ensures r.Some? ==> |r.value.1| < |t|
    decreases |t|, 1
  {
    match ParseValue(t)
    case None => None
    case Some((v, after)) =>
      if "]" <= after then Some(([v], after[1..]))
      else if ", " <= after then
        match ParseItems(after[2..])
        case None => None
        case Some((vs, rest)) => Some(([v] + vs, rest))
      else None
  }

  /** Reads `"k": v, ..., "k": v}`, assigning each pair into `acc` as a dict display does. */
  function ParseMembers(t: string, acc: Dict<Json>): (r: Option<(Dict<Json>, string)>)
    ensures r.Some? ==> |r.value.1| < |t|
    decreases |t|, 1
  {
    if |t| == 0 || t[0] != '"' then None
    else
      match ReadStringBody(t[1..])
      case None => None
      case Some((key, afterKey)) =>
        if ": " <= afterKey then ParseMemberValue(afterKey[2..], key, acc) else None
  }

  /** Reads the value of member `key` and what follows it: the closing brace or the next member. */
  function ParseMemberValue(t: string, key: string, acc: Dict<Json>): (r: Option<(Dict<Json>, string)>)
    ensures r.Some? ==> |r.value.1| < |t|
    decreases |t|, 2
  {
    match ParseValue(t)
    case None => None
    case Some((v, after)) =>
      var acc' := Put(acc, key, v);
      if "}" <= after then Some((acc', after[1..]))
      else if ", " <= after then ParseMembers(after[2..], acc')
      else None
  }

  /** A whole document: one value and nothing after it. */
  function ParseJson(t: string): Option<Json> {
    match ParseValue(t)
    case Some((v, rest)) => if rest == "" then Some(v) else None
    case None => None
  }

  // ---------------------------------------------------------------------------
  // Round trip: reading what json.dumps wrote gives the value back

  /** What may follow a value inside the layout: nothing, a separator or a closing bracket. */
  predicate Delimited(rest: string) {
    |rest| == 0 || rest[0] == ',' || rest[0] == ']' || rest[0] == '}'
  }

  predicate IsAscii(s: string) {
    forall k :: 0 <= k < |s| ==> s[k] as int < 0x80
  }

  lemma AsciiConcat(a: string, b: string)
    requires IsAscii(a) && IsAscii(b)
    ensures IsAscii(a + b)
  {
    assert forall i :: 0 <= i < |a + b| ==> (a + b)[i] == if i < |a| then a[i] else b[i - |a|];
  }

  lemma UnitEscapeIsAscii(n: nat, k: string)
    requires n < 0x10000 && IsAscii(k)
    ensures IsAscii(UnitEscapeOnto(n, k))
  {
    var h := Hex4Onto(n, k);
    assert forall i :: 0 <= i < 4 ==> h[i] as int < 0x80;
    assert forall i :: 4 <= i < |h| ==> h[i] == k[i - 4];
    AsciiConcat("\\u", h);
  }

  lemma EscapeCharIsAscii(c: char, k: string)
    requires IsAscii(k)
    ensures IsAscii(EscapeCharOnto(c, k))
  {
    var n := c as int;
    if IsShortEscaped(c) || 0x20 <= n <= 0x7E {
      PlainEscapeIsAscii(c, k);
    } else if n < 0x10000 {
      UnitEscapeIsAscii(n, k);
    } else {
      UnitEscapeIsAscii(LowSurrogate(n), k);
      UnitEscapeIsAscii(HighSurrogate(n), UnitEscapeOnto(LowSurrogate(n), k));
    }
  }

  lemma PlainEscapeIsAscii(c: char, k: string)
    requires IsAscii(k)
    requires IsShortEscaped(c) || 0x20 <= c as int <= 0x7E
    ensures IsAscii(EscapeCharOnto(c, k))
  {
    var e := EscapeCharOnto(c, k);
    var h := e[..|e| - |k|];
    assert e == h + k;
    assert |h| <= 2 && forall i :: 0 <= i < |h| ==> h[i] as int < 0x80;
    AsciiConcat(h, k);
  }

  /** `ensure_ascii`: escaping keeps ASCII text ASCII, whatever characters `s` holds. */
  lemma {:induction false} EscapeIsAscii(s: string, k: string)
    requires IsAscii(k)
    ensures IsAscii(EscapeOnto(s, k))
  {
    if |s| > 0 {
      EscapeIsAscii(s[1..], k);
      EscapeCharIsAscii(s[0], EscapeOnto(s[1..], k));
    }
  }

  lemma HexDigitValue(d: nat)
    requires d < 16
    ensures HexValue(HexDigit(d)) == Some(d)
  {
  }

  lemma ReadHex4OfHex4(n: nat, k: string)
    requires n < 0x10000
    ensures ReadHex4(Hex4Onto(n, k)) == Some(n)
  {
    var t := Hex4Onto(n, k);
    var q1 := n / 16;
    var q2 := q1 / 16;
    var a, b, c, d := q2 / 16, q2 % 16, q1 % 16, n % 16;
    HexDigitValue(a);
    HexDigitValue(b);
    HexDigitValue(c);
    HexDigitValue(d);
    assert t[0] == HexDigit(a) && t[1] == HexDigit(b) && t[2] == HexDigit(c) && t[3] == HexDigit(d);
  }

  /** Each escaped character reads back as itself, leaving the text after it. */
  lemma ReadEscapeChar(c: char, k: string)
    ensures ReadChar(EscapeCharOnto(c, k)) == Some((c, k))
  {
    var n := c as int;
    if IsShortEscaped(c) {
      ReadShortEscape(c, k);
    } else if 0x20 <= n <= 0x7E {
      ReadPlainChar(c, k);
    } else if n < 0x10000 {
      ReadBmpEscape(c, k);
    } else {
      ReadAstralEscape(c, k);
    }
  }

  lemma ReadBmpEscape(c: char, k: string)
    requires !IsShortEscaped(c) && !(0x20 <= c as int <= 0x7E) && c as int < 0x10000
    ensures ReadChar(EscapeCharOnto(c, k)) == Some((c, k))
  {
    assert EscapeCharOnto(c, k) == UnitEscapeOnto(c as int, k);
    ReadUnitEscape(c as int, k);
  }

  lemma ReadAstralEscape(c: char, k: string)
    requires 0x10000 <= c as int
    ensures ReadChar(EscapeCharOnto(c, k)) == Some((c, k))
  {
    var n := c as int;
    assert EscapeCharOnto(c, k) == UnitEscapeOnto(HighSurrogate(n), UnitEscapeOnto(LowSurrogate(n), k));
    ReadPairEscape(c, k);
  }

  lemma ReadPlainChar(c: char, k: string)
    requires !IsShortEscaped(c) && 0x20 <= c as int <= 0x7E
    ensures ReadChar(EscapeCharOnto(c, k)) == Some((c, k))
  {
    assert EscapeCharOnto(c, k) == [c] + k;
    assert ([c] + k)[1..] == k;
  }

  lemma ReadShortEscape(c: char, k: string)
    requires IsShortEscaped(c)
    ensures ReadChar(EscapeCharOnto(c, k)) == Some((c, k))
  {
    var t := EscapeCharOnto(c, k);
    assert t[0] == '\\' && t[2..] == k;
    assert ShortEscape(t[1]) == Some(c);
  }

  lemma ReadUnitEscape(n: nat, k: string)
    requires n < 0xD800 || 0xE000 <= n < 0x10000
    requires n < 0x20 || 0x7E < n
    requires n != 0x08 && n != 0x09 && n != 0x0A && n != 0x0C && n != 0x0D
    ensures ReadChar(UnitEscapeOnto(n, k)) == Some((n as char, k))
  {
    var t := UnitEscapeOnto(n, k);
    assert t[2..] == Hex4Onto(n, k);
    ReadHex4OfHex4(n, k);
  }

  /** The two halves of a UTF-16 surrogate pair recombine into the code point they encode. */
  lemma SurrogateHalves(n: int)
    requires 0x10000 <= n < 0x110000
    ensures 0x10000 + (HighSurrogate(n) - 0xD800) * 0x400 + (LowSurrogate(n) - 0xDC00) == n
  {
  }

  /** The reader joins a high and a low surrogate escape into one character. */
  lemma ReadSurrogates(u: string, hi: nat, lo: nat, c: char, k: string)
    requires 0xD800 <= hi < 0xDC00 && 0xDC00 <= lo < 0xE000
    requires 0x10000 + (hi - 0xD800) * 0x400 + (lo - 0xDC00) == c as int
    requires ReadHex4(u) == Some(hi) && "\\u" <= u[4..] && ReadHex4(u[6..]) == Some(lo) && u[10..] == k
    ensures ReadUnicodeEscape(u) == Some((c, k))
  {
  }

  lemma ReadPairEscape(c: char, k: string)
    requires 0x10000 <= c as int
    ensures ReadChar(UnitEscapeOnto(HighSurrogate(c as int), UnitEscapeOnto(LowSurrogate(c as int), k))) == Some((c, k))
  {
    var n := c as int;
    var hi, lo := HighSurrogate(n), LowSurrogate(n);
    SurrogateHalves(n);
    var low := UnitEscapeOnto(lo, k);
    var u := Hex4Onto(hi, low);
    assert u[4..] == low;
    assert u[6..] == Hex4Onto(lo, k);
    ReadHex4OfHex4(hi, low);
    ReadHex4OfHex4(lo, k);
    ReadSurrogates(u, hi, lo, c, k);
    assert UnitEscapeOnto(hi, low)[2..] == u;
  }

  /** The body of a quoted string reads back as the text it escapes. */
  lemma {:induction false} ReadEscaped(s: string, rest: string)
    ensures ReadStringBody(EscapeOnto(s, "\"" + rest)) == Some((s, rest))
  {
    if |s| == 0 {
      assert ("\"" + rest)[1..] == rest;
    } else {
      ReadEscapeChar(s[0], EscapeOnto(s[1..], "\"" + rest));
      ReadEscaped(s[1..], rest);
      assert [s[0]] + s[1..] == s;
    }
  }

  lemma {:induction false} DigitRunOfDigits(d: string, rest: string)
    requires AllDigits(d)
    requires |rest| == 0 || !IsDigit(rest[0])
    ensures DigitRun(d + rest) == |d|
  {
    if |d| > 0 {
      assert (d + rest)[1..] == d[1..] + rest;
      DigitRunOfDigits(d[1..], rest);
    } else {
      assert d + rest == rest;
    }
  }

  lemma ParseNumberOfShowInt(i: int, rest: string)
    requires Delimited(rest)
    ensures ParseNumber(ShowInt(i) + rest) == Some((JInt(i), rest))
  {
    var t := ShowInt(i) + rest;
    var m := if i < 0 then -i else i;
    var body := ShowNat(m) + rest;
    if i < 0 {
      assert t == "-" + body && t[1..] == body;
    } else {
      assert t == body;
    }
    DigitRunOfDigits(ShowNat(m), rest);
    assert body[..|ShowNat(m)|] == ShowNat(m);
    assert body[|ShowNat(m)|..] == rest;
    ReadShowNat(m);
  }

  /** A dumped value is never empty and never starts with a closing bracket or a separator. */
  lemma DumpStart(j: Json, k: string)
    ensures |DumpOnto(j, k)| > 0
    ensures DumpOnto(j, k)[0] in "ntf\"[{-0123456789"
  {
    match j
    case JInt(i) =>
      if i >= 0 {
        assert IsDigit(ShowNat(i)[0]);
      }
    case _ =>
  }

  /** Assigns the pairs of `fields` into `acc` one after another, as a dict display does. */
  function PutAll<V>(acc: Dict<V>, fields: seq<(string, V)>): Dict<V>
    decreases |fields|
  {
    if |fields| == 0 then acc else PutAll(Put(acc, fields[0].0, fields[0].1), fields[1..])
  }

  /** Assigning pairs with fresh, distinct keys appends them in order. */
  lemma {:induction false} PutAllFresh<V>(acc: Dict<V>, fields: seq<(string, V)>)
    requires UniqueKeys(acc + fields)
    ensures PutAll(acc, fields) == acc + fields
    decreases |fields|
  {
    if |fields| > 0 {
      var all := acc + fields;
      var acc' := acc + [fields[0]];
      assert acc' == all[..|acc| + 1];
      assert acc' + fields[1..] == all;
      PutFresh(acc, fields[0]);
      PutAllFresh(acc', fields[1..]);
    }
  }

  /** Assigning a fresh key appends the pair. */
  lemma PutFresh<V>(acc: Dict<V>, p: (string, V))
    requires UniqueKeys(acc + [p])
    ensures Put(acc, p.0, p.1) == acc + [p]
  {
    var all := acc + [p];
    assert all[|acc|] == p;
    assert forall i :: 0 <= i < |acc| ==> all[i] == acc[i];
    assert IndexOf(acc, p.0).None?;
  }

  /** Literals, numbers and strings read back as themselves. */
  lemma ParseDumpScalar(j: Json, rest: string)
    requires Delimited(rest)
    requires !j.JArr? && !j.JObj?
    ensures ParseValue(DumpOnto(j, rest)) == Some((j, rest))
  {
    var t := DumpOnto(j, rest);
    match j
    case JNull =>
      assert t[4..] == rest;
    case JBool(b) =>
      ParseDumpBool(b, rest);
    case JInt(i) =>
      ParseDumpInt(i, rest);
    case JStr(s) =>
      ParseDumpString(s, rest);
  }

  lemma ParseDumpBool(b: bool, rest: string)
    ensures ParseValue(DumpOnto(JBool(b), rest)) == Some((JBool(b), rest))
  {
    var t := DumpOnto(JBool(b), rest);
    if b {
      assert t[0] == 't' && t[..4] == "true" && t[4..] == rest;
    } else {
      assert t[0] == 'f' && t[..5] == "false" && t[5..] == rest;
    }
  }

  lemma ParseDumpInt(i: int, rest: string)
    requires Delimited(rest)
    ensures ParseValue(DumpOnto(JInt(i), rest)) == Some((JInt(i), rest))
  {
    var t := DumpOnto(JInt(i), rest);
    assert t == ShowInt(i) + rest;
    assert t[0] == '-' || IsDigit(t[0]) by {
      assert t[0] == ShowInt(i)[0];
      if i >= 0 {
        assert IsDigit(ShowNat(i)[0]);
      }
    }
    ParseValueOfNumber(t);
    ParseNumberOfShowInt(i, rest);
  }

  /** Text starting with a sign or a digit is read as a number. */
  lemma ParseValueOfNumber(t: string)
    requires |t| > 0 && (t[0] == '-' || IsDigit(t[0]))
    ensures ParseValue(t) == ParseNumber(t)
  {
    var c := t[0];
    assert c != 'n' && c != 't' && c != 'f' && c != '"' && c != '[' && c != '{';
  }

  lemma ParseDumpString(s: string, rest: string)
    requires Delimited(rest)
    ensures ParseValue(DumpOnto(JStr(s), rest)) == Some((JStr(s), rest))
  {
    var t := DumpOnto(JStr(s), rest);
    assert t == QuoteOnto(s, rest);
    assert t[0] == '"' && t[1..] == EscapeOnto(s, "\"" + rest);
    ReadEscaped(s, rest);
    assert ParseString(t[1..]) == Some((JStr(s), rest));
  }

  /** Reading a dumped value followed by a delimiter gives the value and the delimiter back. */
  lemma {:induction false} ParseDump(j: Json, rest: string)
    requires Delimited(rest)
    ensures ParseValue(DumpOnto(j, rest)) == Some((j, rest))
    decreases j, 2
  {
    match j
    case JArr(items) =>
      assert DumpOnto(j, rest)[1..] == ItemsOnto(items, "]" + rest);
      ParseDumpArray(j, rest);
    case JObj(fields) =>
      assert DumpOnto(j, rest)[1..] == MembersOnto(fields, "}" + rest);
      ParseDumpObject(j, rest);
    case _ =>
      ParseDumpScalar(j, rest);
  }

  lemma {:induction false} ParseDumpArray(j: Json, rest: string)
    requires j.JArr?
    ensures ParseArray(ItemsOnto(j.items, "]" + rest)) == Some((j, rest))
    decreases j, 1
  {
    var items := j.items;
    var t := ItemsOnto(items, "]" + rest);
    if |items| == 0 {
      assert t[1..] == rest;
    } else {
      DumpStart(items[0], if |items| == 1 then "]" + rest else ", " + ItemsOnto(items[1..], "]" + rest));
      ParseDumpItems(items, rest);
    }
  }

  lemma {:induction false} ParseDumpObject(j: Json, rest: string)
    requires j.JObj?
    ensures ParseObject(MembersOnto(j.fields, "}" + rest)) == Some((j, rest))
    decreases j, 1
  {
    var fields := j.fields;
    var t := MembersOnto(fields, "}" + rest);
    if |fields| == 0 {
      assert t[1..] == rest;
    } else {
      MembersStart(fields, "}" + rest);
      ParseDumpFields(j, rest);
    }
  }

  /** The members of a non-empty object, read into an empty dict, are the object's fields. */
  lemma {:induction false} ParseDumpFields(j: Json, rest: string)
    requires j.JObj? && |j.fields| > 0
    ensures ParseMembers(MembersOnto(j.fields, "}" + rest), []) == Some((j.fields, rest))
    decreases j, 0
  {
    ParseDumpMembers(j.fields, [], rest);
    PutAllFresh([], j.fields);
    assert [] + j.fields == j.fields;
  }

  /** A non-empty member list starts with the opening quote of its first key. */
  lemma MembersStart(fields: seq<(string, Json)>, k: string)
    requires |fields| > 0
    ensures |MembersOnto(fields, k)| > 0 && MembersOnto(fields, k)[0] == '"'
  {
    var k' := if |fields| == 1 then k else ", " + MembersOnto(fields[1..], k);
    assert MembersOnto(fields, k) == MemberOnto(fields[0], k');
  }

  lemma {:induction false} ParseDumpItems(items: seq<Json>, rest: string)
    requires |items| > 0
    ensures ParseItems(ItemsOnto(items, "]" + rest)) == Some((items, rest))
    decreases items
  {
    if |items| == 1 {
      ParseDump(items[0], "]" + rest);
      assert ("]" + rest)[1..] == rest;
      assert [items[0]] == items;
    } else {
      var tail := ", " + ItemsOnto(items[1..], "]" + rest);
      ParseDump(items[0], tail);
      assert tail[2..] == ItemsOnto(items[1..], "]" + rest);
      ParseDumpItems(items[1..], rest);
      assert [items[0]] + items[1..] == items;
    }
  }

  /** Reads one dumped member and continues according to what follows its value. */
  lemma {:induction false} ParseDumpMember(p: (string, Json), tail: string, acc: Dict<Json>)
    requires Delimited(tail)
    ensures ParseMembers(MemberOnto(p, tail), acc) ==
      var acc' := Put(acc, p.0, p.1);
      if "}" <= tail then Some((acc', tail[1..]))
      else if ", " <= tail then ParseMembers(tail[2..], acc')
      else None
    decreases p
  {
    var afterKey := ": " + DumpOnto(p.1, tail);
    ReadEscaped(p.0, afterKey);
    assert afterKey[2..] == DumpOnto(p.1, tail);
    ParseDump(p.1, tail);
  }

  lemma {:induction false} ParseDumpMembers(fields: seq<(string, Json)>, acc: Dict<Json>, rest: string)
    requires |fields| > 0
    ensures ParseMembers(MembersOnto(fields, "}" + rest), acc) == Some((PutAll(acc, fields), rest))
    decreases fields
  {
    var p := fields[0];
    var acc' := Put(acc, p.0, p.1);
    assert PutAll(acc, fields) == PutAll(acc', fields[1..]);
    if |fields| == 1 {
      ParseDumpMember(p, "}" + rest, acc);
      assert ("}" + rest)[1..] == rest;
    } else {
      var tail := ", " + MembersOnto(fields[1..], "}" + rest);
      ParseDumpMember(p, tail, acc);
      assert tail[2..] == MembersOnto(fields[1..], "}" + rest);
      ParseDumpMembers(fields[1..], acc', rest);
    }
  }

  /** `json.dumps` output is plain ASCII. */
  lemma {:induction false} DumpIsAscii(j: Json, k: string)
    requires IsAscii(k)
    ensures IsAscii(DumpOnto(j, k))
    decreases j
  {
    match j
    case JNull => AsciiConcat("null", k);
    case JBool(b) => AsciiConcat(if b then "true" else "false", k);
    case JInt(i) =>
      var d := ShowInt(i);
      assert IsAscii(d) by {
        if i < 0 {
          var m := ShowNat(-i);
          assert forall n :: 1 <= n < |d| ==> d[n] == m[n - 1];
        }
      }
      AsciiConcat(d, k);
    case JStr(s) =>
      AsciiConcat("\"", k);
      EscapeIsAscii(s, "\"" + k);
      AsciiConcat("\"", EscapeOnto(s, "\"" + k));
    case JArr(items) =>
      AsciiConcat("]", k);
      ItemsAreAscii(items, "]" + k);
      AsciiConcat("[", ItemsOnto(items, "]" + k));
    case JObj(fields) =>
      AsciiConcat("}", k);
      MembersAreAscii(fields, "}" + k);
      AsciiConcat("{", MembersOnto(fields, "}" + k));
  }

  lemma {:induction false} ItemsAreAscii(items: seq<Json>, k: string)
    requires IsAscii(k)
    ensures IsAscii(ItemsOnto(items, k))
    decreases items
  {
    if |items| == 1 {
      DumpIsAscii(items[0], k);
    } else if |items| > 1 {
      ItemsAreAscii(items[1..], k);
      AsciiConcat(", ", ItemsOnto(items[1..], k));
      DumpIsAscii(items[0], ", " + ItemsOnto(items[1..], k));
    }
  }

  lemma {:induction false} MemberIsAscii(p: (string, Json), k: string)
    requires IsAscii(k)
    ensures IsAscii(MemberOnto(p, k))
    decreases p
  {
    DumpIsAscii(p.1, k);
    AsciiConcat(": ", DumpOnto(p.1, k));
    var after := "\"" + (": " + DumpOnto(p.1, k));
    AsciiConcat("\"", ": " + DumpOnto(p.1, k));
    EscapeIsAscii(p.0, after);
    AsciiConcat("\"", EscapeOnto(p.0, after));
  }

  lemma {:induction false} MembersAreAscii(fields: seq<(string, Json)>, k: string)
    requires IsAscii(k)
    ensures IsAscii(MembersOnto(fields, k))
    decreases fields
  {
    if |fields| == 1 {
      MemberIsAscii(fields[0], k);
    } else if |fields| > 1 {
      MembersAreAscii(fields[1..], k);
      AsciiConcat(", ", MembersOnto(fields[1..], k));
      MemberIsAscii(fields[0], ", " + MembersOnto(fields[1..], k));
    }
  }
}

=== FILE: llm_controller.dfy ===
/** `LLMController`: the choice of language-model backend, each backend's API-key lookup, and how
    each backend turns the completion service's answer into the reply text. The completion services
    themselves are outside the model: their answer arrives as a `CallOutcome`. */
module LlmController {
  import opened Wrappers
  import opened Text
  import opened JsonValue
  import GlmReply
  import opened OllamaFallback

  /** The two environment variables the controllers consult, `OPENAI_API_KEY` and `GLM_API_KEY`. */
  datatype Env = Env(openaiKey: Option<string>, glmKey: Option<string>)

  /** The three backends. The OpenAI controller keeps no key of its own: it exports the key to
      the environment, where the completion library finds it. */
  datatype Controller =
    | OpenAIController(model: string)
    | OllamaController(model: string)
    | GLMController(model: string, apiKey: string)

  /** The `ValueError` a constructor raises. */
  datatype ConfigError = ValueError(message: string)

  /** Why `get_completion` raised: the completion service raised and the controller let the
      exception through, or the Ollama fallback itself raised. */
  datatype CompletionError = CallRaised | FallbackRaised(error: PyError)

  const OpenAIKeyMissing: string := "OpenAI API key not found. Set OPENAI_API_KEY environment variable."
  const GLMKeyMissing: string := "GLM API key not found. Set GLM_API_KEY environment variable."
  const UnknownBackend: string := "Backend must be one of: 'openai', 'ollama', 'glm'"

  const DefaultBackend: string := "openai"
  const DefaultModel: string := "gpt-4"

  /** The backend name that selects a controller. */
  function BackendName(c: Controller): string {
    match c
    case OpenAIController(_) => "openai"
    case OllamaController(_) => "ollama"
    case GLMController(_, _) => "glm"
  }

  predicate KnownBackend(backend: string) {
    backend == "openai" || backend == "ollama" || backend == "glm"
  }

  // ---------------------------------------------------------------------------
  // Construction

  /** `OpenAIController(model, api_key)`: an explicit key wins over `OPENAI_API_KEY` (even an
      empty one, since only `None` counts as missing); the key in use is then written back to
      `OPENAI_API_KEY`. Returns the controller and the environment afterwards. */
  function NewOpenAIController(model: string, apiKey: Option<string>, env: Env): (r: Result<(Controller, Env), ConfigError>)
    ensures r.Ok? <==> apiKey.Some? || env.openaiKey.Some?
    ensures r.Err? ==> r.error == ValueError(OpenAIKeyMissing)
    ensures r.Ok? ==> r.value.0 == OpenAIController(model)
    ensures r.Ok? ==> r.value.1.glmKey == env.glmKey && r.value.1.openaiKey.Some?
    ensures r.Ok? && apiKey.Some? ==> r.value.1.openaiKey == apiKey
    ensures r.Ok? && apiKey.None? ==> r.value.1 == env
  {
    var key := if apiKey.Some? then apiKey else env.openaiKey;
    match key
    case None => Err(ValueError(OpenAIKeyMissing))
    case Some(k) => Ok((OpenAIController(model), env.(openaiKey := Some(k))))
  }

  /** `GLMController(model, api_key)`: an explicit key wins over `GLM_API_KEY`, and the
      controller keeps the key it found. */
  function NewGLMController(model: string, apiKey: Option<string>, env: Env): (r: Result<Controller, ConfigError>)
    ensures r.Ok? <==> apiKey.Some? || env.glmKey.Some?
    ensures r.Err? ==> r.error == ValueError(GLMKeyMissing)
    ensures r.Ok? ==> r.value.GLMController? && r.value.model == model
    ensures r.Ok? && apiKey.Some? ==> r.value.apiKey == apiKey.value
    ensures r.Ok? && apiKey.None? ==> env.glmKey == Some(r.value.apiKey)
  {
    var key := if apiKey.Some? then apiKey else env.glmKey;
    match key
    case None => Err(ValueError(GLMKeyMissing))
    case Some(k) => Ok(GLMController(model, k))
  }

  /** `LLMController(backend, model, api_key)`: dispatch on the backend name. Returns the chosen
      controller and the environment afterwards. */
  function NewLLMController(backend: string, model: string, apiKey: Option<string>, env: Env): (r: Result<(Controller, Env), ConfigError>)
    ensures !KnownBackend(backend) ==> r == Err(ValueError(UnknownBackend))
    ensures r.Ok? <==>
      backend == "ollama"
      || (backend == "openai" && (apiKey.Some? || env.openaiKey.Some?))
      || (backend == "glm" && (apiKey.Some? || env.glmKey.Some?))
    ensures r.Ok? ==> BackendName(r.value.0) == backend && r.value.0.model == model
    ensures r.Ok? && backend != "openai" ==> r.value.1 == env
  {
    if backend == "openai" then NewOpenAIController(model, apiKey, env)
    else if backend == "ollama" then Ok((OllamaController(model), env))
    else if backend == "glm" then
      var c :- NewGLMController(model, apiKey, env);
      Ok((c, env))
    else Err(ValueError(UnknownBackend))
  }

  /** Every controller is what the constructor builds from its own backend name and model, given
      the key it holds (any key for the backends that keep none). */
  lemma ConstructRoundTrip(c: Controller, key: string, env: Env)
    requires c.GLMController? ==> key == c.apiKey
    ensures NewLLMController(BackendName(c), c.model, Some(key), env).Ok?
    ensures NewLLMController(BackendName(c), c.model, Some(key), env).value.0 == c
  {
  }

  /** With every argument left at its default, construction needs `OPENAI_API_KEY`, and when it
      is set nothing else about the environment changes. */
  lemma DefaultConstruction(env: Env)
    ensures env.openaiKey.None? ==> NewLLMController(DefaultBackend, DefaultModel, None, env) == Err(ValueError(OpenAIKeyMissing))
    ensures env.openaiKey.Some? ==> NewLLMController(DefaultBackend, DefaultModel, None, env) == Ok((OpenAIController("gpt-4"), env))
  {
  }

  /** The key an OpenAI controller exports stays behind: a second OpenAI controller built
      afterwards needs no key of its own and leaves the environment as it is. */
  lemma ExportedKeyServesLaterControllers(model: string, apiKey: Option<string>, env: Env, model2: string)
    requires NewLLMController("openai", model, apiKey, env).Ok?
    ensures var env' := NewLLMController("openai", model, apiKey, env).value.1;
      NewLLMController("openai", model2, None, env') == Ok((OpenAIController(model2), env'))
  {
  }

  /** Each backend reads only its own environment variable. */
  lemma OnlyOwnKeyMatters(backend: string, model: string, apiKey: Option<string>, e1: Env, e2: Env)
    requires backend == "openai" ==> e1.openaiKey == e2.openaiKey
    requires backend == "glm" ==> e1.glmKey == e2.glmKey
    ensures NewLLMController(backend, model, apiKey, e1).Ok? == NewLLMController(backend, model, apiKey, e2).Ok?
    ensures NewLLMController(backend, model, apiKey, e1).Ok? ==>
      NewLLMController(backend, model, apiKey, e1).value.0 == NewLLMController(backend, model, apiKey, e2).value.0
  {
  }

  // ---------------------------------------------------------------------------
  // Completion

  /** `LLMController.get_completion` as the code runs it: the OpenAI controller returns the
      message text as it is, the GLM controller cleans it, and both let a failed call raise. The
      Ollama controller answers a failed call with its synthesised empty object, but building that
      object raises for some response formats, the default one among them. */
  function CompleteAsWritten(c: Controller, call: CallOutcome, fmt: Json): (r: Result<string, CompletionError>)
    ensures call.Replied? ==> r.Ok?
    ensures call.Failed? && !c.OllamaController? ==> r == Err(CallRaised)
    ensures c.OllamaController? && call.Failed? ==>
      (r.Ok? <==> EmptyResponseAsWritten(fmt).Ok?) && (r.Err? ==> r.error == FallbackRaised(EmptyResponseAsWritten(fmt).error))
  {
    match c
    case OpenAIController(_) =>
      if call.Replied? then Ok(call.content) else Err(CallRaised)
    case GLMController(_, _) =>
      if call.Replied? then Ok(GlmReply.CleanReply(call.content)) else Err(CallRaised)
    case OllamaController(_) =>
      match OllamaCompletionAsWritten(call, fmt)
      case Ok(text) => Ok(text)
      case Err(e) => Err(FallbackRaised(e))
  }

  /** `LLMController.get_completion` with the Ollama fallback corrected so that it never raises:
      the synthesised empty object is returned for every response format. */
  function Complete(c: Controller, call: CallOutcome, fmt: Json): (r: Result<string, CompletionError>)
    ensures r.Err? <==> call.Failed? && !c.OllamaController?
    ensures c.OpenAIController? && call.Replied? ==> r == Ok(call.content)
    ensures c.GLMController? && r.Ok? ==>
      !Contains(r.value, Fence) && !Contains(r.value, "True") && !Contains(r.value, "False") && !Contains(r.value, "None")
    ensures c.OllamaController? && call.Replied? ==> r == Ok(call.content)
    ensures c.OllamaController? && call.Failed? ==> r.Ok? && ParseJson(r.value) == Some(JObj(EmptyResponse(fmt)))
  {
    match c
    case OpenAIController(_) =>
      if call.Replied? then Ok(call.content) else Err(CallRaised)
    case GLMController(_, _) =>
      if call.Replied? then Ok(GlmReply.CleanReply(call.content)) else Err(CallRaised)
    case OllamaController(_) =>
      Ok(OllamaCompletion(call, fmt))
  }

  /** A GLM reply keeps the length of the trimmed, unfenced message and differs from it only in
      respelt literal letters, and it neither starts nor ends with whitespace. */
  lemma GlmCompletionShape(model: string, key: string, raw: string, fmt: Json)
    ensures var r := Complete(GLMController(model, key), Replied(raw), fmt).value;
      var s := GlmReply.Unfenced(raw);
      |r| == |s|
      && (forall i :: 0 <= i < |s| ==> GlmReply.Respelt(s[i], r[i]))
      && (|r| == 0 || (!IsSpace(r[0]) && !IsSpace(r[|r| - 1])))
  {
    GlmCompletionCleans(model, key, raw, fmt);
    GlmReply.CleanReplyOnlyRespells(raw);
    GlmReply.CleanReplyIsTrimmed(raw);
  }

  lemma GlmCompletionCleans(model: string, key: string, raw: string, fmt: Json)
    ensures Complete(GLMController(model, key), Replied(raw), fmt) == Ok(GlmReply.CleanReply(raw))
  {
  }

  /** A GLM reply that the service sent back verbatim would come out unchanged. */
  lemma GlmCompletionStable(model: string, key: string, raw: string, fmt: Json)
    ensures var c := GLMController(model, key);
      var r := Complete(c, Replied(raw), fmt);
      Complete(c, Replied(r.value), fmt) == r
  {
    GlmCompletionCleans(model, key, raw, fmt);
    GlmCompletionCleans(model, key, GlmReply.CleanReply(raw), fmt);
    GlmReply.CleanReplyIdempotent(raw);
  }

  /** Wherever the code as written returns, the corrected completion returns the same text; it
      differs only where the code raises from inside its own fallback. */
  lemma CompleteRefinesAsWritten(c: Controller, call: CallOutcome, fmt: Json)
    ensures CompleteAsWritten(c, call, fmt).Ok? ==> Complete(c, call, fmt) == CompleteAsWritten(c, call, fmt)
    ensures CompleteAsWritten(c, call, fmt) == Err(CallRaised) <==> Complete(c, call, fmt) == Err(CallRaised)
  {
    OllamaCompletionRefinesAsWritten(call, fmt);
  }

  /** `get_completion` without a response format, after a failed call on an Ollama backend: the
      code as written raises `TypeError` from its fallback, while the corrected completion
      answers with `{}`. */
  lemma DefaultFormatCompletion(model: string)
    ensures CompleteAsWritten(OllamaController(model), Failed, JNull) == Err(FallbackRaised(TypeError))
    ensures Complete(OllamaController(model), Failed, JNull) == Ok("{}")
  {
    DefaultFormatFallback();
  }
}

=== FILE: memory_models.dfy ===
/** The request and response records of the memory gateway, and the validation the request
    models apply before a request reaches a storage backend. */
module MemoryModels {
  import opened Wrappers
  import Text

  /** The kind of a memory; stored as the `label` of a task context. */
  datatype MemoryType = Conversation | Experience | Knowledge | Context {
    function Value(): string {
      match this
      case Conversation => "conversation"
      case Experience => "experience"
      case Knowledge => "knowledge"
      case Context => "context"
    }
  }

  datatype ImportanceLevel = Critical | High | Medium | Low | Temporary {
    function Value(): string {
      match this
      case Critical => "critical"
      case High => "high"
      case Medium => "medium"
      case Low => "low"
      case Temporary => "temporary"
    }
  }

  /** Coerces a string to a memory type by value, as the enum field does. */
  function ParseMemoryType(s: string): (r: Option<MemoryType>)
    ensures r.Some? ==> r.value.Value() == s
    ensures r.None? ==> forall t: MemoryType :: t.Value() != s
  {
    if s == "conversation" then Some(Conversation)
    else if s == "experience" then Some(Experience)
    else if s == "knowledge" then Some(Knowledge)
    else if s == "context" then Some(Context)
    else None
  }

  /** Coerces a string to an importance level by value. */
  function ParseImportance(s: string): (r: Option<ImportanceLevel>)
    ensures r.Some? ==> r.value.Value() == s
    ensures r.None? ==> forall l: ImportanceLevel :: l.Value() != s
  {
    if s == "critical" then Some(Critical)
    else if s == "high" then Some(High)
    else if s == "medium" then Some(Medium)
    else if s == "low" then Some(Low)
    else if s == "temporary" then Some(Temporary)
    else None
  }

  /** Exactly four memory types exist, each with its own value, and parsing inverts `Value`. */
  lemma MemoryTypeIsClosed(t: MemoryType)
    ensures t in {Conversation, Experience, Knowledge, Context}
    ensures ParseMemoryType(t.Value()) == Some(t)
    ensures forall u: MemoryType :: u.Value() == t.Value() ==> u == t
  {
  }

  /** Exactly five importance levels exist, each with its own value, and parsing inverts `Value`. */
  lemma ImportanceIsClosed(l: ImportanceLevel)
    ensures l in {Critical, High, Medium, Low, Temporary}
    ensures ParseImportance(l.Value()) == Some(l)
    ensures forall m: ImportanceLevel :: m.Value() == l.Value() ==> m == l
  {
  }

  /** The names of the fields a request failed validation on, in declaration order. */
  datatype ValidationError = ValidationError(fields: seq<string>)

  /** The names of the checks that failed, in the order given. Each entry pairs a field name
      with whether that field passed. */
  function FailedFields(first: (string, bool), second: (string, bool), third: (string, bool)): (fs: seq<string>)
    requires first.0 != second.0 && first.0 != third.0 && second.0 != third.0
    ensures first.0 in fs <==> !first.1
    ensures second.0 in fs <==> !second.1
    ensures third.0 in fs <==> !third.1
    ensures |fs| == 0 <==> first.1 && second.1 && third.1
    ensures forall f :: f in fs ==> f == first.0 || f == second.0 || f == third.0
  {
    (if first.1 then [] else [first.0]) + (if second.1 then [] else [second.0]) + (if third.1 then [] else [third.0])
  }

  datatype SaveMemoryRequest = SaveMemoryRequest(
    content: string,
    memoryType: MemoryType,
    importance: ImportanceLevel,
    tags: Option<seq<string>>,
    relatedTaskId: Option<int>)

  const EmptyContentMessage: string := "记忆内容不能为空"

  /** The `content` validator: rejects empty and blank text, and keeps the stripped text otherwise. */
  function ValidateContent(v: string): (r: Result<string, string>)
    ensures r.Ok? <==> !Text.AllSpace(v)
    ensures r.Ok? ==> r.value == Text.Strip(v)
    ensures r.Ok? ==> |r.value| > 0 && !Text.IsSpace(r.value[0]) && !Text.IsSpace(r.value[|r.value| - 1])
    ensures r.Err? ==> r.error == EmptyContentMessage
  {
    var t := Text.Strip(v);
    Text.StripEmptyIffAllSpace(v);
    // An empty value strips to the empty string, so one test covers both rejections.
    if |t| == 0 then Err(EmptyContentMessage) else Ok(t)
  }

  /** Builds a save request from raw field values, collecting every field that fails. */
  function NewSaveMemoryRequest(
    content: string, memoryType: string, importance: string,
    tags: Option<seq<string>>, relatedTaskId: Option<int>): (r: Result<SaveMemoryRequest, ValidationError>)
    ensures r.Ok? <==> !Text.AllSpace(content) && ParseMemoryType(memoryType).Some? && ParseImportance(importance).Some?
    ensures r.Ok? ==> r.value.content == Text.Strip(content) && |r.value.content| > 0
    ensures r.Ok? ==> r.value.memoryType.Value() == memoryType && r.value.importance.Value() == importance
    ensures r.Ok? ==> r.value.tags == tags && r.value.relatedTaskId == relatedTaskId
    ensures r.Err? ==> ("content" in r.error.fields <==> Text.AllSpace(content))
    ensures r.Err? ==> ("memory_type" in r.error.fields <==> ParseMemoryType(memoryType).None?)
    ensures r.Err? ==> ("importance" in r.error.fields <==> ParseImportance(importance).None?)
  {
    var c := ValidateContent(content);
    var t := ParseMemoryType(memoryType);
    var l := ParseImportance(importance);
    if c.Ok? && t.Some? && l.Some? then
      Ok(SaveMemoryRequest(c.value, t.value, l.value, tags, relatedTaskId))
    else
      Err(ValidationError(FailedFields(("content", c.Ok?), ("memory_type", t.Some?), ("importance", l.Some?))))
  }

  datatype QueryMemoryRequest = QueryMemoryRequest(
    searchText: string,
    memoryTypes: Option<seq<MemoryType>>,
    limit: int,
    minSimilarity: real)

  const DefaultLimit: int := 10
  const MaxLimit: int := 100
  const DefaultMinSimilarity: real := 0.3

  /** The bounds the query model enforces on its numeric fields. */
  predicate ValidQuery(q: QueryMemoryRequest) {
    1 <= q.limit <= MaxLimit && 0.0 <= q.minSimilarity <= 1.0
  }

  /** Coerces every entry of a memory-type filter, failing if any entry is not a memory type. */
  function ParseMemoryTypes(ss: seq<string>): (r: Option<seq<MemoryType>>)
    ensures r.Some? <==> forall i :: 0 <= i < |ss| ==> ParseMemoryType(ss[i]).Some?
    ensures r.Some? ==> |r.value| == |ss| && forall i :: 0 <= i < |ss| ==> r.value[i].Value() == ss[i]
  {
    if |ss| == 0 then Some([])
    else
      match (ParseMemoryType(ss[0]), ParseMemoryTypes(ss[1..]))
      case (Some(t), Some(ts)) => Some([t] + ts)
      case _ => None
  }

  /** Builds a query request; an omitted `limit` is 10 and an omitted `min_similarity` is 0.3. */
  function NewQueryMemoryRequest(
    searchText: string, memoryTypes: Option<seq<string>>,
    limit: Option<int>, minSimilarity: Option<real>): (r: Result<QueryMemoryRequest, ValidationError>)
    ensures r.Ok? <==>
      && (memoryTypes.Some? ==> ParseMemoryTypes(memoryTypes.value).Some?)
      && (limit.Some? ==> 1 <= limit.value <= 100)
      && (minSimilarity.Some? ==> 0.0 <= minSimilarity.value <= 1.0)
    ensures r.Ok? ==> ValidQuery(r.value) && r.value.searchText == searchText
    ensures r.Ok? ==> r.value.limit == (if limit.Some? then limit.value else 10)
    ensures r.Ok? ==> r.value.minSimilarity == (if minSimilarity.Some? then minSimilarity.value else 0.3)
    ensures r.Ok? ==> (r.value.memoryTypes.None? <==> memoryTypes.None?)
    ensures r.Ok? && memoryTypes.Some? ==> r.value.memoryTypes == ParseMemoryTypes(memoryTypes.value)
    ensures r.Err? ==> ("memory_types" in r.error.fields <==> memoryTypes.Some? && ParseMemoryTypes(memoryTypes.value).None?)
    ensures r.Err? ==> ("limit" in r.error.fields <==> limit.Some? && !(1 <= limit.value <= 100))
    ensures r.Err? ==> ("min_similarity" in r.error.fields <==> minSimilarity.Some? && !(0.0 <= minSimilarity.value <= 1.0))
  {
    var types := if memoryTypes.Some? then ParseMemoryTypes(memoryTypes.value) else Some([]);
    var n := limit.GetOr(DefaultLimit);
    var m := minSimilarity.GetOr(DefaultMinSimilarity);
    var typesOk := types.Some?;
    var limitOk := 1 <= n <= MaxLimit;
    var simOk := 0.0 <= m <= 1.0;
    if typesOk && limitOk && simOk then
      Ok(QueryMemoryRequest(searchText, if memoryTypes.Some? then Some(types.value) else None, n, m))
    else
      Err(ValidationError(FailedFields(("memory_types", typesOk), ("limit", limitOk), ("min_similarity", simOk))))
  }

  /** The metadata stored beside a memory. */
  datatype Meta = Meta(importance: string, tags: seq<string>)

  datatype SaveMemoryResponse = SaveMemoryResponse(
    contextId: string,
    taskId: int,
    memoryType: MemoryType,
    content: string,
    createdAt: int,
    embeddingGenerated: bool)

  datatype MemoryItem = MemoryItem(
    taskId: int,
    memoryType: MemoryType,
    content: string,
    similarity: real,
    createdAt: int,
    meta: Meta)

  datatype QueryMemoryResponse = QueryMemoryResponse(memories: seq<MemoryItem>, total: int)
}

=== FILE: memory_storage.dfy ===
/** The self-contained storage backend: a table of memories keyed by "{task_id}_{memory_type}"
    plus a task-id counter, with keyword-overlap ranking on query. */
module MemoryStorage {
  import opened Wrappers
  import opened Text
  import opened PyDict
  import opened Decimal
  import opened MemoryModels
  import opened Similarity
  import opened Ranking

  /** A backend failure: a message and a detail map. */
  datatype StorageError = StorageError(message: string, details: map<string, string>)

  /** One row of the table. */
  datatype StoredMemory = StoredMemory(
    taskId: int,
    memoryType: MemoryType,
    content: string,
    createdAt: int,
    meta: Meta)

  /** The mock store's state: the table in insertion order and the next task id to hand out. */
  datatype MockStore = MockStore(memories: Dict<StoredMemory>, taskCounter: int)

  datatype SaveOutcome = SaveOutcome(store: MockStore, response: SaveMemoryResponse)

  /** A freshly constructed store: no memories, counter at 1. */
  function NewMockStore(): (s: MockStore)
    ensures |s.memories| == 0 && s.taskCounter == 1
  {
    MockStore([], 1)
  }

  /** Python truthiness of an optional task id: `None` and `0` are both false. */
  predicate Truthy(id: Option<int>) {
    id.Some? && id.value != 0
  }

  /** `f"{task_id}_{memory_type.value}"`. */
  function ContextKey(taskId: int, t: MemoryType): (key: string)
    ensures var n := |ShowInt(taskId)|;
      && n < |key| && key[n] == '_' && key[..n] == ShowInt(taskId) && key[n + 1..] == t.Value()
      && forall k :: 0 <= k < n ==> key[k] != '_'
  {
    ShowInt(taskId) + "_" + t.Value()
  }

  /** Different task ids or types never share a key, so one key holds one (task, type) pair. */
  lemma ContextKeyInjective(a: int, s: MemoryType, b: int, t: MemoryType)
    requires ContextKey(a, s) == ContextKey(b, t)
    ensures a == b && s == t
  {
    var k := ContextKey(a, s);
    var x, y := ShowInt(a), ShowInt(b);
    assert k[|x|] == '_' && k[|y|] == '_';
    assert forall i :: 0 <= i < |x| ==> k[i] == x[i];
    assert forall i :: 0 <= i < |y| ==> k[i] == y[i];
    assert |x| == |y|;
    assert x == k[..|x|] && y == k[..|y|];
    ShowIntInjective(a, b);
    assert s.Value() == k[|x| + 1..] == t.Value();
    MemoryTypeIsClosed(s);
  }

  /** `request.related_task_id or self._task_counter`. */
  function ResolveTaskId(related: Option<int>, counter: int): (id: int)
    ensures Truthy(related) ==> id == related.value
    ensures !Truthy(related) ==> id == counter
  {
    if Truthy(related) then related.value else counter
  }

  /** `save_memory`: resolve the task id, derive the key, overwrite the row at that key.
      `now` is the clock reading taken for `created_at`. */
  function SaveMemory(store: MockStore, req: SaveMemoryRequest, now: int): (out: SaveOutcome)
    ensures out.response.taskId == ResolveTaskId(req.relatedTaskId, store.taskCounter)
    ensures out.store.taskCounter == if Truthy(req.relatedTaskId) then store.taskCounter else store.taskCounter + 1
    ensures out.response.contextId == ContextKey(out.response.taskId, req.memoryType)
    ensures Get(out.store.memories, out.response.contextId)
      == Some(StoredMemory(out.response.taskId, req.memoryType, req.content, now,
                           Meta(req.importance.Value(), req.tags.GetOr([]))))
    ensures forall k :: k != out.response.contextId ==> Get(out.store.memories, k) == Get(store.memories, k)
    ensures |store.memories| <= |out.store.memories| <= |store.memories| + 1
    ensures Keys(store.memories) <= Keys(out.store.memories)
    ensures out.response.memoryType == req.memoryType && out.response.content == req.content
    ensures out.response.createdAt == now && out.response.embeddingGenerated
  {
    var taskId := ResolveTaskId(req.relatedTaskId, store.taskCounter);
    var counter := if Truthy(req.relatedTaskId) then store.taskCounter else store.taskCounter + 1;
    var key := ContextKey(taskId, req.memoryType);
    var row := StoredMemory(taskId, req.memoryType, req.content, now, Meta(req.importance.Value(), req.tags.GetOr([])));
    SaveOutcome(
      MockStore(Put(store.memories, key, row), counter),
      SaveMemoryResponse(key, taskId, req.memoryType, req.content, now, true))
  }

  /** The three filters of `query_memory`: literal case-insensitive substring, type filter
      (only when a non-empty list is given), and the similarity threshold. */
  predicate Passes(m: StoredMemory, q: QueryMemoryRequest) {
    && Contains(Lower(m.content), Lower(q.searchText))
    && (q.memoryTypes.Some? && |q.memoryTypes.value| > 0 ==> m.memoryType in q.memoryTypes.value)
    && Score(q.searchText, m.content) >= q.minSimilarity
  }

  /** The result item a stored memory becomes, scored against the query. */
  function ItemOf(m: StoredMemory, q: QueryMemoryRequest): MemoryItem {
    MemoryItem(m.taskId, m.memoryType, m.content, Score(q.searchText, m.content), m.createdAt, m.meta)
  }

  /** The rows that pass all filters, as result items, in table order. */
  function Survivors(rows: seq<(string, StoredMemory)>, q: QueryMemoryRequest): (r: seq<MemoryItem>)
    ensures |r| <= |rows|
    ensures forall x :: x in r ==> x.similarity >= q.minSimilarity
  {
    if |rows| == 0 then []
    else (if Passes(rows[0].1, q) then [ItemOf(rows[0].1, q)] else []) + Survivors(rows[1..], q)
  }

  /** Python's `s[:n]`: the first `n` items, or all but the last `-n` when `n` is negative. */
  function Head<T>(s: seq<T>, n: int): (r: seq<T>)
    ensures r <= s
    ensures 0 <= n ==> |r| == if n < |s| then n else |s|
  {
    if 0 <= n then (if n < |s| then s[..n] else s)
    else if |s| + n > 0 then s[..|s| + n]
    else []
  }

  /** A prefix of a ranked list is ranked, and holds only items of the list. */
  lemma HeadOfSorted(s: seq<MemoryItem>, n: int)
    requires SortedBySimilarity(s)
    ensures SortedBySimilarity(Head(s, n))
    ensures forall x :: x in Head(s, n) ==> x in s
  {
    var h := Head(s, n);
    assert forall i :: 0 <= i < |h| ==> h[i] == s[i];
  }

  /** A prefix of a ranked list holds its best items: whatever was cut scores no higher than
      anything kept. */
  lemma HeadIsTop(s: seq<MemoryItem>, n: int)
    requires SortedBySimilarity(s)
    ensures forall x, y :: x in s && x !in Head(s, n) && y in Head(s, n) ==> y.similarity >= x.similarity
  {
    var h := Head(s, n);
    assert forall k :: 0 <= k < |h| ==> h[k] == s[k];
    forall x, y | x in s && x !in h && y in h
      ensures y.similarity >= x.similarity
    {
      var i :| 0 <= i < |s| && s[i] == x;
      var j :| 0 <= j < |h| && h[j] == y;
      assert j < i;
    }
  }

  /** Ranking neither adds nor drops items. */
  lemma SortedKeepsMembers(s: seq<MemoryItem>)
    ensures |SortBySimilarity(s)| == |s|
    ensures forall x :: x in SortBySimilarity(s) <==> x in s
  {
    var r := SortBySimilarity(s);
    assert |multiset(r)| == |multiset(s)|;
    assert forall x :: x in r <==> x in multiset(r);
    assert forall x :: x in s <==> x in multiset(s);
  }

  /** `query_memory`: filter, rank by similarity, cut to `limit`, and count the survivors. */
  function QueryMemory(store: MockStore, q: QueryMemoryRequest): (r: QueryMemoryResponse)
    ensures r.total == |Survivors(store.memories, q)| <= |store.memories|
    ensures |r.memories| <= r.total
    ensures 0 <= q.limit ==> |r.memories| == if q.limit < r.total then q.limit else r.total
    ensures SortedBySimilarity(r.memories)
    ensures forall x :: x in r.memories ==> x in Survivors(store.memories, q)
    ensures forall x, y :: x in Survivors(store.memories, q) && x !in r.memories && y in r.memories ==>
      y.similarity >= x.similarity
  {
    var survivors := Survivors(store.memories, q);
    var ranked := SortBySimilarity(survivors);
    var page := Head(ranked, q.limit);
    HeadOfSorted(ranked, q.limit);
    SortedKeepsMembers(survivors);
    HeadIsTop(ranked, q.limit);
    QueryMemoryResponse(page, |survivors|)
  }

  // ---------------------------------------------------------------------------
  // Properties of save and query

  /** An item survives exactly when it comes from a row that passes every filter. */
  lemma SurvivorsExactly(rows: seq<(string, StoredMemory)>, q: QueryMemoryRequest, x: MemoryItem)
    ensures x in Survivors(rows, q) <==> exists k :: 0 <= k < |rows| && Passes(rows[k].1, q) && x == ItemOf(rows[k].1, q)
  {
    if x in Survivors(rows, q) {
      SurvivorHasRow(rows, q, x);
    }
    if k :| 0 <= k < |rows| && Passes(rows[k].1, q) && x == ItemOf(rows[k].1, q) {
      RowSurvives(rows, q, k);
    }
  }

  lemma {:induction false} SurvivorHasRow(rows: seq<(string, StoredMemory)>, q: QueryMemoryRequest, x: MemoryItem)
    requires x in Survivors(rows, q)
    ensures exists k :: 0 <= k < |rows| && Passes(rows[k].1, q) && x == ItemOf(rows[k].1, q)
    decreases |rows|
  {
    assert |rows| > 0;
    if x in Survivors(rows[1..], q) {
      SurvivorHasRow(rows[1..], q, x);
      var k :| 0 <= k < |rows[1..]| && Passes(rows[1..][k].1, q) && x == ItemOf(rows[1..][k].1, q);
      assert rows[k + 1] == rows[1..][k];
    } else {
      assert Passes(rows[0].1, q) && x == ItemOf(rows[0].1, q);
    }
  }

  lemma {:induction false} RowSurvives(rows: seq<(string, StoredMemory)>, q: QueryMemoryRequest, k: int)
    requires 0 <= k < |rows| && Passes(rows[k].1, q)
    ensures ItemOf(rows[k].1, q) in Survivors(rows, q)
    decreases |rows|
  {
    SurvivorsUnfold(rows, q);
    if k > 0 {
      var tail := rows[1..];
      assert tail[k - 1] == rows[k];
      RowSurvives(tail, q, k - 1);
      assert ItemOf(rows[k].1, q) in Survivors(tail, q);
    }
  }

  lemma SurvivorsUnfold(rows: seq<(string, StoredMemory)>, q: QueryMemoryRequest)
    requires |rows| > 0
    ensures Passes(rows[0].1, q) ==> ItemOf(rows[0].1, q) in Survivors(rows, q)
    ensures forall x :: x in Survivors(rows[1..], q) ==> x in Survivors(rows, q)
  {
  }

  /** Every returned memory contains the search text (ignoring case), has an accepted type, and scores at least the threshold. */
  lemma QueryIsSound(store: MockStore, q: QueryMemoryRequest, x: MemoryItem)
    requires x in QueryMemory(store, q).memories
    ensures Contains(Lower(x.content), Lower(q.searchText))
    ensures q.memoryTypes.Some? && |q.memoryTypes.value| > 0 ==> x.memoryType in q.memoryTypes.value
    ensures x.similarity == Score(q.searchText, x.content) >= q.minSimilarity
    ensures exists k :: 0 <= k < |store.memories| && x == ItemOf(store.memories[k].1, q)
  {
    SurvivorsExactly(store.memories, q, x);
  }

  /** Every row that passes the filters is counted in `total`, and is returned when the page is large enough. */
  lemma QueryIsComplete(store: MockStore, q: QueryMemoryRequest, k: int)
    requires 0 <= k < |store.memories| && Passes(store.memories[k].1, q)
    ensures ItemOf(store.memories[k].1, q) in Survivors(store.memories, q)
    ensures QueryMemory(store, q).total >= 1
    ensures q.limit >= QueryMemory(store, q).total ==> ItemOf(store.memories[k].1, q) in QueryMemory(store, q).memories
  {
    var x := ItemOf(store.memories[k].1, q);
    SurvivorsExactly(store.memories, q, x);
    var survivors := Survivors(store.memories, q);
    var ranked := SortBySimilarity(survivors);
    assert x in multiset(ranked);
    if q.limit >= |survivors| {
      assert Head(ranked, q.limit) == ranked;
    }
  }

  /** Equally scored results come out in table order: for every score, the returned items with that
      score are the first of the surviving rows with that score, in the order the rows were inserted. */
  lemma QueryKeepsTableOrderOnTies(store: MockStore, q: QueryMemoryRequest, v: real)
    ensures WithScore(QueryMemory(store, q).memories, v) <= WithScore(Survivors(store.memories, q), v)
  {
    var survivors := Survivors(store.memories, q);
    var ranked := SortBySimilarity(survivors);
    var page := QueryMemory(store, q).memories;
    assert page == ranked[..|page|];
    WithScoreOfPrefix(ranked, |page|, v);
    SortIsStable(survivors, v);
  }

  /** Saving with a truthy id consumes no counter value; saving without one (or with 0) consumes exactly one. */
  lemma ZeroTaskIdMeansAbsent(store: MockStore, req: SaveMemoryRequest, now: int)
    requires req.relatedTaskId == Some(0)
    ensures SaveMemory(store, req, now) == SaveMemory(store, req.(relatedTaskId := None), now)
    ensures SaveMemory(store, req, now).response.taskId == store.taskCounter
  {
  }

  /** A second save with the same task id and type replaces the first: same key, same table size, latest content. */
  lemma SaveOverwrites(store: MockStore, a: SaveMemoryRequest, b: SaveMemoryRequest, t1: int, t2: int)
    requires Truthy(a.relatedTaskId) && b.relatedTaskId == a.relatedTaskId && b.memoryType == a.memoryType
    ensures var s1 := SaveMemory(store, a, t1);
            var s2 := SaveMemory(s1.store, b, t2);
            && s2.response.contextId == s1.response.contextId
            && |s2.store.memories| == |s1.store.memories|
            && Get(s2.store.memories, s1.response.contextId).value.content == b.content
            && ToMap(s2.store.memories) == ToMap(s1.store.memories)[s1.response.contextId := Get(s2.store.memories, s1.response.contextId).value]
  {
    var s1 := SaveMemory(store, a, t1);
    PutIsMapUpdate(s1.store.memories, s1.response.contextId, Get(SaveMemory(s1.store, b, t2).store.memories, s1.response.contextId).value);
  }

  /** A saved memory is found again by searching for its own text with any threshold up to 1. */
  lemma SaveThenQuery(store: MockStore, req: SaveMemoryRequest, now: int, limit: int, minSimilarity: real)
    requires !AllSpace(req.content)
    requires 1 <= limit && minSimilarity <= 1.0
    ensures var saved := SaveMemory(store, req, now);
            var q := QueryMemoryRequest(req.content, None, limit, minSimilarity);
            var r := QueryMemory(saved.store, q);
            && r.total >= 1 && |r.memories| >= 1
            && MemoryItem(saved.response.taskId, req.memoryType, req.content, 1.0, now,
                          Meta(req.importance.Value(), req.tags.GetOr([]))) in Survivors(saved.store.memories, q)
  {
    var saved := SaveMemory(store, req, now);
    var q := QueryMemoryRequest(req.content, None, limit, minSimilarity);
    var rows := saved.store.memories;
    var key := saved.response.contextId;
    var k :| 0 <= k < |rows| && rows[k].0 == key;
    var m := rows[k].1;
    assert Get(rows, key) == Some(m);
    ContainsSelf(Lower(req.content));
    ScoreOfSelf(req.content);
    assert Passes(m, q);
    QueryIsComplete(saved.store, q, k);
  }
}

=== FILE: ollama_fallback.dfy ===
/** The Ollama controller's answer when its completion call fails: the JSON serialisation of an
    "empty" object whose keys are the properties of the requested response schema. */
module OllamaFallback {
  import opened Wrappers
  import opened Text
  import opened PyDict
  import opened JsonValue

  /** The Python exceptions reading a malformed response format raises. */
  datatype PyError = TypeError | KeyError(key: string) | AttributeError

  /** What the completion library did: it returned a message, or it raised. */
  datatype CallOutcome = Replied(content: string) | Failed

  // ---------------------------------------------------------------------------
  // Python operations on JSON-shaped values

  /** `key in container`: key lookup on a dict, substring test on a str, element test on a
      list; numbers, booleans and `None` are not containers. */
  function Member(container: Json, key: string): Result<bool, PyError> {
    match container
    case JObj(fields) => Ok(Get(fields, key).Some?)
    case JStr(s) => Ok(Contains(s, key))
    case JArr(items) => Ok(JStr(key) in items)
    case _ => Err(TypeError)
  }

  /** `container[key]` with a string key: only a dict can be indexed by a string. */
  function Index(container: Json, key: string): Result<Json, PyError> {
    match container
    case JObj(fields) =>
      (match Get(fields, key)
       case Some(v) => Ok(v)
       case None => Err(KeyError(key)))
    case _ => Err(TypeError)
  }

  // ---------------------------------------------------------------------------
  // `_generate_empty_value`

  /** The values the fallback puts into a synthesised object. */
  predicate IsEmpty(v: Json) {
    v == JNull || v == JBool(false) || v == JInt(0) || v == JStr("") || v == JArr([]) || v == JObj([])
  }

  /** The JSON-schema type name describing a value. */
  function TypeName(v: Json): string {
    match v
    case JNull => "null"
    case JBool(_) => "boolean"
    case JInt(_) => "number"
    case JStr(_) => "string"
    case JArr(_) => "array"
    case JObj(_) => "object"
  }

  /** The empty value for a declared schema type; any type other than the five it knows,
      including a type that is not a string at all, gives `None`. */
  function EmptyValue(schemaType: Json): (v: Json)
    ensures IsEmpty(v)
    ensures v == JNull || schemaType == JStr(TypeName(v))
  {
    if schemaType == JStr("array") then JArr([])
    else if schemaType == JStr("string") then JStr("")
    else if schemaType == JStr("object") then JObj([])
    else if schemaType == JStr("number") then JInt(0)
    else if schemaType == JStr("boolean") then JBool(false)
    else JNull
  }

  /** Every empty value is the one generated for its own type name, so the five known names
      and the five non-null empty values correspond one to one. */
  lemma EmptyValueOfTypeName(v: Json)
    requires IsEmpty(v)
    ensures EmptyValue(JStr(TypeName(v))) == v
  {
  }

  /** Type names outside the five, such as "integer" and "null", give `None`. */
  lemma UnknownTypeIsNull(t: string)
    requires t != "array" && t != "string" && t != "object" && t != "number" && t != "boolean"
    ensures EmptyValue(JStr(t)) == JNull
  {
  }

  // ---------------------------------------------------------------------------
  // `_generate_empty_response`, as written

  /** `_generate_empty_response` as written: every lookup is a plain `in` or `[...]`, so a
      response format that is not a dict, or a schema lacking `schema` or a property lacking
      `type`, raises instead of producing an object. */
  function EmptyResponseAsWritten(fmt: Json): (r: Result<Dict<Json>, PyError>)
    ensures r.Ok? ==> IsAllEmpty(r.value)
  {
    var hasSchema :- Member(fmt, "json_schema");
    if !hasSchema then Ok([])
    else
      var js :- Index(fmt, "json_schema");
      var schema :- Index(js, "schema");
      var hasProps :- Member(schema, "properties");
      if !hasProps then Ok([])
      else
        var props :- Index(schema, "properties");
        if !props.JObj? then Err(AttributeError)
        else FillAsWritten(props.fields, [])
  }

  /** The loop over `schema["properties"].items()`, assigning the empty value of `prop["type"]`. */
  function FillAsWritten(props: seq<(string, Json)>, acc: Dict<Json>): (r: Result<Dict<Json>, PyError>)
    requires IsAllEmpty(acc)
    ensures r.Ok? ==> IsAllEmpty(r.value)
    decreases |props|
  {
    if |props| == 0 then Ok(acc)
    else
      var t :- Index(props[0].1, "type");
      PutKeepsEmpty(acc, props[0].0, EmptyValue(t));
      FillAsWritten(props[1..], Put(acc, props[0].0, EmptyValue(t)))
  }

  predicate IsAllEmpty(d: seq<(string, Json)>) {
    forall i :: 0 <= i < |d| ==> IsEmpty(d[i].1)
  }

  lemma PutKeepsEmpty(d: Dict<Json>, k: string, v: Json)
    requires IsAllEmpty(d) && IsEmpty(v)
    ensures IsAllEmpty(Put(d, k, v))
  {
    var r := Put(d, k, v);
    forall i | 0 <= i < |r|
      ensures IsEmpty(r[i].1)
    {
      if r[i].0 != k {
        assert Get(r, r[i].0) == Some(r[i].1);
      }
    }
  }

  // ---------------------------------------------------------------------------
  // The fallback object as intended: the `except` handler of `get_completion` answers a failed
  // call with an empty object, so building that object is not meant to raise

  /** The property table of a response format shaped like `{"json_schema": {"schema":
      {"properties": {...}}}}`, if it has that shape. */
  function SchemaProperties(fmt: Json): Option<Dict<Json>> {
    match Entry(fmt, "json_schema")
    case None => None
    case Some(js) =>
      match Entry(js, "schema")
      case None => None
      case Some(schema) =>
        match Entry(schema, "properties")
        case Some(JObj(props)) => Some(props)
        case _ => None
  }

  /** `v.get(key)` on a dict; nothing for any other value. */
  function Entry(v: Json, key: string): Option<Json> {
    if v.JObj? then Get(v.fields, key) else None
  }

  /** A property's declared `type`, or `None` when the property declares none. */
  function DeclaredType(prop: Json): Json {
    Entry(prop, "type").GetOr(JNull)
  }

  /** Each property name paired with the empty value of its declared type, in schema order. */
  function EmptyPairs(props: seq<(string, Json)>): (r: seq<(string, Json)>)
    ensures |r| == |props|
    ensures Keys(r) == Keys(props)
    ensures forall i :: 0 <= i < |r| ==> r[i].1 == EmptyValue(DeclaredType(props[i].1))
  {
    var r := seq(|props|, i requires 0 <= i < |props| => (props[i].0, EmptyValue(DeclaredType(props[i].1))));
    assert forall i :: 0 <= i < |r| ==> Keys(r)[i] == Keys(props)[i];
    r
  }

  /** The synthesised object: no keys unless the format carries a property table, and then
      exactly the table's property names, in order, each mapped to the empty value of its type. */
  function EmptyResponse(fmt: Json): (r: Dict<Json>)
    ensures SchemaProperties(fmt).None? ==> r == []
    ensures SchemaProperties(fmt).Some? ==> Keys(r) == Keys(SchemaProperties(fmt).value)
    ensures SchemaProperties(fmt).Some? ==>
      forall i :: 0 <= i < |r| ==> r[i].1 == EmptyValue(DeclaredType(SchemaProperties(fmt).value[i].1))
    ensures IsAllEmpty(r)
  {
    match SchemaProperties(fmt)
    case None => []
    case Some(props) =>
      var r := EmptyPairs(props);
      assert forall i, j :: 0 <= i < j < |r| ==> Keys(r)[i] != Keys(r)[j];
      r
  }

  /** Looking a property up in the synthesised object gives the empty value of its type. */
  lemma EmptyResponseGet(fmt: Json, k: string)
    requires SchemaProperties(fmt).Some?
    ensures var props := SchemaProperties(fmt).value;
      match Get(props, k)
      case None => Get(EmptyResponse(fmt), k).None?
      case Some(p) => Get(EmptyResponse(fmt), k) == Some(EmptyValue(DeclaredType(p)))
  {
    var props := SchemaProperties(fmt).value;
    var r := EmptyResponse(fmt);
    assert forall i :: 0 <= i < |r| ==> r[i].0 == Keys(r)[i] == Keys(props)[i] == props[i].0;
  }

  // ---------------------------------------------------------------------------
  // The code as written against the intended object

  lemma {:induction false} FillAsWrittenAgrees(props: Dict<Json>, done: nat, acc: Dict<Json>)
    requires done <= |props| && IsAllEmpty(acc)
    requires acc == EmptyPairs(props[..done])
    requires FillAsWritten(props[done..], acc).Ok?
    ensures FillAsWritten(props[done..], acc).value == EmptyPairs(props)
    decreases |props| - done
  {
    if done == |props| {
      assert props[..done] == props;
    } else {
      var p := props[done];
      var rest := props[done..];
      assert rest[0] == p && rest[1..] == props[done + 1..];
      var t := Index(p.1, "type").value;
      assert DeclaredType(p.1) == t;
      var acc' := Put(acc, p.0, EmptyValue(t));
      EmptyPairsStep(props, done, acc);
      PutKeepsEmpty(acc, p.0, EmptyValue(t));
      FillAsWrittenAgrees(props, done + 1, acc');
    }
  }

  /** One turn of the loop appends the next property's pair: its name is not yet a key. */
  lemma EmptyPairsStep(props: Dict<Json>, done: nat, acc: Dict<Json>)
    requires done < |props| && acc == EmptyPairs(props[..done])
    ensures Put(acc, props[done].0, EmptyValue(DeclaredType(props[done].1))) == EmptyPairs(props[..done + 1])
  {
    var p := props[done];
    var v := EmptyValue(DeclaredType(p.1));
    var pre := props[..done + 1];
    assert pre == props[..done] + [p];
    assert Get(acc, p.0).None? by {
      assert forall i :: 0 <= i < |acc| ==> acc[i].0 == Keys(acc)[i] == Keys(props[..done])[i] == props[i].0;
    }
    var want := EmptyPairs(pre);
    assert Put(acc, p.0, v) == acc + [(p.0, v)];
    assert forall i :: 0 <= i < |want| ==> want[i].0 == Keys(want)[i] == Keys(pre)[i];
  }

  /** Wherever the code produces an object, it is the intended empty object. */
  lemma EmptyResponseRefinesAsWritten(fmt: Json)
    requires EmptyResponseAsWritten(fmt).Ok?
    ensures EmptyResponseAsWritten(fmt).value == EmptyResponse(fmt)
  {
    if fmt.JObj? && Get(fmt.fields, "json_schema").Some? {
      var js := Get(fmt.fields, "json_schema").value;
      var schema := Get(js.fields, "schema").value;
      if schema.JObj? && Get(schema.fields, "properties").Some? {
        var props := Get(schema.fields, "properties").value;
        assert props.fields[..0] == [];
        assert props.fields[0..] == props.fields;
        FillAsWrittenAgrees(props.fields, 0, []);
      }
    }
  }

  /** `LLMController.get_completion` passes `response_format=None` by default, and for `None`
      the code raises `TypeError` where the intended fallback is an empty object. */
  lemma NoneFormatRaises()
    ensures EmptyResponseAsWritten(JNull) == Err(TypeError)
    ensures EmptyResponse(JNull) == []
  {
  }

  /** A `json_schema` entry without a `schema` key raises `KeyError`. */
  lemma MissingSchemaRaises()
    ensures EmptyResponseAsWritten(JObj([("json_schema", JObj([]))])) == Err(KeyError("schema"))
    ensures EmptyResponse(JObj([("json_schema", JObj([]))])) == []
  {
  }

  /** The response format of `UntypedPropertyRaises`: one property, "a", with no `type`. */
  function UntypedFormat(): Json {
    JObj([("json_schema", JObj([("schema", JObj([("properties", JObj([("a", JObj([]))]))]))]))])
  }

  /** A property without a `type` raises `KeyError`; the intended fallback gives it `None`, the
      empty value `_generate_empty_value` returns for an unknown type. */
  lemma UntypedPropertyRaises()
    ensures EmptyResponseAsWritten(UntypedFormat()) == Err(KeyError("type"))
    ensures EmptyResponse(UntypedFormat()) == [("a", JNull)]
  {
    var props: Dict<Json> := [("a", JObj([]))];
    assert SchemaProperties(UntypedFormat()) == Some(props);
    assert EmptyPairs(props)[0] == ("a", JNull);
  }

  // ---------------------------------------------------------------------------
  // `OllamaController.get_completion`

  /** `get_completion` as written: the fallback is built inside the exception handler, so an
      exception it raises escapes. */
  function OllamaCompletionAsWritten(call: CallOutcome, fmt: Json): (r: Result<string, PyError>)
    ensures call.Replied? ==> r == Ok(call.content)
    ensures call.Failed? ==> (r.Ok? <==> EmptyResponseAsWritten(fmt).Ok?)
  {
    match call
    case Replied(content) => Ok(content)
    case Failed =>
      var d :- EmptyResponseAsWritten(fmt);
      Ok(Dump(JObj(d)))
  }

  /** `get_completion` corrected: it never raises; after a failed call it returns an ASCII JSON
      text that reads back as the synthesised empty object. */
  function OllamaCompletion(call: CallOutcome, fmt: Json): (r: string)
    ensures call.Replied? ==> r == call.content
    ensures call.Failed? ==> ParseJson(r) == Some(JObj(EmptyResponse(fmt))) && IsAscii(r)
  {
    match call
    case Replied(content) => content
    case Failed =>
      Dump(JObj(EmptyResponse(fmt)))
  }

  /** The corrected controller agrees with the code whenever the code returns. */
  lemma OllamaCompletionRefinesAsWritten(call: CallOutcome, fmt: Json)
    ensures OllamaCompletionAsWritten(call, fmt).Ok? ==> OllamaCompletionAsWritten(call, fmt).value == OllamaCompletion(call, fmt)
  {
    if call.Failed? && EmptyResponseAsWritten(fmt).Ok? {
      EmptyResponseRefinesAsWritten(fmt);
    }
  }

  /** With the default `response_format=None`, a failed call is answered with `{}`. */
  lemma DefaultFormatFallback()
    ensures OllamaCompletion(Failed, JNull) == "{}"
    ensures OllamaCompletionAsWritten(Failed, JNull) == Err(TypeError)
  {
  }
}

=== FILE: pydict.dfy ===
/** Python's insertion-ordered `dict` with string keys, as a sequence of key/value pairs with distinct keys.
    Assigning to an existing key replaces its value in place, so the key keeps the position
    of its first insertion; a new key is appended at the end. */
module PyDict {
  import opened Wrappers

  ghost predicate UniqueKeys<V>(d: seq<(string, V)>) {
    forall i, j :: 0 <= i < j < |d| ==> d[i].0 != d[j].0
  }

  type Dict<V> = d: seq<(string, V)> | UniqueKeys(d) witness []

  /** The keys in iteration order. */
  function Keys<V>(d: seq<(string, V)>): (ks: seq<string>)
    ensures |ks| == |d|
    ensures forall i :: 0 <= i < |d| ==> ks[i] == d[i].0
  {
    seq(|d|, i requires 0 <= i < |d| => d[i].0)
  }

  /** Position of key `k`, if present. */
  function IndexOf<V>(d: seq<(string, V)>, k: string): (r: Option<nat>)
    ensures r.Some? ==> r.value < |d| && d[r.value].0 == k
    ensures r.None? <==> forall i :: 0 <= i < |d| ==> d[i].0 != k
  {
    if |d| == 0 then None
    else if d[0].0 == k then Some(0)
    else
      match IndexOf(d[1..], k)
      case None => None
      case Some(i) => Some(i + 1)
  }

  /** `d.get(k)`. */
  function Get<V>(d: Dict<V>, k: string): (r: Option<V>)
    ensures r.Some? <==> exists i :: 0 <= i < |d| && d[i].0 == k
    ensures forall i :: 0 <= i < |d| && d[i].0 == k ==> r == Some(d[i].1)
  {
    match IndexOf(d, k)
    case None => None
    case Some(i) => Some(d[i].1)
  }

  /** `d[k] = v`. */
  function Put<V>(d: Dict<V>, k: string, v: V): (r: Dict<V>)
    ensures Get(r, k) == Some(v)
    ensures forall k' :: k' != k ==> Get(r, k') == Get(d, k')
    ensures |r| == if Get(d, k).Some? then |d| else |d| + 1
    ensures Keys(d) <= Keys(r)
  {
    match IndexOf(d, k)
    case Some(i) =>
      var r := d[i := (k, v)];
      assert Keys(r) == Keys(d);
      r
    case None =>
      var r := d + [(k, v)];
      assert forall i :: 0 <= i < |d| ==> r[i] == d[i];
      assert r[|d|] == (k, v);
      assert Keys(d) == Keys(r)[..|d|];
      assert forall k' :: k' != k ==> Get(r, k') == Get(d, k') by {
        forall k' | k' != k
          ensures Get(r, k') == Get(d, k')
        {
          if Get(d, k').Some? {
            var i :| 0 <= i < |d| && d[i].0 == k';
            assert r[i] == d[i];
          }
        }
      }
      r
  }

  /** The dict as a mathematical map (forgetting the order). */
  function ToMap<V>(d: Dict<V>): (m: map<string, V>)
    ensures forall k :: k in m <==> Get(d, k).Some?
    ensures forall k :: k in m ==> Some(m[k]) == Get(d, k)
  {
    map i | 0 <= i < |d| :: d[i].0 := d[i].1
  }

  /** Assignment is an ordinary map update on the unordered view. */
  lemma PutIsMapUpdate<V>(d: Dict<V>, k: string, v: V)
    ensures ToMap(Put(d, k, v)) == ToMap(d)[k := v]
  {
    var a, b := ToMap(Put(d, k, v)), ToMap(d)[k := v];
    forall x
      ensures x in a <==> x in b
      ensures x in a ==> a[x] == b[x]
    {
      if x != k {
        assert Get(Put(d, k, v), x) == Get(d, x);
      }
    }
  }
}

=== FILE: ranking.dfy ===
/** Ordering of query results: `list.sort(key=similarity, reverse=True)`, which sorts by
    descending similarity and, being stable, keeps equally scored items in their original order. */
module Ranking {
  import opened MemoryModels

  predicate SortedBySimilarity(s: seq<MemoryItem>) {
    forall i, j :: 0 <= i < j < |s| ==> s[i].similarity >= s[j].similarity
  }

  /** The items of `s` that score exactly `v`, in their order in `s`. */
  function WithScore(s: seq<MemoryItem>, v: real): seq<MemoryItem> {
    if |s| == 0 then []
    else (if s[0].similarity == v then [s[0]] else []) + WithScore(s[1..], v)
  }

  /** Places `x` after every item that scores strictly higher and before all the others. */
  function Insert(x: MemoryItem, s: seq<MemoryItem>): (r: seq<MemoryItem>)
    ensures multiset(r) == multiset(s) + multiset{x}
    ensures forall y :: y in r ==> y in s || y == x
  {
    if |s| == 0 || s[0].similarity <= x.similarity then [x] + s
    else
      var rest := Insert(x, s[1..]);
      assert s == [s[0]] + s[1..];
      [s[0]] + rest
  }

  lemma {:induction false} InsertKeepsSorted(x: MemoryItem, s: seq<MemoryItem>)
    requires SortedBySimilarity(s)
    ensures SortedBySimilarity(Insert(x, s))
    decreases |s|
  {
    if |s| == 0 || s[0].similarity <= x.similarity {
    } else {
      var rest := Insert(x, s[1..]);
      InsertKeepsSorted(x, s[1..]);
      assert forall y :: y in rest ==> y.similarity <= s[0].similarity;
      assert Insert(x, s) == [s[0]] + rest;
    }
  }

  /** Stable sort by descending similarity (insertion sort from the back). */
  function SortBySimilarity(s: seq<MemoryItem>): (r: seq<MemoryItem>)
    ensures SortedBySimilarity(r)
    ensures multiset(r) == multiset(s)
  {
    if |s| == 0 then []
    else
      assert s == [s[0]] + s[1..];
      InsertKeepsSorted(s[0], SortBySimilarity(s[1..]));
      Insert(s[0], SortBySimilarity(s[1..]))
  }

  lemma {:induction false} InsertWithScore(x: MemoryItem, s: seq<MemoryItem>, v: real)
    ensures WithScore(Insert(x, s), v) == (if x.similarity == v then [x] else []) + WithScore(s, v)
    decreases |s|
  {
    if |s| == 0 || s[0].similarity <= x.similarity {
      assert ([x] + s)[1..] == s;
    } else {
      var r := Insert(x, s);
      InsertWithScore(x, s[1..], v);
      assert r[0] == s[0] && r[1..] == Insert(x, s[1..]);
    }
  }

  /** Sorting keeps, for every score, the same items in the same relative order. */
  lemma {:induction false} SortIsStable(s: seq<MemoryItem>, v: real)
    ensures WithScore(SortBySimilarity(s), v) == WithScore(s, v)
  {
    if |s| > 0 {
      SortIsStable(s[1..], v);
      InsertWithScore(s[0], SortBySimilarity(s[1..]), v);
    }
  }

  /** Cutting a list short keeps the equally scored items of the kept part in front. */
  lemma {:induction false} WithScoreOfPrefix(s: seq<MemoryItem>, n: nat, v: real)
    requires n <= |s|
    ensures WithScore(s[..n], v) <= WithScore(s, v)
  {
    if n > 0 {
      WithScoreOfPrefix(s[1..], n - 1, v);
      assert s[..n][1..] == s[1..][..n - 1];
    }
  }
}

=== FILE: similarity.dfy ===
/** The keyword-overlap score the in-memory store ranks memories by. */
module Similarity {
  import opened Text

  /** `set(s.lower().split())`: the distinct lower-cased words of `s`. */
  function TokenSet(s: string): (ts: set<string>)
    ensures forall w :: w in ts ==> |w| > 0 && NoSpace(w)
  {
    var ws := Words(Lower(s));
    set k | 0 <= k < |ws| :: ws[k]
  }

  /** A text has no tokens exactly when it is blank. */
  lemma TokenSetEmptyIffBlank(s: string)
    ensures TokenSet(s) == {} <==> AllSpace(s)
  {
    WordsEmptyIffAllSpace(Lower(s));
    LowerKeepsSpaces(s);
    var ws := Words(Lower(s));
    if |ws| > 0 {
      assert ws[0] in TokenSet(s);
    }
  }

  /** The fraction of the query's distinct words that also occur in the content; 0 for a query without words. */
  function Score(query: string, content: string): (r: real)
    ensures 0.0 <= r <= 1.0
    ensures TokenSet(query) == {} ==> r == 0.0
    ensures r == 0.0 <==> TokenSet(query) * TokenSet(content) == {}
    ensures r == 1.0 <==> TokenSet(query) != {} && TokenSet(query) <= TokenSet(content)
  {
    var q := TokenSet(query);
    var c := TokenSet(content);
    if q == {} then 0.0
    else
      var shared := q * c;
      SubsetCard(shared, q);
      Fraction(|shared|, |q|);
      assert q <= c <==> shared == q;
      assert shared == {} <==> |shared| == 0;
      (|shared| as real) / (|q| as real)
  }

  /** A count out of a positive total is a fraction in [0, 1], 0 only for none and 1 only for all. */
  lemma Fraction(a: nat, b: nat)
    requires 0 < b && a <= b
    ensures 0.0 <= (a as real) / (b as real) <= 1.0
    ensures (a as real) / (b as real) == 0.0 <==> a == 0
    ensures (a as real) / (b as real) == 1.0 <==> a == b
  {
    var r := (a as real) / (b as real);
    assert r * (b as real) == a as real;
  }

  /** A subset is no larger than its superset, and equally large only when it is the whole set. */
  lemma SubsetCard<T>(a: set<T>, b: set<T>)
    requires a <= b
    ensures |a| <= |b|
    ensures |a| == |b| ==> a == b
  {
    assert b == a + (b - a);
    assert |b| == |a| + |b - a|;
    if |a| == |b| {
      assert |b - a| == 0;
    }
  }

  /** A query with words scores exactly 1 against its own text. */
  lemma ScoreOfSelf(s: string)
    requires !AllSpace(s)
    ensures Score(s, s) == 1.0
  {
    TokenSetEmptyIffBlank(s);
  }

  /** A blank query scores 0 against anything, whatever the content. */
  lemma ScoreOfBlankQuery(query: string, content: string)
    requires AllSpace(query)
    ensures Score(query, content) == 0.0
  {
    TokenSetEmptyIffBlank(query);
  }

  /** Case does not matter: the score sees only lower-cased words, so lower-casing the query, the
      content, or both leaves it as it was. */
  lemma ScoreIgnoresCase(query: string, content: string)
    ensures Score(Lower(query), Lower(content)) == Score(query, content)
    ensures Score(Lower(query), content) == Score(query, content)
    ensures Score(query, Lower(content)) == Score(query, content)
  {
    TokenSetOfLower(query);
    TokenSetOfLower(content);
  }

  /** Lower-casing a text first does not change its tokens. */
  lemma TokenSetOfLower(s: string)
    ensures TokenSet(Lower(s)) == TokenSet(s)
  {
    LowerIdempotent(s);
  }

  lemma LowerIdempotent(s: string)
    ensures Lower(Lower(s)) == Lower(s)
  {
  }
}

=== FILE: storage_factory.dfy ===
/** Backend selection (`create_storage`): the `MEMORY_STORAGE` setting chooses the mock store or
    the agentic backend, and a failed agentic construction falls back to a fresh mock store. */
module StorageFactory {
  import opened Wrappers
  import opened Text
  import opened MemoryStorage

  /** The backends the factory can hand out. The agentic backend's behaviour lives in an
      external memory engine and is represented only by its tag. */
  datatype Backend = MockBackend(store: MockStore) | AgenticBackend

  /** What constructing the agentic backend did: it either succeeded or raised a storage error. */
  datatype AgenticInit = InitOk | InitFailed(error: StorageError)

  /** The module-level availability flag; the engine import is unconditional, so it is always true. */
  const AgenticMemoryAvailable: bool := true

  const DefaultSelector: string := "agentic"

  /** `os.getenv("MEMORY_STORAGE", "agentic").lower()`. */
  function Selector(env: Option<string>): (sel: string)
    ensures env.None? ==> sel == DefaultSelector
    ensures env.Some? ==> |sel| == |env.value|
    ensures forall k :: 0 <= k < |sel| ==> !('A' <= sel[k] <= 'Z')
  {
    Lower(env.GetOr(DefaultSelector))
  }

  /** `create_storage` as written: any selector other than "mock" and "agentic" reaches the end of
      the function and yields `None` instead of a backend. */
  function CreateStorageAsWritten(env: Option<string>, agentic: AgenticInit): (r: Option<Backend>)
    ensures Selector(env) == "mock" ==> r == Some(MockBackend(NewMockStore()))
    ensures Selector(env) == "agentic" && agentic.InitOk? ==> r == Some(AgenticBackend)
    ensures Selector(env) == "agentic" && agentic.InitFailed? ==> r == Some(MockBackend(NewMockStore()))
    ensures r.None? <==> Selector(env) != "mock" && Selector(env) != "agentic"
  {
    var selector := Selector(env);
    if selector == "mock" then Some(MockBackend(NewMockStore()))
    else if AgenticMemoryAvailable then
      if selector == "agentic" then
        match agentic
        case InitOk => Some(AgenticBackend)
        case InitFailed(_) => Some(MockBackend(NewMockStore()))
      else None
    else Some(MockBackend(NewMockStore()))
  }

  /** An unrecognised setting such as "mem0", or an empty one, leaves the caller without a backend. */
  lemma UnrecognisedSelectorYieldsNothing(agentic: AgenticInit)
    ensures CreateStorageAsWritten(Some("mem0"), agentic) == None
    ensures CreateStorageAsWritten(Some(""), agentic) == None
  {
    assert Selector(Some("mem0")) == "mem0";
    assert Selector(Some("")) == "";
  }

  /** `create_storage` as its documentation describes it: "mock" selects the mock store, and every
      other or missing value tries the agentic backend, falling back to a fresh mock store. */
  function CreateStorage(env: Option<string>, agentic: AgenticInit): (b: Backend)
    ensures Selector(env) == "mock" ==> b == MockBackend(NewMockStore())
    ensures Selector(env) != "mock" ==> (b == AgenticBackend <==> agentic.InitOk?)
    ensures b.MockBackend? ==> b.store == NewMockStore()
  {
    if Selector(env) == "mock" then MockBackend(NewMockStore())
    else
      match agentic
      case InitOk => AgenticBackend
      case InitFailed(_) => MockBackend(NewMockStore())
  }

  /** The corrected factory never leaves the caller without a backend and agrees with the code
      wherever the code returns one. */
  lemma CreateStorageRefinesAsWritten(env: Option<string>, agentic: AgenticInit)
    ensures CreateStorageAsWritten(env, agentic).Some? ==> CreateStorageAsWritten(env, agentic) == Some(CreateStorage(env, agentic))
  {
  }

  /** The selector is case-insensitive: any capitalisation of "mock" selects the mock store. */
  lemma MockSelectorIgnoresCase(agentic: AgenticInit)
    ensures CreateStorage(Some("MOCK"), agentic) == MockBackend(NewMockStore())
    ensures CreateStorage(Some("Mock"), agentic) == MockBackend(NewMockStore())
  {
    assert Lower("MOCK") == "mock";
    assert Lower("Mock") == "mock";
  }

  /** With no setting the agentic backend is tried, and its failure is never passed on to the caller. */
  lemma UnsetSelectorTriesAgentic(e: StorageError)
    ensures CreateStorage(None, InitOk) == AgenticBackend
    ensures CreateStorage(None, InitFailed(e)) == MockBackend(NewMockStore())
  {
    assert Selector(None) == "agentic";
  }
}

=== FILE: text.dfy ===
/** The Python string operations the memory store and the completion controllers rely on:
    `str.isspace`, `str.lower`, `str.split()`, `str.strip()`, the `in` operator on strings,
    `str.replace`, and the regular-expression substitution that removes Markdown code fences. */
module Text {

  /** Python's `str.isspace()` for one character: the characters `split()` and `strip()`
      treat as separators (ASCII whitespace, the four information separators, NEL, NBSP and
      the Unicode space separators). */
  predicate IsSpace(c: char) {
    var n := c as int;
    || (0x09 <= n <= 0x0D)
    || (0x1C <= n <= 0x20)
    || n == 0x85
    || n == 0xA0
    || n == 0x1680
    || (0x2000 <= n <= 0x200A)
    || n == 0x2028
    || n == 0x2029
    || n == 0x202F
    || n == 0x205F
    || n == 0x3000
  }

  predicate AllSpace(s: string) {
    forall i :: 0 <= i < |s| ==> IsSpace(s[i])
  }

  predicate NoSpace(s: string) {
    forall i :: 0 <= i < |s| ==> !IsSpace(s[i])
  }

  /** `str.lower()` restricted to ASCII letters. */
  function LowerChar(c: char): char {
    if 'A' <= c <= 'Z' then (c as int + 32) as char else c
  }

  function Lower(s: string): (r: string)
    ensures |r| == |s|
    ensures forall i :: 0 <= i < |s| ==> r[i] == LowerChar(s[i])
  {
    seq(|s|, i requires 0 <= i < |s| => LowerChar(s[i]))
  }

  /** Lower-casing never turns a separator into a word character or back. */
  lemma LowerKeepsSpaces(s: string)
    ensures AllSpace(Lower(s)) <==> AllSpace(s)
  {
    assert forall i :: 0 <= i < |s| ==> (IsSpace(Lower(s)[i]) <==> IsSpace(s[i]));
  }

  // ---------------------------------------------------------------------------
  // str.split() with no separator

  /** Length of the run of non-separator characters that starts `s`. */
  function WordLength(s: string): (n: nat)
    ensures n <= |s|
    ensures forall i :: 0 <= i < n ==> !IsSpace(s[i])
    ensures n < |s| ==> IsSpace(s[n])
  {
    if |s| == 0 || IsSpace(s[0]) then 0 else 1 + WordLength(s[1..])
  }

  /** `s.split()`: the maximal separator-free runs of `s`, left to right. */
  function Words(s: string): (ws: seq<string>)
    ensures forall k :: 0 <= k < |ws| ==> |ws[k]| > 0 && NoSpace(ws[k])
    decreases |s|
  {
    if |s| == 0 then []
    else if IsSpace(s[0]) then Words(s[1..])
    else
      var n := WordLength(s);
      [s[..n]] + Words(s[n..])
  }

  /** `" ".join(ws)`. */
  function Join(ws: seq<string>): string {
    if |ws| == 0 then ""
    else if |ws| == 1 then ws[0]
    else ws[0] + " " + Join(ws[1..])
  }

  /** A string splits into no words exactly when it consists of separators only. */
  lemma {:induction false} WordsEmptyIffAllSpace(s: string)
    ensures Words(s) == [] <==> AllSpace(s)
    decreases |s|
  {
    if |s| == 0 {
    } else if IsSpace(s[0]) {
      WordsEmptyIffAllSpace(s[1..]);
      if AllSpace(s[1..]) {
        assert forall i :: 1 <= i < |s| ==> s[i] == s[1..][i - 1];
      }
    } else {
      assert !AllSpace(s);
    }
  }

  lemma {:induction false} WordLengthOfWord(w: string, tail: string)
    requires NoSpace(w)
    requires |tail| == 0 || IsSpace(tail[0])
    ensures WordLength(w + tail) == |w|
    decreases |w|
  {
    if |w| > 0 {
      assert (w + tail)[1..] == w[1..] + tail;
      WordLengthOfWord(w[1..], tail);
    }
  }

  /** Splitting undoes joining with single spaces, for any list of words as `split()` produces them. */
  lemma {:induction false} SplitJoin(ws: seq<string>)
    requires forall k :: 0 <= k < |ws| ==> |ws[k]| > 0 && NoSpace(ws[k])
    ensures Words(Join(ws)) == ws
  {
    if |ws| == 0 {
    } else {
      var w := ws[0];
      var tail := if |ws| == 1 then "" else " " + Join(ws[1..]);
      assert Join(ws) == w + tail;
      WordLengthOfWord(w, tail);
      var s := w + tail;
      assert s[..|w|] == w;
      assert s[|w|..] == tail;
      if |ws| > 1 {
        assert Words(tail) == Words(Join(ws[1..])) by {
          assert tail[1..] == Join(ws[1..]);
        }
        SplitJoin(ws[1..]);
      }
      assert Words(s) == [w] + Words(tail);
    }
  }

  /** A single run of word characters splits into itself. */
  lemma WordsOfWord(w: string)
    requires |w| > 0 && NoSpace(w)
    ensures Words(w) == [w]
  {
    WordsAfterWord(w, "");
    assert w + "" == w;
  }

  /** A word followed by a separator (or by nothing) is the first word. */
  lemma WordsAfterWord(w: string, rest: string)
    requires |w| > 0 && NoSpace(w)
    requires |rest| == 0 || IsSpace(rest[0])
    ensures Words(w + rest) == [w] + Words(rest)
  {
    var s := w + rest;
    WordLengthOfWord(w, rest);
    assert s[0] == w[0];
    assert s[..|w|] == w && s[|w|..] == rest;
  }

  /** A separator cuts the text in two: its words are those before it followed by those after it.
      Together with `WordsOfWord` this fixes `split()` on every input. */
  lemma {:induction false} WordsSplitAtSpace(a: string, c: char, b: string)
    requires IsSpace(c)
    ensures Words(a + [c] + b) == Words(a) + Words(b)
    decreases |a|, 1
  {
    if |a| == 0 {
      assert (a + [c] + b)[1..] == b;
    } else if IsSpace(a[0]) {
      SplitAfterSpace(a, c, b);
    } else {
      SplitAfterWord(a, c, b);
    }
  }

  lemma {:induction false} SplitAfterSpace(a: string, c: char, b: string)
    requires IsSpace(c) && |a| > 0 && IsSpace(a[0])
    ensures Words(a + [c] + b) == Words(a) + Words(b)
    decreases |a|, 0
  {
    var s := a + [c] + b;
    assert s[0] == a[0] && s[1..] == a[1..] + [c] + b;
    WordsSplitAtSpace(a[1..], c, b);
  }

  lemma {:induction false} SplitAfterWord(a: string, c: char, b: string)
    requires IsSpace(c) && |a| > 0 && !IsSpace(a[0])
    ensures Words(a + [c] + b) == Words(a) + Words(b)
    decreases |a|, 0
  {
    var n := WordLength(a);
    assert a == a[..n] + a[n..];
    WordsSplitAtSpace(a[n..], c, b);
    SplitAfterWordStep(a, c, b, a[..n], a[n..]);
  }

  lemma SplitAfterWordStep(a: string, c: char, b: string, w: string, tail: string)
    requires IsSpace(c) && a == w + tail && |w| > 0 && NoSpace(w)
    requires |tail| == 0 || IsSpace(tail[0])
    requires Words(tail + [c] + b) == Words(tail) + Words(b)
    ensures Words(a + [c] + b) == Words(a) + Words(b)
  {
    var x := [c] + b;
    var rest := tail + x;
    SeqAssoc(a, [c], b);
    SeqAssoc(tail, [c], b);
    Regroup(a, w, tail, x);
    WordsAfterWord(w, tail);
    WordsAfterWord(w, rest);
    ConsAppend(w, Words(a), Words(a + [c] + b), Words(tail), Words(b));
  }

  /** The list algebra of the step above, on lists alone. */
  lemma ConsAppend<T>(w: T, wa: seq<T>, wr: seq<T>, wt: seq<T>, wb: seq<T>)
    requires wa == [w] + wt && wr == [w] + (wt + wb)
    ensures wr == wa + wb
  {
    SeqAssoc([w], wt, wb);
  }

  lemma Regroup<T>(a: seq<T>, w: seq<T>, tail: seq<T>, x: seq<T>)
    requires a == w + tail
    ensures a + x == w + (tail + x)
  {
  }

  lemma SeqAssoc<T>(p: seq<T>, x: seq<T>, y: seq<T>)
    ensures (p + x) + y == p + (x + y)
  {
  }


  // ---------------------------------------------------------------------------
  // str.strip() with no argument

  function LeadingSpace(s: string): (n: nat)
    ensures n <= |s|
    ensures AllSpace(s[..n])
    ensures n < |s| ==> !IsSpace(s[n])
  {
    if |s| == 0 || !IsSpace(s[0]) then 0
    else
      var m := LeadingSpace(s[1..]);
      assert s[..m + 1] == [s[0]] + s[1..][..m];
      m + 1
  }

  function TrailingSpace(s: string): (n: nat)
    ensures n <= |s|
    ensures AllSpace(s[|s| - n..])
    ensures n < |s| ==> !IsSpace(s[|s| - n - 1])
  {
    if |s| == 0 || !IsSpace(s[|s| - 1]) then 0
    else
      var p := s[..|s| - 1];
      var m := TrailingSpace(p);
      TrailStep(s, p, m);
      m + 1
  }

  /** One more separator at the end extends the trailing run by one. */
  lemma TrailStep(s: string, p: string, m: nat)
    requires |s| > 0 && p == s[..|s| - 1] && IsSpace(s[|s| - 1])
    requires m <= |p| && AllSpace(p[|p| - m..]) && (m < |p| ==> !IsSpace(p[|p| - m - 1]))
    ensures m + 1 <= |s| && AllSpace(s[|s| - (m + 1)..])
    ensures m + 1 < |s| ==> !IsSpace(s[|s| - (m + 1) - 1])
  {
    assert s[|s| - (m + 1)..] == p[|p| - m..] + [s[|s| - 1]];
    assert m + 1 < |s| ==> s[|s| - (m + 1) - 1] == p[|p| - m - 1];
  }

  /** `r` is `s` with its leading and trailing separators removed, and nothing else. */
  ghost predicate StrippedFrom(r: string, s: string) {
    && (|r| == 0 || (!IsSpace(r[0]) && !IsSpace(r[|r| - 1])))
    && exists i :: 0 <= i <= |s| - |r| && s[i..i + |r|] == r && AllSpace(s[..i]) && AllSpace(s[i + |r|..])
  }

  /** `s.strip()`: the slice between the leading run of separators and the trailing one. */
  function Strip(s: string): (r: string)
    ensures |r| == 0 || (!IsSpace(r[0]) && !IsSpace(r[|r| - 1]))
    ensures LeadingSpace(s) + |r| <= |s| && s[LeadingSpace(s)..LeadingSpace(s) + |r|] == r
    ensures AllSpace(s[LeadingSpace(s) + |r|..])
  {
    StripFrom(s, LeadingSpace(s))
  }

  /** The slice of `s` from `lo`, which starts no separator run, up to its trailing run of separators. */
  function StripFrom(s: string, lo: nat): (r: string)
    requires lo <= |s| && (lo < |s| ==> !IsSpace(s[lo]))
    ensures |r| == 0 || (!IsSpace(r[0]) && !IsSpace(r[|r| - 1]))
    ensures lo + |r| <= |s| && s[lo..lo + |r|] == r
    ensures AllSpace(s[lo + |r|..])
  {
    var u := s[lo..];
    var t := TrailingSpace(u);
    RestShape(s, lo, u, t);
    s[lo..|s| - t]
  }

  /** Cutting the trailing run `t` off the rest `u` leaves a slice of the shape `StripFrom` states. */
  lemma RestShape(s: string, lo: nat, u: string, t: nat)
    requires lo <= |s| && (lo < |s| ==> !IsSpace(s[lo])) && u == s[lo..]
    requires t <= |u| && AllSpace(u[|u| - t..]) && (t < |u| ==> !IsSpace(u[|u| - t - 1]))
    ensures lo <= |s| - t
    ensures var r := s[lo..|s| - t];
      && (|r| == 0 || (!IsSpace(r[0]) && !IsSpace(r[|r| - 1])))
      && lo + |r| <= |s| && s[lo..lo + |r|] == r
      && AllSpace(s[lo + |r|..])
  {
    TrailShift(s, lo, u, t);
    SliceShape(s, lo, |s| - t);
  }

  lemma TrailShift(s: string, lo: int, u: string, t: int)
    requires 0 <= lo <= |s| && u == s[lo..] && 0 <= t <= |u|
    requires AllSpace(u[|u| - t..]) && (t < |u| ==> !IsSpace(u[|u| - t - 1]))
    ensures lo <= |s| - t && AllSpace(s[|s| - t..]) && (lo < |s| - t ==> !IsSpace(s[|s| - t - 1]))
  {
    assert s[|s| - t..] == u[|u| - t..];
    assert lo < |s| - t ==> s[|s| - t - 1] == u[|u| - t - 1];
  }

  /** A slice that starts and ends on a non-separator, with only separators after it. */
  lemma SliceShape(s: string, lo: int, hi: int)
    requires 0 <= lo <= hi <= |s| && AllSpace(s[hi..])
    requires lo < hi ==> !IsSpace(s[lo]) && !IsSpace(s[hi - 1])
    ensures var r := s[lo..hi];
      && (|r| == 0 || (!IsSpace(r[0]) && !IsSpace(r[|r| - 1])))
      && lo + |r| <= |s| && s[lo..lo + |r|] == r
      && AllSpace(s[lo + |r|..])
  {
    var r := s[lo..hi];
    assert lo + |r| == hi;
    assert |r| > 0 ==> r[0] == s[lo] && r[|r| - 1] == s[hi - 1];
  }

  /** `strip()` meets its description. */
  lemma StripMeetsDescription(s: string)
    ensures StrippedFrom(Strip(s), s)
  {
    var r := Strip(s);
    var lo := LeadingSpace(s);
    assert s[lo..lo + |r|] == r && AllSpace(s[..lo]) && AllSpace(s[lo + |r|..]);
  }

  /** A blank string holds no other character. */
  lemma BlankLacks(x: string, c: char)
    requires AllSpace(x) && !IsSpace(c)
    ensures multiset(x)[c] == 0
  {
    assert forall i :: 0 <= i < |x| ==> x[i] != c;
    assert c !in x;
  }

  /** `strip()` only removes separators: nothing is added, and every other character keeps its count. */
  lemma StripKeepsText(s: string)
    ensures multiset(Strip(s)) <= multiset(s)
    ensures forall c :: !IsSpace(c) ==> multiset(Strip(s))[c] == multiset(s)[c]
  {
    var lo := LeadingSpace(s);
    var hi := lo + |Strip(s)|;
    ThreeSlices(s, lo, hi);
    BlanksAroundKeepText(s[..lo], Strip(s), s[hi..]);
  }

  lemma ThreeSlices(s: string, lo: int, hi: int)
    requires 0 <= lo <= hi <= |s|
    ensures s == s[..lo] + s[lo..hi] + s[hi..]
  {
  }

  lemma BlanksAroundKeepText(a: string, m: string, b: string)
    requires AllSpace(a) && AllSpace(b)
    ensures multiset(m) <= multiset(a + m + b)
    ensures forall c :: !IsSpace(c) ==> multiset(m)[c] == multiset(a + m + b)[c]
  {
    assert multiset(a + m + b) == multiset(a) + multiset(m) + multiset(b);
    forall c | !IsSpace(c)
      ensures multiset(m)[c] == multiset(a + m + b)[c]
    {
      BlankLacks(a, c);
      BlankLacks(b, c);
    }
  }


  /** A blank prefix followed by a non-separator is exactly the leading run `strip()` removes. */
  lemma LeadingSpaceIsUnique(s: string, i: int)
    requires 0 <= i <= |s| && AllSpace(s[..i])
    requires i < |s| ==> !IsSpace(s[i])
    ensures i == LeadingSpace(s)
  {
    var n := LeadingSpace(s);
    AllSpaceBefore(s, i);
    AllSpaceBefore(s, n);
  }

  lemma AllSpaceBefore(s: string, i: int)
    requires 0 <= i <= |s| && AllSpace(s[..i])
    ensures forall k :: 0 <= k < i ==> IsSpace(s[k])
  {
    forall k | 0 <= k < i
      ensures IsSpace(s[k])
    {
      assert s[..i][k] == s[k];
    }
  }

  lemma AllSpaceFrom(s: string, i: int)
    requires 0 <= i <= |s| && AllSpace(s[i..])
    ensures forall k :: i <= k < |s| ==> IsSpace(s[k])
  {
    forall k | i <= k < |s|
      ensures IsSpace(s[k])
    {
      assert s[i..][k - i] == s[k];
    }
  }

  lemma AllSpaceConcat(s: string, i: int)
    requires 0 <= i <= |s| && AllSpace(s[..i]) && AllSpace(s[i..])
    ensures AllSpace(s)
  {
    AllSpaceBefore(s, i);
    AllSpaceFrom(s, i);
  }

  /** The description `StrippedFrom` has exactly one solution, so it pins `strip()` down completely. */
  lemma StrippedFromIsUnique(r: string, s: string)
    requires StrippedFrom(r, s)
    ensures r == Strip(s)
  {
    var i :| 0 <= i <= |s| - |r| && s[i..i + |r|] == r && AllSpace(s[..i]) && AllSpace(s[i + |r|..]);
    if |r| == 0 {
      StripOfBlank(s, i);
    } else {
      StripAround(r, s, i);
    }
  }

  lemma StripOfBlank(s: string, i: int)
    requires 0 <= i <= |s| && AllSpace(s[..i]) && AllSpace(s[i..])
    ensures Strip(s) == []
  {
    AllSpaceConcat(s, i);
    LeadingSpaceIsUnique(s, |s|);
  }

  lemma StripAround(r: string, s: string, i: int)
    requires |r| > 0 && !IsSpace(r[0]) && !IsSpace(r[|r| - 1])
    requires 0 <= i <= |s| - |r| && s[i..i + |r|] == r && AllSpace(s[..i]) && AllSpace(s[i + |r|..])
    ensures Strip(s) == r
  {
    assert s[i] == r[0];
    LeadingSpaceIsUnique(s, i);
    var t := Strip(s);
    // Both candidates end in a non-separator followed only by separators, so they end together.
    AllSpaceFrom(s, i + |t|);
    AllSpaceFrom(s, i + |r|);
    assert s[i + |r| - 1] == r[|r| - 1];
    assert |t| > 0 ==> s[i + |t| - 1] == t[|t| - 1];
    assert |t| == |r|;
  }

  /** Stripping yields the empty string exactly for blank input. */
  lemma StripEmptyIffAllSpace(s: string)
    ensures Strip(s) == [] <==> AllSpace(s)
  {
    var r := Strip(s);
    var lo := LeadingSpace(s);
    if |r| == 0 {
      AllSpaceConcat(s, lo);
    } else {
      assert s[lo] == r[0];
    }
  }

  // ---------------------------------------------------------------------------
  // The `in` operator on strings

  /** `needle in hay`. */
  function Contains(hay: string, needle: string): (r: bool)
    ensures needle <= hay ==> r
    ensures r ==> |needle| <= |hay|
    decreases |hay|
  {
    needle <= hay || (|hay| > 0 && Contains(hay[1..], needle))
  }

  ghost predicate OccursAt(hay: string, needle: string, i: int) {
    0 <= i && i + |needle| <= |hay| && hay[i..i + |needle|] == needle
  }

  /** `in` holds exactly when the needle occurs at some position of the haystack. */
  lemma {:induction false} ContainsIffOccurs(hay: string, needle: string)
    ensures Contains(hay, needle) <==> exists i :: OccursAt(hay, needle, i)
    decreases |hay|
  {
    if needle <= hay {
      assert OccursAt(hay, needle, 0);
    } else if |hay| == 0 {
      assert forall i :: !OccursAt(hay, needle, i);
    } else {
      ContainsIffOccurs(hay[1..], needle);
      if i :| OccursAt(hay[1..], needle, i) {
        OccursShift(hay, needle, i);
      }
      if i :| OccursAt(hay, needle, i) {
        OccursUnshift(hay, needle, i);
      }
    }
  }

  lemma OccursShiftBy(hay: string, needle: string, k: int, i: int)
    requires 0 <= k <= |hay| && OccursAt(hay[k..], needle, i)
    ensures OccursAt(hay, needle, i + k)
  {
    assert hay[i + k..i + k + |needle|] == hay[k..][i..i + |needle|];
  }

  lemma OccursShift(hay: string, needle: string, i: int)
    requires |hay| > 0 && OccursAt(hay[1..], needle, i)
    ensures OccursAt(hay, needle, i + 1)
  {
    assert hay[i + 1..i + 1 + |needle|] == hay[1..][i..i + |needle|];
  }

  lemma OccursUnshift(hay: string, needle: string, i: int)
    requires |hay| > 0 && !(needle <= hay) && OccursAt(hay, needle, i)
    ensures OccursAt(hay[1..], needle, i - 1)
  {
    assert hay[..|needle|] == needle ==> needle <= hay;
    assert hay[1..][i - 1..i - 1 + |needle|] == hay[i..i + |needle|];
  }

  /** Every string contains itself (so a record is always found by its own text). */
  lemma ContainsSelf(s: string)
    ensures Contains(s, s)
  {
  }

  /** A slice of a string contains only what the string contains. */
  lemma ContainsOfSlice(s: string, lo: int, hi: int, q: string)
    requires 0 <= lo <= hi <= |s|
    requires Contains(s[lo..hi], q)
    ensures Contains(s, q)
  {
    ContainsIffOccurs(s[lo..hi], q);
    var i :| OccursAt(s[lo..hi], q, i);
    var a, b := s[lo + i..lo + i + |q|], s[lo..hi][i..i + |q|];
    assert a == b by {
      forall k | 0 <= k < |q|
        ensures a[k] == b[k]
      {
      }
    }
    assert OccursAt(s, q, lo + i);
    ContainsIffOccurs(s, q);
  }

  /** What a string lacks, each of its slices lacks too. */
  lemma AbsentFromSlice(s: string, lo: int, hi: int, q: string)
    requires 0 <= lo <= hi <= |s|
    requires !Contains(s, q)
    ensures !Contains(s[lo..hi], q)
  {
    if Contains(s[lo..hi], q) {
      ContainsOfSlice(s, lo, hi, q);
    }
  }

  /** Prefixing characters that differ from the needle's first character adds no occurrence. */
  lemma {:induction false} ContainsAfterFreePrefix(p: string, t: string, q: string)
    requires |q| > 0
    requires forall j :: 0 <= j < |p| ==> p[j] != q[0]
    requires !Contains(t, q)
    ensures !Contains(p + t, q)
    decreases |p|
  {
    if |p| > 0 {
      assert (p + t)[1..] == p[1..] + t;
      assert (p + t)[0] != q[0];
      assert !(q <= p + t);
      ContainsAfterFreePrefix(p[1..], t, q);
    } else {
      assert p + t == t;
    }
  }

  // ---------------------------------------------------------------------------
  // str.replace

  /** `s.replace(pat, rep)`: every left-to-right, non-overlapping occurrence of `pat` replaced
      (an empty `pat` inserts `rep` before every character and at the end, as Python does). */
  function Replace(s: string, pat: string, rep: string): (r: string)
    ensures |pat| == 0 ==> |r| == |s| + (|s| + 1) * |rep|
    ensures |pat| > 0 && |rep| == |pat| ==> |r| == |s|
    decreases |s|
  {
    if |pat| == 0 then
      if |s| == 0 then rep else rep + [s[0]] + Replace(s[1..], pat, rep)
    else if pat <= s then rep + Replace(s[|pat|..], pat, rep)
    else if |s| == 0 then []
    else [s[0]] + Replace(s[1..], pat, rep)
  }

  /** A string without the pattern is left as it is. */
  lemma {:induction false} ReplaceAbsent(s: string, pat: string, rep: string)
    requires |pat| > 0
    requires !Contains(s, pat)
    ensures Replace(s, pat, rep) == s
    decreases |s|
  {
    if |s| > 0 {
      ReplaceAbsent(s[1..], pat, rep);
      assert s == [s[0]] + s[1..];
    }
  }

  /** `a` became `b` by substituting one character of the pattern with the replacement's character at the same offset. */
  ghost predicate Substituted(a: char, b: char, pat: string, rep: string) {
    exists k :: 0 <= k < |pat| && k < |rep| && a == pat[k] && b == rep[k]
  }

  /** A same-length replacement keeps the length, and each changed character is a pattern character
      turned into the replacement character at the same offset; `ReplaceChangesWithin` places it
      inside an occurrence. */
  lemma {:induction false} ReplaceSameLength(s: string, pat: string, rep: string)
    requires |pat| > 0 && |pat| == |rep|
    ensures |Replace(s, pat, rep)| == |s|
    ensures forall i :: 0 <= i < |s| ==> Replace(s, pat, rep)[i] == s[i] || Substituted(s[i], Replace(s, pat, rep)[i], pat, rep)
    decreases |s|
  {
    var r := Replace(s, pat, rep);
    if pat <= s {
      var t := s[|pat|..];
      ReplaceSameLength(t, pat, rep);
      assert r == rep + Replace(t, pat, rep);
      forall i | 0 <= i < |s|
        ensures r[i] == s[i] || Substituted(s[i], r[i], pat, rep)
      {
        if i < |pat| {
          assert s[i] == pat[i] && r[i] == rep[i];
        } else {
          assert s[i] == t[i - |pat|];
          assert r[i] == Replace(t, pat, rep)[i - |pat|];
        }
      }
    } else if |s| > 0 {
      ReplaceSameLength(s[1..], pat, rep);
      assert r == [s[0]] + Replace(s[1..], pat, rep);
      forall i | 0 <= i < |s|
        ensures r[i] == s[i] || Substituted(s[i], r[i], pat, rep)
      {
        if i > 0 {
          assert s[i] == s[1..][i - 1];
        }
      }
    }
  }

  /** Position `i` of `r` lies inside an occurrence of `pat` in `s`, and `r` holds there the
      replacement's character at the same offset into the occurrence. */
  ghost predicate ReplacedWithin(s: string, r: string, pat: string, rep: string, i: int) {
    exists j :: 0 <= j <= i < j + |pat| && i - j < |rep| && i < |r| && OccursAt(s, pat, j) && r[i] == rep[i - j]
  }

  lemma ChangedWithin(s: string, r: string, pat: string, rep: string, i: int, j: int)
    requires 0 <= j <= i < j + |pat| && i - j < |rep| && i < |r| && OccursAt(s, pat, j) && r[i] == rep[i - j]
    ensures ReplacedWithin(s, r, pat, rep, i)
  {
  }

  /** A same-length replacement changes a character only inside an occurrence of the pattern,
      and then into the replacement's character at that offset. */
  lemma ReplaceChangesWithin(s: string, pat: string, rep: string)
    requires |pat| > 0 && |pat| == |rep|
    ensures |Replace(s, pat, rep)| == |s|
    ensures forall i :: 0 <= i < |s| && Replace(s, pat, rep)[i] != s[i] ==>
      ReplacedWithin(s, Replace(s, pat, rep), pat, rep, i)
  {
    ReplaceSameLength(s, pat, rep);
    forall i | 0 <= i < |s|
      ensures Replace(s, pat, rep)[i] != s[i] ==> ReplacedWithin(s, Replace(s, pat, rep), pat, rep, i)
    {
      ReplaceChangesAt(s, pat, rep, i);
    }
  }

  lemma {:induction false} ReplaceChangesAt(s: string, pat: string, rep: string, i: int)
    requires |pat| > 0 && |pat| == |rep| && 0 <= i < |s|
    ensures |Replace(s, pat, rep)| == |s|
    ensures Replace(s, pat, rep)[i] != s[i] ==> ReplacedWithin(s, Replace(s, pat, rep), pat, rep, i)
    decreases |s|, 2
  {
    ReplaceSameLength(s, pat, rep);
    if pat <= s {
      ChangesAtMatch(s, pat, rep, i);
    } else {
      ChangesAtSkip(s, pat, rep, i);
    }
  }

  lemma {:induction false} ChangesAtMatch(s: string, pat: string, rep: string, i: int)
    requires |pat| > 0 && |pat| == |rep| && 0 <= i < |s| && pat <= s
    ensures |Replace(s, pat, rep)| == |s|
    ensures Replace(s, pat, rep)[i] != s[i] ==> ReplacedWithin(s, Replace(s, pat, rep), pat, rep, i)
    decreases |s|, 1
  {
    if i < |pat| {
      ReplaceSameLength(s, pat, rep);
      ReplaceFront(s, pat, rep);
      FrontWithin(s, Replace(s, pat, rep), pat, rep, Replace(s[|pat|..], pat, rep), i);
    } else {
      ReplaceChangesAt(s[|pat|..], pat, rep, i - |pat|);
      ChangesAtLater(s, pat, rep, i);
    }
  }

  lemma ChangesAtLater(s: string, pat: string, rep: string, i: int)
    requires |pat| > 0 && |pat| == |rep| && |pat| <= i < |s| && pat <= s
    requires |Replace(s[|pat|..], pat, rep)| == |s| - |pat|
    requires Replace(s[|pat|..], pat, rep)[i - |pat|] != s[|pat|..][i - |pat|] ==>
      ReplacedWithin(s[|pat|..], Replace(s[|pat|..], pat, rep), pat, rep, i - |pat|)
    ensures |Replace(s, pat, rep)| == |s|
    ensures Replace(s, pat, rep)[i] != s[i] ==> ReplacedWithin(s, Replace(s, pat, rep), pat, rep, i)
  {
    ReplaceSameLength(s, pat, rep);
    ReplaceFront(s, pat, rep);
    FrontReplacedWithin(s, Replace(s, pat, rep), pat, rep, Replace(s[|pat|..], pat, rep), i);
  }

  /** With the front occurrence replaced, a change past it is explained by the rest. */
  lemma FrontReplacedWithin(s: string, r: string, pat: string, rep: string, rt: string, i: int)
    requires |pat| == |rep| && |pat| <= i < |s| == |r| && r == rep + rt
    requires rt[i - |pat|] != s[|pat|..][i - |pat|] ==> ReplacedWithin(s[|pat|..], rt, pat, rep, i - |pat|)
    ensures r[i] != s[i] ==> ReplacedWithin(s, r, pat, rep, i)
  {
    assert r[|pat|..] == rt;
    SuffixWithin(s, r, pat, rep, rt, |pat|, i);
  }

  lemma {:induction false} ChangesAtSkip(s: string, pat: string, rep: string, i: int)
    requires |pat| > 0 && |pat| == |rep| && 0 <= i < |s| && !(pat <= s)
    ensures |Replace(s, pat, rep)| == |s|
    ensures Replace(s, pat, rep)[i] != s[i] ==> ReplacedWithin(s, Replace(s, pat, rep), pat, rep, i)
    decreases |s|, 1
  {
    ReplaceSameLength(s, pat, rep);
    var t := s[1..];
    assert Replace(s, pat, rep) == [s[0]] + Replace(t, pat, rep);
    if i > 0 {
      ReplaceChangesAt(t, pat, rep, i - 1);
      SuffixWithin(s, Replace(s, pat, rep), pat, rep, Replace(t, pat, rep), 1, i);
    }
  }

  /** A position inside a match at the front is explained by that match. */
  lemma FrontWithin(s: string, r: string, pat: string, rep: string, rt: string, i: int)
    requires pat <= s && r == rep + rt && 0 <= i < |pat| == |rep|
    ensures ReplacedWithin(s, r, pat, rep, i)
  {
    assert s[0..|pat|] == pat;
    ChangedWithin(s, r, pat, rep, i, 0);
  }

  /** A change past the first `k` characters is explained as it was in the suffix. */
  lemma SuffixWithin(s: string, r: string, pat: string, rep: string, rt: string, k: int, i: int)
    requires 0 <= k <= i < |s| == |r| && r[k..] == rt
    requires rt[i - k] != s[k..][i - k] ==> ReplacedWithin(s[k..], rt, pat, rep, i - k)
    ensures r[i] != s[i] ==> ReplacedWithin(s, r, pat, rep, i)
  {
    if r[i] != s[i] {
      assert rt[i - k] == r[i] && s[k..][i - k] == s[i];
      WithinShift(s, r, pat, rep, k, i);
    }
  }

  /** A change inside a suffix, explained by an occurrence there, is explained in the whole. */
  lemma WithinShift(s: string, r: string, pat: string, rep: string, k: int, i: int)
    requires 0 <= k <= i < |s| == |r|
    requires ReplacedWithin(s[k..], r[k..], pat, rep, i - k)
    ensures ReplacedWithin(s, r, pat, rep, i)
  {
    var j :| 0 <= j <= i - k < j + |pat| && i - k - j < |rep| && i - k < |r[k..]|
      && OccursAt(s[k..], pat, j) && r[k..][i - k] == rep[i - k - j];
    OccursShiftBy(s, pat, k, j);
    ChangedWithin(s, r, pat, rep, i, j + k);
  }

  /** The pattern's first character occurs nowhere else in it, so two occurrences never overlap. */
  predicate HeadOccursOnce(pat: string) {
    |pat| > 0 && pat[0] !in pat[1..]
  }

  /** Every occurrence of a pattern that cannot overlap itself is replaced. */
  lemma {:induction false} ReplaceAt(s: string, pat: string, rep: string, i: int)
    requires HeadOccursOnce(pat) && |rep| == |pat|
    requires OccursAt(s, pat, i)
    ensures |Replace(s, pat, rep)| == |s|
    ensures Replace(s, pat, rep)[i..i + |pat|] == rep
    decreases |s|, 2
  {
    ReplaceSameLength(s, pat, rep);
    if pat <= s {
      ReplaceAtMatch(s, pat, rep, i);
    } else {
      ReplaceAtSkip(s, pat, rep, i);
    }
  }

  lemma {:induction false} ReplaceAtMatch(s: string, pat: string, rep: string, i: int)
    requires HeadOccursOnce(pat) && |rep| == |pat|
    requires OccursAt(s, pat, i) && pat <= s
    ensures |Replace(s, pat, rep)| == |s|
    ensures Replace(s, pat, rep)[i..i + |pat|] == rep
    decreases |s|, 1
  {
    ReplaceSameLength(s, pat, rep);
    ReplaceFront(s, pat, rep);
    NoOverlap(s, pat, i);
    if i == 0 {
      AfterFront(Replace(s, pat, rep), rep, Replace(s[|pat|..], pat, rep), 0);
    } else {
      ReplaceAtLater(s, pat, rep, i);
    }
  }

  lemma {:induction false} ReplaceAtLater(s: string, pat: string, rep: string, i: int)
    requires HeadOccursOnce(pat) && |rep| == |pat|
    requires OccursAt(s, pat, i) && pat <= s && i >= |pat|
    ensures |Replace(s, pat, rep)| == |s|
    ensures Replace(s, pat, rep)[i..i + |pat|] == rep
    decreases |s|, 0
  {
    OccursInSuffix(s, pat, |pat|, i);
    ReplaceAt(s[|pat|..], pat, rep, i - |pat|);
    LaterGlue(s, pat, rep, i);
  }

  lemma LaterGlue(s: string, pat: string, rep: string, i: int)
    requires |pat| > 0 && |rep| == |pat| && pat <= s && |pat| <= i && i + |pat| <= |s|
    requires |Replace(s[|pat|..], pat, rep)| == |s| - |pat|
    requires Replace(s[|pat|..], pat, rep)[i - |pat|..i] == rep
    ensures |Replace(s, pat, rep)| == |s|
    ensures Replace(s, pat, rep)[i..i + |pat|] == rep
  {
    ReplaceSameLength(s, pat, rep);
    ReplaceFront(s, pat, rep);
    AfterFront(Replace(s, pat, rep), rep, Replace(s[|pat|..], pat, rep), i);
  }

  /** Text holding no first letter of the pattern is copied ahead of the replaced rest. */
  lemma {:induction false} ReplaceSkipsPrefix(a: string, b: string, pat: string, rep: string)
    requires |pat| > 0 && pat[0] !in a
    ensures Replace(a + b, pat, rep) == a + Replace(b, pat, rep)
    decreases |a|
  {
    if |a| == 0 {
      assert a + b == b;
    } else {
      HeadOfConcat(a, b, pat[0]);
      ReplaceSkipsHead(a + b, pat, rep);
      ReplaceSkipsPrefix(a[1..], b, pat, rep);
      KeptInFront([a[0]], a, Replace(b, pat, rep), Replace(a + b, pat, rep), Replace(a[1..] + b, pat, rep), a[1..]);
    }
  }

  /** A single occurrence, with its first letter nowhere else, is the one thing replaced. */
  lemma ReplaceSingle(p: string, q: string, pat: string, rep: string)
    requires |pat| > 0 && pat[0] !in p && pat[0] !in q
    ensures Replace(p + pat + q, pat, rep) == p + rep + q
  {
    var w := pat + q;
    SingleShape(p, pat, q, w);
    ReplaceSkipsPrefix(p, w, pat, rep);
    ReplaceFront(w, pat, rep);
    ReplaceWithoutHead(q, pat, rep);
    SingleGlue(p, rep, q, Replace(p + w, pat, rep), Replace(w, pat, rep));
  }

  lemma SingleShape(p: string, pat: string, q: string, w: string)
    requires w == pat + q
    ensures p + pat + q == p + w && pat <= w && w[|pat|..] == q
  {
  }

  lemma SingleGlue(p: string, rep: string, q: string, x: string, y: string)
    requires x == p + y && y == rep + q
    ensures x == p + rep + q
  {
  }

  /** Text holding no first letter of the pattern is left as it is. */
  lemma ReplaceWithoutHead(q: string, pat: string, rep: string)
    requires |pat| > 0 && pat[0] !in q
    ensures Replace(q, pat, rep) == q
  {
    ReplaceSkipsPrefix(q, [], pat, rep);
    assert q + [] == q;
    assert Replace([], pat, rep) == [];
  }

  /** How `a + b` splits at its first character when `a` is not empty and lacks `c`. */
  lemma HeadOfConcat(a: string, b: string, c: char)
    requires |a| > 0 && c !in a
    ensures |a + b| > 0 && (a + b)[0] == a[0] && a[0] != c
    ensures (a + b)[1..] == a[1..] + b && a == [a[0]] + a[1..] && c !in a[1..]
  {
    assert a[0] in a;
    assert forall k :: 0 <= k < |a[1..]| ==> a[1..][k] == a[k + 1];
  }

  /** A first character that cannot start the pattern is copied as it is. */
  lemma ReplaceSkipsHead(s: string, pat: string, rep: string)
    requires |pat| > 0 && |s| > 0 && s[0] != pat[0]
    ensures Replace(s, pat, rep) == [s[0]] + Replace(s[1..], pat, rep)
  {
    assert !(pat <= s);
  }

  /** Where the pattern matches at the front, the replaced text starts with the replacement. */
  lemma ReplaceFront(s: string, pat: string, rep: string)
    requires |pat| > 0 && pat <= s
    ensures Replace(s, pat, rep) == rep + Replace(s[|pat|..], pat, rep)
  {
  }

  lemma AfterFront(r: string, rep: string, rt: string, i: int)
    requires r == rep + rt && (i == 0 || (|rep| <= i && i + |rep| <= |r| && rt[i - |rep|..i] == rep))
    ensures i + |rep| <= |r| && r[i..i + |rep|] == rep
  {
    if i > 0 {
      assert r[i..i + |rep|] == rt[i - |rep|..i];
    }
  }

  lemma {:induction false} ReplaceAtSkip(s: string, pat: string, rep: string, i: int)
    requires HeadOccursOnce(pat) && |rep| == |pat|
    requires OccursAt(s, pat, i) && !(pat <= s)
    ensures |Replace(s, pat, rep)| == |s|
    ensures Replace(s, pat, rep)[i..i + |pat|] == rep
    decreases |s|, 1
  {
    ReplaceSameLength(s, pat, rep);
    var r := Replace(s, pat, rep);
    var t := s[1..];
    var rt := Replace(t, pat, rep);
    OccursUnshift(s, pat, i);
    ReplaceAt(t, pat, rep, i - 1);
    assert r == [s[0]] + rt;
    assert r[1..] == rt;
    SliceOfSuffix(r, rt, 1, i, |pat|);
  }

  lemma OccursInSuffix(hay: string, needle: string, k: int, i: int)
    requires 0 <= k <= i && OccursAt(hay, needle, i)
    ensures OccursAt(hay[k..], needle, i - k)
  {
    assert hay[k..][i - k..i - k + |needle|] == hay[i..i + |needle|];
  }

  lemma SliceOfSuffix(r: string, rt: string, k: int, i: int, n: int)
    requires 0 <= k <= i && 0 <= n && i + n <= |r| && r[k..] == rt
    ensures r[i..i + n] == rt[i - k..i - k + n]
  {
    var a, b := r[i..i + n], rt[i - k..i - k + n];
    assert forall j :: 0 <= j < n ==> a[j] == r[i + j] == rt[i - k + j] == b[j];
  }


  /** An occurrence found at the front rules out any other starting inside it. */
  lemma NoOverlap(s: string, pat: string, i: int)
    requires HeadOccursOnce(pat) && pat <= s && OccursAt(s, pat, i)
    ensures i == 0 || i >= |pat|
  {
    assert s[i] == pat[0];
    assert forall k :: 0 < k < |pat| ==> s[k] == pat[k] == pat[1..][k - 1];
  }

  /** A stretch of `s` that lacks the pattern's first character and does not start with any of its
      later characters meets no occurrence, so replacing leaves it as it is. */
  lemma ReplaceKeepsRegion(s: string, pat: string, rep: string, lo: int, hi: int)
    requires |pat| > 0 && |pat| == |rep|
    requires 0 <= lo < hi <= |s|
    requires pat[0] !in s[lo..hi] && s[lo] !in pat[1..]
    ensures |Replace(s, pat, rep)| == |s|
    ensures Replace(s, pat, rep)[lo..hi] == s[lo..hi]
  {
    ReplaceSameLength(s, pat, rep);
    var r := Replace(s, pat, rep);
    forall k | lo <= k < hi
      ensures r[k] == s[k]
    {
      ReplaceChangesAt(s, pat, rep, k);
      UnchangedAt(s, r, pat, rep, lo, hi, k);
    }
    assert r[lo..hi] == s[lo..hi];
  }

  /** The pointwise step: no occurrence covers position `k` of the stretch. */
  lemma UnchangedAt(s: string, r: string, pat: string, rep: string, lo: int, hi: int, k: int)
    requires |pat| > 0 && 0 <= lo <= k < hi <= |s| == |r|
    requires pat[0] !in s[lo..hi] && s[lo] !in pat[1..]
    requires r[k] != s[k] ==> ReplacedWithin(s, r, pat, rep, k)
    ensures r[k] == s[k]
  {
    assert forall j :: lo <= j <= k ==> s[j] == s[lo..hi][j - lo];
    assert forall j :: 0 <= j <= k < j + |pat| && OccursAt(s, pat, j) ==>
      s[j] == pat[0] && (j < lo ==> s[lo] == pat[1..][lo - j - 1]);
  }


  /** The replacement text can neither begin inside nor run past a suffix `u` of the pattern being looked for. */
  predicate Clashes(rep: string, u: string) {
    rep <= u || u <= rep
  }

  /** Where the pattern matches at the front, the replaced text starts with the replacement. */
  lemma ReplacedMatchClashes(t: string, pat: string, rep: string, u: string)
    requires |pat| > 0 && pat <= t
    requires u <= Replace(t, pat, rep)
    ensures Clashes(rep, u)
  {
    var x := Replace(t[|pat|..], pat, rep);
    assert Replace(t, pat, rep) == rep + x;
    if |u| <= |rep| {
      assert u == rep[..|u|];
    } else {
      assert rep == u[..|rep|];
    }
  }

  /** If the replaced text starts with `u`, so did the original, provided no replacement can line up with any suffix of `u`. */
  lemma {:induction false} ReplacedStartsWith(t: string, pat: string, rep: string, u: string)
    requires |pat| > 0 && |u| > 0
    requires forall k :: 0 <= k < |u| ==> !Clashes(rep, u[k..])
    requires u <= Replace(t, pat, rep)
    ensures u <= t
    decreases |t|
  {
    assert u[0..] == u;
    if pat <= t {
      ReplacedMatchClashes(t, pat, rep, u);
      assert false;
    } else if |t| > 0 {
      var x := Replace(t[1..], pat, rep);
      assert Replace(t, pat, rep) == [t[0]] + x;
      if |u| > 1 {
        forall k | 0 <= k < |u| - 1
          ensures !Clashes(rep, u[1..][k..])
        {
          assert u[1..][k..] == u[k + 1..];
        }
        assert u[1..] <= x;
        ReplacedStartsWith(t[1..], pat, rep, u[1..]);
      }
    }
  }

  /** Replacing `pat` by `rep` leaves no occurrence of `q`, when `q` is `pat` itself or was absent,
      and `rep` can never contribute to an occurrence of `q`. */
  lemma {:induction false} ReplaceAvoids(s: string, pat: string, rep: string, q: string)
    requires |pat| > 0 && |q| > 0
    requires forall j :: 0 <= j < |rep| ==> rep[j] != q[0]
    requires forall k :: 1 <= k < |q| ==> !Clashes(rep, q[k..])
    requires q == pat || !Contains(s, q)
    ensures !Contains(Replace(s, pat, rep), q)
    decreases |s|
  {
    if pat <= s {
      var t := s[|pat|..];
      if q != pat {
        if Contains(t, q) {
          assert s[|pat|..|s|] == t;
          ContainsOfSlice(s, |pat|, |s|, q);
        }
      }
      ReplaceAvoids(t, pat, rep, q);
      ContainsAfterFreePrefix(rep, Replace(t, pat, rep), q);
    } else if |s| > 0 {
      var t := s[1..];
      ReplaceAvoids(t, pat, rep, q);
      var r := Replace(s, pat, rep);
      assert r == [s[0]] + Replace(t, pat, rep);
      assert r[1..] == Replace(t, pat, rep);
      if q <= r {
        if |q| > 1 {
          assert q[1..] <= Replace(t, pat, rep);
          assert forall k :: 0 <= k < |q| - 1 ==> q[1..][k..] == q[k + 1..];
          ReplacedStartsWith(t, pat, rep, q[1..]);
        }
        assert false;
      }
    }
  }

  // ---------------------------------------------------------------------------
  // re.sub(r"```json|```", "", s)

  const Fence: string := "```"
  const JsonFence: string := "```json"

  /** Deletes every left-to-right, non-overlapping match of the alternation ```` ```json|``` ````;
      at each position the longer alternative is tried first, as Python's `re` does. */
  function StripFences(s: string): (r: string)
    ensures |r| <= |s|
    decreases |s|
  {
    if JsonFence <= s then StripFences(s[|JsonFence|..])
    else if Fence <= s then StripFences(s[|Fence|..])
    else if |s| == 0 then []
    else [s[0]] + StripFences(s[1..])
  }

  /** A string that starts with a character other than a backtick keeps that character in front. */
  lemma StripFencesKeepsHead(s: string)
    requires |s| > 0 && s[0] != '`'
    ensures StripFences(s) == [s[0]] + StripFences(s[1..])
  {
    assert !(Fence <= s) && !(JsonFence <= s);
  }

  /** The fence-free output of a string that does not start with a backtick does not start with one either. */
  lemma StripFencesHead(s: string)
    requires |s| == 0 || s[0] != '`'
    ensures |StripFences(s)| == 0 || StripFences(s)[0] != '`'
  {
    if |s| > 0 {
      StripFencesKeepsHead(s);
    }
  }

  /** Text that does not start with two backticks does not start with two after the substitution. */
  lemma TwoTicksNotKept(t: string)
    requires !("``" <= t)
    ensures !("``" <= StripFences(t))
  {
    if |t| > 0 {
      assert Fence <= t ==> "``" <= t;
      assert JsonFence <= t ==> "``" <= t;
      assert StripFences(t) == [t[0]] + StripFences(t[1..]);
      if t[0] == '`' {
        assert |t| == 1 || t[1] != '`';
        StripFencesHead(t[1..]);
      }
    }
  }

  /** After the substitution no three backticks remain in a row. */
  lemma {:induction false} StripFencesRemovesFences(s: string)
    ensures !Contains(StripFences(s), Fence)
    decreases |s|
  {
    if JsonFence <= s {
      StripFencesRemovesFences(s[|JsonFence|..]);
    } else if Fence <= s {
      StripFencesRemovesFences(s[|Fence|..]);
    } else if |s| > 0 {
      var t := s[1..];
      var rt := StripFences(t);
      var r := StripFences(s);
      StripFencesRemovesFences(t);
      assert r == [s[0]] + rt;
      assert r[1..] == rt;
      if s[0] == '`' {
        assert Fence == [s[0]] + "``";
        TwoTicksNotKept(t);
      }
      assert r[0] == s[0];
      assert Fence <= r ==> "``" <= rt;
    }
  }

  /** The substitution deletes fence text only: no character is added, and every character that
      cannot belong to a fence (anything but a backtick and the letters of `json`) keeps its count. */
  lemma {:induction false} StripFencesKeepsText(s: string)
    ensures multiset(StripFences(s)) <= multiset(s)
    ensures forall c :: c !in JsonFence ==> multiset(StripFences(s))[c] == multiset(s)[c]
    decreases |s|, 1
  {
    if JsonFence <= s {
      FenceDroppedKeepsText(s, JsonFence);
    } else if Fence <= s {
      FenceDroppedKeepsText(s, Fence);
    } else if |s| > 0 {
      StripFencesKeepsText(s[1..]);
      assert s == [s[0]] + s[1..];
      KeepKeepsText(s[0], s[1..], StripFences(s[1..]));
    }
  }

  lemma {:induction false} FenceDroppedKeepsText(s: string, fence: string)
    requires fence == JsonFence || fence == Fence
    requires fence <= s && StripFences(s) == StripFences(s[|fence|..])
    ensures multiset(StripFences(s)) <= multiset(s)
    ensures forall c :: c !in JsonFence ==> multiset(StripFences(s))[c] == multiset(s)[c]
    decreases |s|, 0
  {
    var t := s[|fence|..];
    StripFencesKeepsText(t);
    assert s == fence + t;
    DropKeepsText(fence, t, StripFences(t));
  }


  /** Deleting fence characters in front keeps the counting facts. */
  lemma DropKeepsText(p: string, t: string, r: string)
    requires multiset(r) <= multiset(t)
    requires forall c :: c !in JsonFence ==> multiset(r)[c] == multiset(t)[c]
    requires forall i :: 0 <= i < |p| ==> p[i] in JsonFence
    ensures multiset(r) <= multiset(p + t)
    ensures forall c :: c !in JsonFence ==> multiset(r)[c] == multiset(p + t)[c]
  {
    assert multiset(p + t) == multiset(p) + multiset(t);
    forall c | c !in JsonFence
      ensures multiset(r)[c] == multiset(p + t)[c]
    {
      assert c !in p;
    }
  }

  /** Keeping a character in front keeps the counting facts. */
  lemma KeepKeepsText(x: char, t: string, r: string)
    requires multiset(r) <= multiset(t)
    requires forall c :: c !in JsonFence ==> multiset(r)[c] == multiset(t)[c]
    ensures multiset([x] + r) <= multiset([x] + t)
    ensures forall c :: c !in JsonFence ==> multiset([x] + r)[c] == multiset([x] + t)[c]
  {
    assert multiset([x] + r) == multiset{x} + multiset(r);
    assert multiset([x] + t) == multiset{x} + multiset(t);
  }

  /** Text without a backtick holds no fence and passes through unchanged. */
  lemma {:induction false} StripFencesOfBacktickFree(x: string)
    requires '`' !in x
    ensures StripFences(x) == x
    decreases |x|
  {
    if |x| > 0 {
      assert x[0] in x;
      assert forall i :: 1 <= i < |x| ==> x[1..][i - 1] == x[i];
      StripFencesOfBacktickFree(x[1..]);
      StripFencesKeepsHead(x);
      assert x == [x[0]] + x[1..];
    }
  }

  /** Where the text before a backtick does not itself end in one, the scan is standing at that
      backtick: no match crosses the boundary, so each side is cleaned on its own. */
  lemma {:induction false} StripFencesSplit(x: string, z: string)
    requires |x| == 0 || x[|x| - 1] != '`'
    requires |z| == 0 || z[0] == '`'
    ensures StripFences(x + z) == StripFences(x) + StripFences(z)
    decreases |x|
  {
    if |x| == 0 {
      assert x + z == z;
    } else {
      var n, h := ScanStepOfConcat(x, z);
      StripFencesSplit(x[n..], z);
      KeptInFront(h, StripFences(x), StripFences(z), StripFences(x + z), StripFences(x[n..] + z), StripFences(x[n..]));
    }
  }

  /** What the scan keeps in front of both results stays in front of their concatenation. */
  lemma KeptInFront(h: string, rx: string, rz: string, rxz: string, rest: string, tail: string)
    requires rxz == h + rest && rx == h + tail && rest == tail + rz
    ensures rxz == rx + rz
  {
  }

  /** The scan takes the same step on `x + z` as on `x`: it consumes the first `n` characters
      and keeps `h` of them. */
  lemma ScanStepOfConcat(x: string, z: string) returns (n: nat, h: string)
    requires |x| > 0 && x[|x| - 1] != '`'
    requires |z| == 0 || z[0] == '`'
    ensures 0 < n <= |x|
    ensures StripFences(x + z) == h + StripFences(x[n..] + z)
    ensures StripFences(x) == h + StripFences(x[n..])
    ensures |x[n..]| == 0 || x[n..][|x[n..]| - 1] != '`'
  {
    PrefixOfConcat(JsonFence, x, z);
    PrefixOfConcat(Fence, x, z);
    if JsonFence <= x {
      n, h := |JsonFence|, [];
    } else if Fence <= x {
      JsonFenceNotAcross(x, z);
      n, h := |Fence|, [];
    } else {
      FenceNotAcross(x, z);
      n, h := 1, [x[0]];
    }
    DropOfConcat(x, z, n);
  }

  /** A prefix of `x` is a prefix of `x + z`; a prefix of `x + z` no longer than `x` is one of `x`. */
  lemma PrefixOfConcat(p: string, x: string, z: string)
    ensures p <= x ==> p <= x + z
    ensures |p| <= |x| && p <= x + z ==> p <= x
  {
    if |p| <= |x| {
      assert (x + z)[..|p|] == x[..|p|];
    }
  }

  /** A ```` ``` ```` that starts `x` cannot grow into ```` ```json ```` by a backtick that follows. */
  lemma JsonFenceNotAcross(x: string, z: string)
    requires Fence <= x && !(JsonFence <= x)
    requires |z| == 0 || z[0] == '`'
    ensures !(JsonFence <= x + z)
  {
    if |x| < |JsonFence| && |z| > 0 {
      assert (x + z)[|x|] == z[0];
      assert JsonFence[|x|] != '`';
    } else if |z| == 0 {
      assert x + z == x;
    } else {
      PrefixOfConcat(JsonFence, x, z);
    }
  }

  /** Text that does not start with ```` ``` ```` and ends in another character starts no fence
      when more text follows. */
  lemma FenceNotAcross(x: string, z: string)
    requires |x| > 0 && x[|x| - 1] != '`' && !(Fence <= x)
    ensures !(Fence <= x + z) && !(JsonFence <= x + z)
  {
    if |x| < |Fence| {
      assert (x + z)[|x| - 1] == x[|x| - 1];
    } else {
      PrefixOfConcat(Fence, x, z);
    }
    assert JsonFence[..|Fence|] == Fence;
  }

  /** Dropping a prefix of `x` from `x + z`. */
  lemma DropOfConcat(x: string, z: string, n: nat)
    requires 0 < |x| && n <= |x| && x[|x| - 1] != '`'
    ensures (x + z)[n..] == x[n..] + z
    ensures |x[n..]| == 0 || x[n..][|x[n..]| - 1] != '`'
  {
  }

  /** Every ```` ```json ```` the scan meets is deleted whole, the `json` with the backticks. */
  lemma StripFencesDeletesJsonFence(x: string, y: string)
    requires |x| == 0 || x[|x| - 1] != '`'
    ensures StripFences(x + JsonFence + y) == StripFences(x) + StripFences(y)
  {
    StripFencesSplit(x, JsonFence + y);
    assert x + JsonFence + y == x + (JsonFence + y);
    assert (JsonFence + y)[|JsonFence|..] == y;
  }

  /** Every bare ```` ``` ```` the scan meets is deleted; it is bare unless `json` follows. */
  lemma StripFencesDeletesFence(x: string, y: string)
    requires |x| == 0 || x[|x| - 1] != '`'
    requires !("json" <= y)
    ensures StripFences(x + Fence + y) == StripFences(x) + StripFences(y)
  {
    StripFencesSplit(x, Fence + y);
    assert x + Fence + y == x + (Fence + y);
    BareFence(y);
    assert (Fence + y)[|Fence|..] == y;
  }

  /** ```` ``` ```` followed by anything but `json` is not ```` ```json ````. */
  lemma BareFence(y: string)
    requires !("json" <= y)
    ensures !(JsonFence <= Fence + y)
  {
    if |y| >= 4 {
      assert (Fence + y)[3..7] == y[..4];
      assert JsonFence[3..7] == "json";
      NotPrefixAtSlice(JsonFence, Fence + y, 3, 7);
    }
  }

  /** Two strings that differ on a stretch shorter than both are not prefix and whole. */
  lemma NotPrefixAtSlice(p: string, s: string, i: nat, j: nat)
    requires i <= j <= |p| && j <= |s| && p[i..j] != s[i..j]
    ensures !(p <= s)
  {
  }

  /** Backtick-free text does not end in a backtick. */
  lemma LastNotBacktick(x: string)
    requires '`' !in x
    ensures |x| == 0 || x[|x| - 1] != '`'
  {
    if |x| > 0 {
      assert x[|x| - 1] in x;
    }
  }

  /** A block fenced by ```` ```json ```` and ```` ``` ```` around backtick-free text comes back as
      exactly that text. */
  lemma StripFencesOfJsonBlock(x: string)
    requires '`' !in x
    ensures StripFences(JsonFence + x + Fence) == x
  {
    LastNotBacktick(x);
    StripFencesOfBacktickFree(x);
    StripFencesDeletesJsonFence([], x + Fence);
    assert [] + JsonFence + (x + Fence) == JsonFence + x + Fence;
    StripFencesDeletesFence(x, []);
    assert x + Fence + [] == x + Fence;
  }

  /** A block fenced by bare ```` ``` ```` on both sides comes back as the text between, unless
      that text starts with `json`, in which case the opening match is ```` ```json ````. */
  lemma StripFencesOfBareBlock(x: string)
    requires '`' !in x
    ensures StripFences(Fence + x + Fence) == if "json" <= x then x[4..] else x
  {
    if "json" <= x {
      BareBlockOfJson(x);
    } else {
      BareBlockOfText(x);
    }
  }

  lemma BareBlockOfJson(x: string)
    requires '`' !in x && "json" <= x
    ensures StripFences(Fence + x + Fence) == x[4..]
  {
    var w := x[4..];
    assert Fence + x + Fence == JsonFence + w + Fence by {
      assert x == "json" + w;
    }
    assert '`' !in w;
    StripFencesOfJsonBlock(w);
  }

  lemma BareBlockOfText(x: string)
    requires '`' !in x && !("json" <= x)
    ensures StripFences(Fence + x + Fence) == x
  {
    LastNotBacktick(x);
    StripFencesOfBacktickFree(x);
    NoJsonBeforeFence(x);
    StripFencesDeletesFence([], x + Fence);
    assert [] + Fence + (x + Fence) == Fence + x + Fence;
    StripFencesDeletesFence(x, []);
    assert x + Fence + [] == x + Fence;
  }

  /** Backtick-free text that does not start with `json` does not either once a fence follows it. */
  lemma NoJsonBeforeFence(x: string)
    requires '`' !in x && !("json" <= x)
    ensures !("json" <= x + Fence)
  {
    if |x| >= 4 {
      PrefixOfConcat("json", x, Fence);
    } else {
      assert (x + Fence)[|x|..|x| + 1] == "`";
      assert "json"[|x|] != '`' by {
        assert "json" == ['j', 's', 'o', 'n'];
      }
      assert "json"[|x|..|x| + 1][0] != "`"[0];
      NotPrefixAtSlice("json", x + Fence, |x|, |x| + 1);
    }
  }

  /** Position `p` of `s` lies inside a match of one of the two fence alternatives. */
  ghost predicate InFence(s: string, p: int) {
    exists j :: (OccursAt(s, JsonFence, j) && j <= p < j + |JsonFence|) || (OccursAt(s, Fence, j) && j <= p < j + |Fence|)
  }

  /** The positions, from `i` on, whose characters the fence substitution keeps, in order. */
  function KeptFrom(s: string, i: nat): seq<nat>
    requires i <= |s|
    decreases |s| - i
  {
    if JsonFence <= s[i..] then KeptFrom(s, i + |JsonFence|)
    else if Fence <= s[i..] then KeptFrom(s, i + |Fence|)
    else if i == |s| then []
    else [i] + KeptFrom(s, i + 1)
  }

  /** The positions of `s` whose characters the fence substitution keeps, in order. */
  function KeptPositions(s: string): seq<nat> {
    KeptFrom(s, 0)
  }

  /** The fence substitution only deletes, and only fence text: its result is the characters of
      `s` at a strictly increasing list of positions, and every position it leaves out lies inside
      a match of ```` ```json ```` or ```` ``` ````. */
  lemma StripFencesOnlyDeletes(s: string)
    ensures |KeptPositions(s)| == |StripFences(s)|
    ensures forall k :: 0 <= k < |KeptPositions(s)| ==>
      KeptPositions(s)[k] < |s| && s[KeptPositions(s)[k]] == StripFences(s)[k]
    ensures forall a, b :: 0 <= a < b < |KeptPositions(s)| ==> KeptPositions(s)[a] < KeptPositions(s)[b]
    ensures forall p :: 0 <= p < |s| && p !in KeptPositions(s) ==> InFence(s, p)
  {
    KeptFromSpec(s, 0);
    assert s[0..] == s;
  }

  lemma {:induction false} KeptFromSpec(s: string, i: nat)
    requires i <= |s|
    ensures |KeptFrom(s, i)| == |StripFences(s[i..])|
    ensures forall k :: 0 <= k < |KeptFrom(s, i)| ==>
      i <= KeptFrom(s, i)[k] < |s| && s[KeptFrom(s, i)[k]] == StripFences(s[i..])[k]
    ensures forall a, b :: 0 <= a < b < |KeptFrom(s, i)| ==> KeptFrom(s, i)[a] < KeptFrom(s, i)[b]
    ensures forall p :: i <= p < |s| && p !in KeptFrom(s, i) ==> InFence(s, p)
    decreases |s| - i, 1
  {
    if JsonFence <= s[i..] {
      FenceSkipped(s, i, JsonFence);
    } else if Fence <= s[i..] {
      FenceSkipped(s, i, Fence);
    } else if i < |s| {
      CharKept(s, i);
    }
  }

  lemma {:induction false} FenceSkipped(s: string, i: nat, fence: string)
    requires i <= |s| && (fence == JsonFence || fence == Fence) && fence <= s[i..]
    requires fence == Fence ==> !(JsonFence <= s[i..])
    ensures |KeptFrom(s, i)| == |StripFences(s[i..])|
    ensures forall k :: 0 <= k < |KeptFrom(s, i)| ==>
      i <= KeptFrom(s, i)[k] < |s| && s[KeptFrom(s, i)[k]] == StripFences(s[i..])[k]
    ensures forall a, b :: 0 <= a < b < |KeptFrom(s, i)| ==> KeptFrom(s, i)[a] < KeptFrom(s, i)[b]
    ensures forall p :: i <= p < |s| && p !in KeptFrom(s, i) ==> InFence(s, p)
    decreases |s| - i, 0
  {
    var j := i + |fence|;
    KeptFromSpec(s, j);
    assert s[i..][|fence|..] == s[j..];
    assert KeptFrom(s, i) == KeptFrom(s, j);
    assert StripFences(s[i..]) == StripFences(s[j..]);
    assert OccursAt(s, fence, i) by {
      assert s[i..i + |fence|] == s[i..][..|fence|];
    }
    forall p | i <= p < j
      ensures InFence(s, p)
    {
      assert (OccursAt(s, JsonFence, i) && i <= p < i + |JsonFence|) || (OccursAt(s, Fence, i) && i <= p < i + |Fence|);
    }
  }

  lemma {:induction false} CharKept(s: string, i: nat)
    requires i < |s| && !(JsonFence <= s[i..]) && !(Fence <= s[i..])
    ensures |KeptFrom(s, i)| == |StripFences(s[i..])|
    ensures forall k :: 0 <= k < |KeptFrom(s, i)| ==>
      i <= KeptFrom(s, i)[k] < |s| && s[KeptFrom(s, i)[k]] == StripFences(s[i..])[k]
    ensures forall a, b :: 0 <= a < b < |KeptFrom(s, i)| ==> KeptFrom(s, i)[a] < KeptFrom(s, i)[b]
    ensures forall p :: i <= p < |s| && p !in KeptFrom(s, i) ==> InFence(s, p)
    decreases |s| - i, 0
  {
    KeptFromSpec(s, i + 1);
    var rest := KeptFrom(s, i + 1);
    var tail := StripFences(s[i + 1..]);
    assert s[i..][1..] == s[i + 1..];
    assert KeptFrom(s, i) == [i] + rest;
    assert StripFences(s[i..]) == [s[i]] + tail;
    KeptCons(s, i, rest, tail);
  }

  /** Keeping position `i` in front of the positions kept after it. */
  lemma KeptCons(s: string, i: nat, rest: seq<nat>, tail: string)
    requires i < |s| && |rest| == |tail|
    requires forall k :: 0 <= k < |rest| ==> i + 1 <= rest[k] < |s| && s[rest[k]] == tail[k]
    requires forall a, b :: 0 <= a < b < |rest| ==> rest[a] < rest[b]
    requires forall p :: i + 1 <= p < |s| && p !in rest ==> InFence(s, p)
    ensures var idx, r := [i] + rest, [s[i]] + tail;
      && |idx| == |r|
      && (forall k :: 0 <= k < |idx| ==> i <= idx[k] < |s| && s[idx[k]] == r[k])
      && (forall a, b :: 0 <= a < b < |idx| ==> idx[a] < idx[b])
      && (forall p :: i <= p < |s| && p !in idx ==> InFence(s, p))
  {
    var idx, r := [i] + rest, [s[i]] + tail;
    forall k | 0 <= k < |idx|
      ensures i <= idx[k] < |s| && s[idx[k]] == r[k]
    {
      if k > 0 {
        assert idx[k] == rest[k - 1] && r[k] == tail[k - 1];
      }
    }
    forall a, b | 0 <= a < b < |idx|
      ensures idx[a] < idx[b]
    {
      assert idx[b] == rest[b - 1];
      if a > 0 {
        assert idx[a] == rest[a - 1];
      }
    }
    forall p | i <= p < |s| && p !in idx
      ensures InFence(s, p)
    {
      assert p != i && p !in rest;
    }
  }
}

=== FILE: wrappers.dfy ===
/** Failure-carrying datatypes used for Python's `None` values and raised exceptions. */
module Wrappers {

  /** An optional value: `None` stands for Python's `None` or an omitted argument. */
  datatype Option<+T> = None | Some(value: T) {

    /** The value if present, otherwise `default` (Python's `x or default` for values that are only falsy when None). */
    function GetOr(default: T): T {
      match this
      case Some(v) => v
      case None => default
    }
  }

  /** The outcome of a Python call that either returns a value or raises an exception. */
  datatype Result<+T, +E> = Ok(value: T) | Err(error: E) {

    predicate IsFailure() {
      Err?
    }

    function PropagateFailure<U>(): Result<U, E>
      requires Err?
    {
      Err(error)
    }

    function Extract(): T
      requires Ok?
    {
      value
    }
  }
}
